=== FILE: README.md ===
# tts-chrome: a Dafny model of the read-aloud core

This project models the read-aloud core of the tts-chrome browser extension. The extension reads a
page, or a selection of it, aloud. It splits the text into a short first segment and the rest, so
that speech starts quickly. Each segment is synthesised either by a local WebSocket server or by an
on-device model. The audio chunks are scheduled back to back on a single Web Audio timeline.
Further requests can be queued. The client keeps a cache of preloaded, decoded buffers, and the
manager has a hook that preloads the next queued request, but this version of the overlay never
calls it.

The model covers these parts:

- `Basics`: JavaScript's `null`, sums of durations, `filter`, `indexOf`/`splice`, and `\s`.
- `Timeline`: the shared playback cursor `nextTime` and the list of active sources. This is the
  scheduling step every audio path repeats.
- `TtsClient`: the WebSocket segment path of `ttsClient.ts`, plus `stopSpeech`, `reset` and
  `waitForPlaybackCompletion`.
- `OnDevice`: the on-device paths of `ttsClient.ts`, both the single buffer and the streaming
  generator with its abort controller.
- `PreloadCache` and `PreloadPlayback`: the preload bookkeeping, covering the preloaded and
  in-flight key sets and the buffer map, the two preload paths, and `playPreloadedText`.
- `LegacyTts` and `LegacySplit`: the first version of the client (`tts.js`) and of the split
  (`utils.js`).
- `TextSplit`: `getWords` and `splitTextForHybrid` of `utilsText.ts`, with its search for a
  sentence end or comma, its abbreviation rules and its removal of a repeated block.
- `PageText`: the string logic of `extractPageText`, which chooses the title and the content and
  combines them.
- `RequestQueue`: the request listener, queue, close handling and preloading of `OverlayManager.tsx`.
- `OverlaySession`: the reading overlay of `Overlay.tsx`, covering the run of both segments, the
  progress bar, pause and stop.
- `ModelLoader`: the memoised, retryable loading of the on-device model and its progress callbacks
  (`modelLoader.ts`).

The model also makes these choices:

- Clock readings, durations and cursors are `real`s.
- Asynchronous callbacks are atomic transition functions, and their order is given by the caller.
- Sockets, sources, abort controllers, models and callbacks are opaque identities handed out by
  counters.
- The Web Audio clock, the audio data, and whatever the server or the on-device model produce are
  parameters.

The model follows the code in these places, where a reader might expect otherwise:

- `resetModel` keeps the registered progress callbacks.
- A server preload that failed still marks its key preloaded.
- The overlay uses the default search window of 10 words.

## Model

| member | source | states |
|---|---|---|
| Basics.Without | tts-ext/src/lib/ttsClient.ts:107 | `filter(s => s !== x)` keeps exactly the elements other than `x`, and changes nothing when `x` is absent |
| Basics.WithoutAppend | tts-ext/src/lib/ttsClient.ts:107 | filtering distributes over concatenation, so the survivors keep their order |
| Basics.AppendThenWithout | tts-ext/src/lib/ttsClient.ts:105-108 | pushing a fresh source and filtering it out on `onended` restores the list |
| Basics.RemoveAt | tts-ext/src/components/ui/OverlayManager.tsx:154-156 | the index filter removes exactly position `i` when it exists, and is the identity otherwise |
| Basics.IndexOf | tts-ext/src/lib/modelLoader.ts:52 | `indexOf` gives the first position holding the value, or -1 exactly when it is absent |
| Basics.RemoveFirst | tts-ext/src/lib/modelLoader.ts:51-56 | `splice(indexOf(x), 1)` removes the first occurrence of `x` and keeps the rest in order, so the multiset loses exactly one `x`; an absent `x` changes nothing |
| Basics.AppendThenRemoveFirst | tts-ext/src/lib/modelLoader.ts:32-56 | registering a fresh callback and then removing it restores the list |
| Basics.Sum | tts-ext/src/lib/ttsClient.ts:292 | definition: `reduce((t, b) => t + b, 0)` over durations, from the front; `SumNonNeg` and `SumScaled` state its contract |
| Basics.SumScaled | tts-ext/src/lib/ttsClient.ts:292-317 | the sum of the buffer durations divided by the speed equals the sum of the per-buffer quotients |
| Basics.SpaceRun | tts-ext/src/lib/utilsText.ts:2-4 | the leading whitespace run is maximal: all space, followed by a non-space or the end |
| Basics.WordRun | tts-ext/src/lib/utilsText.ts:2-4 | the leading word run is maximal: no space, followed by a space or the end |
| Timeline.Initial | tts-ext/src/lib/ttsClient.ts:8-11 | the module starts drained, with no cursor and a valid source list |
| Timeline.InitCursor | tts-ext/src/lib/ttsClient.ts:53 | an unset cursor becomes the clock, a set one is left alone, and nothing else changes |
| Timeline.StartTime | tts-ext/src/lib/ttsClient.ts:99 | a chunk never starts before the clock; it starts at the cursor when the cursor is ahead, else at the clock (null counts as 0) |
| Timeline.ScheduleChunk | tts-ext/src/lib/ttsClient.ts:96-109 | the chunk starts no earlier than the clock and at the cursor when that is ahead; the cursor moves to its end; its fresh source is appended |
| Timeline.EndSource | tts-ext/src/lib/ttsClient.ts:106-108 | `onended` removes exactly the ended source and keeps the list free of duplicates |
| Timeline.WithoutKeepsDistinct | tts-ext/src/lib/ttsClient.ts:107 | filtering a duplicate-free list leaves it duplicate-free |
| Timeline.ScheduleThenEnd | tts-ext/src/lib/ttsClient.ts:105-108 | scheduling a chunk and seeing it end leaves the sources that were active before |
| Timeline.Reset | tts-ext/src/lib/ttsClient.ts:30-33 | `reset()` clears the cursor and leaves the playing sources alone |
| Timeline.StopAll | tts-ext/src/lib/ttsClient.ts:331-343 | stopping stops exactly the active sources and leaves the timeline drained with no cursor |
| Timeline.EndAll | tts-ext/src/lib/ttsClient.ts:106-108 | after a series of `onended` events, exactly the sources that did not end remain |
| Timeline.EndingAllDrains | tts-ext/src/lib/ttsClient.ts:346-353 | once every active source has ended, the completion test `activeSources.length === 0` holds |
| Timeline.ScheduleRun | tts-ext/src/lib/ttsClient.ts:59-110 | a run of chunks starts each one no earlier than its clock, gives it its duration, appends their sources in order and leaves the cursor at the last one's end |
| Timeline.ScheduleRunNoOverlap | tts-ext/src/lib/ttsClient.ts:99-109 | consecutive chunks never overlap, and they abut whenever the clock has not overtaken the cursor |
| Timeline.NoOverlapLast | tts-ext/src/lib/ttsClient.ts:99-109 | the last chunk of a run starts where the one before it ends, or later if the clock has passed that point |
| Timeline.SourcesOf | tts-ext/src/lib/ttsClient.ts:105 | the sources of a run, in scheduling order |
| Timeline.ScheduleRunGapFree | tts-ext/src/lib/ttsClient.ts:99-109 | with the clock behind the cursor, chunk `k` starts at the initial cursor plus the durations before it, and the cursor ends at the total |
| Timeline.GapFreeAt | tts-ext/src/lib/ttsClient.ts:99-109 | the per-chunk case of the gap-free start, proved by induction |
| Timeline.GapFreeEnd | tts-ext/src/lib/ttsClient.ts:109 | when the last chunk starts at the initial cursor plus the durations before it, the cursor ends at the initial cursor plus all the durations |
| Timeline.ScheduleRunFirst | tts-ext/src/lib/ttsClient.ts:99-103 | a run's first chunk starts where one scheduling step would put it |
| Timeline.ScheduleRunPrefix | tts-ext/src/lib/ttsClient.ts:59-110 | scheduling further chunks never moves the ones already scheduled |
| Timeline.ScheduleRunUnfold | tts-ext/src/lib/ttsClient.ts:59-110 | a run is the run of all but the last chunk followed by one scheduling step |
| TtsClient.Initial | tts-ext/src/lib/ttsClient.ts:8-20 | the module starts with nothing playing, no sockets and no streaming controller |
| TtsClient.ResetClient | tts-ext/src/lib/ttsClient.ts:30-33 | `reset()` forgets the cursor and the second-segment flag; the sources, sockets, controller and cache are untouched |
| TtsClient.StillOpen | tts-ext/src/lib/ttsClient.ts:337-341 | the sockets `stopSpeech` closes are exactly those not already closing |
| TtsClient.StopSpeech | tts-ext/src/lib/ttsClient.ts:323-344 | it aborts and forgets the controller, stops every active source, closes each open socket once, drains the timeline and clears the cursor; the cache, voice and speed are kept |
| TtsClient.StopSpeechIdempotent | tts-ext/src/lib/ttsClient.ts:323-344 | a second `stopSpeech` changes nothing and stops, aborts or closes nothing |
| TtsClient.EndTicksActive | tts-ext/src/lib/ttsClient.ts:106-108 | after the `onended` events of several polling intervals, exactly the sources that did not end remain |
| TtsClient.EndTicksStep | tts-ext/src/lib/ttsClient.ts:348-351 | one more polling interval applies that interval's `onended` events |
| TtsClient.EndTicksDrains | tts-ext/src/lib/ttsClient.ts:346-353 | once every playing source has ended in some interval, polling sees the timeline drained |
| TtsClient.SomeSourceOutlasts | tts-ext/src/lib/ttsClient.ts:346-353 | while polling still finds sources after all the intervals, some source that was playing ended in none of them |
| TtsClient.WaitForPlaybackCompletion | tts-ext/src/lib/ttsClient.ts:346-354 | resolves at the first check, at once or after some 100 ms intervals, that finds no active source; it resolves whenever every source ends |
| TtsClient.Settle | tts-ext/src/lib/ttsClient.ts:112-119 | a promise settles once: a later resolve or reject has no effect |
| TtsClient.ProcessSegment | tts-ext/src/lib/ttsClient.ts:35-48 | a fresh socket is pushed on `activeSockets`; the promise is pending, no chunk has arrived yet, and the rate starts as the context's |
| TtsClient.Opened | tts-ext/src/lib/ttsClient.ts:50-57 | `onopen` sets an unset cursor to the clock and sends the text with the current voice and speed |
| TtsClient.BufferCreatable | tts-ext/src/lib/ttsClient.ts:96 | definition: `createBuffer(1, frames, rate)` succeeds iff there is at least one frame and the rate lies from 3000 to 768000 Hz; `Received` states that exactly such chunks are scheduled |
| TtsClient.BufferDuration | tts-ext/src/lib/ttsClient.ts:96 | a buffer of `frames` samples at `rate` lasts `frames / rate` seconds |
| TtsClient.Received | tts-ext/src/lib/ttsClient.ts:59-110 | a closing socket's messages do nothing; error and end frames request a close (an error also rejects); `sample_rate` changes the rate; `onFirstChunk` fires exactly on the first binary chunk; a creatable buffer (at least one frame, a rate from 3000 to 768000 Hz) is scheduled on the timeline |
| TtsClient.Errored | tts-ext/src/lib/ttsClient.ts:112-114 | `onerror` rejects unless the promise has already settled |
| TtsClient.Closed | tts-ext/src/lib/ttsClient.ts:116-119 | `onclose` drops exactly this socket and resolves unless the promise has already settled |
| TtsClient.FirstChunkAtMostOnce | tts-ext/src/lib/ttsClient.ts:83-87 | over any sequence of messages `onFirstChunk` runs at most once, and not at all once a chunk has arrived |
| TtsClient.ErrorOrEndThenClose | tts-ext/src/lib/ttsClient.ts:64-119 | an error frame followed by the close leaves the promise rejected; an end frame leaves it resolved; the socket is gone either way |
| TtsClient.SampleRateAppliesToLaterChunks | tts-ext/src/lib/ttsClient.ts:74-96 | after a `sample_rate` frame, a later chunk is scheduled iff the rate is one `createBuffer` accepts, and then lasts `frames / rate` seconds |
| OnDevice.ClientSideBegin | tts-ext/src/lib/ttsClient.ts:199-208 | the call fails iff the on-demand load of `ensureModelLoaded` failed; otherwise an unset cursor becomes the clock |
| OnDevice.ClientSideDelivered | tts-ext/src/lib/ttsClient.ts:209-229 | up to the final wait, which `TtsClient.WaitForPlaybackCompletion` models: a generated buffer is reported to `onFirstChunk` with its duration and scheduled on the timeline; a failure leaves the client unchanged |
| OnDevice.ClientSideContinuesTimeline | tts-ext/src/lib/ttsClient.ts:218-228 | with the cursor ahead of the clock, the buffer starts exactly at the cursor |
| OnDevice.StartStream | tts-ext/src/lib/ttsClient.ts:363-391 | starting a stream aborts the previous controller and installs a fresh one that is not aborted; totals start at zero |
| OnDevice.StreamChunk | tts-ext/src/lib/ttsClient.ts:396-448 | an aborted stream ignores the chunk; otherwise the chunk is scheduled, the totals grow, `onFirstChunk` fires only for the first chunk, and progress is reported |
| OnDevice.StreamEnded | tts-ext/src/lib/ttsClient.ts:452-461 | completion, with the total duration, is reported exactly when the stream was not aborted |
| OnDevice.StreamFinished | tts-ext/src/lib/ttsClient.ts:492-505 | a failure is rethrown only if the stream was not aborted; the controller is cleared only if it is still this stream's |
| OnDevice.ChunkDurations | tts-ext/src/lib/ttsClient.ts:426-437 | the durations of the stream's chunks, in order |
| OnDevice.StreamWithoutAbort | tts-ext/src/lib/ttsClient.ts:377-461 | an uninterrupted stream schedules its chunks as one timeline run, totals their durations and characters, calls `onFirstChunk` once, reports progress per chunk and completes with the total |
| OnDevice.StreamAll | tts-ext/src/lib/ttsClient.ts:396-451 | definition: the stream's chunks handled in order, each at its own clock reading; the four `StreamAll` lemmas state its contract |
| OnDevice.StreamAllKeepsController | tts-ext/src/lib/ttsClient.ts:396-448 | a running stream keeps its controller and totals, and has handled a chunk iff it received one |
| OnDevice.StreamAllPlay | tts-ext/src/lib/ttsClient.ts:426-437 | the chunks of an uninterrupted stream are scheduled exactly as a timeline run |
| OnDevice.StreamAllTotals | tts-ext/src/lib/ttsClient.ts:388-447 | the running duration and character totals are the sums over the chunks |
| OnDevice.StreamAllCallbacks | tts-ext/src/lib/ttsClient.ts:417-447 | the callbacks are `onFirstChunk` once and then one progress report per chunk |
| OnDevice.StopSilencesStream | tts-ext/src/lib/ttsClient.ts:325-401 | after `stopSpeech`, later chunks are ignored and no completion is reported |
| OnDevice.NewStreamSupersedesOld | tts-ext/src/lib/ttsClient.ts:366-505 | a new stream aborts the running one: the old stream's chunks are ignored, its failure is not rethrown and it does not clear the new controller |
| OnDevice.Tokens | tts-ext/src/lib/ttsClient.ts:466 | definition: the matches of `/\s*\S+/g`, each a whitespace run and a maximal word; `TokensCoverText` and `TokensEndInWord` state its contract |
| OnDevice.TokensCoverText | tts-ext/src/lib/ttsClient.ts:466-479 | feeding the `/\s*\S+/g` tokens loses only trailing whitespace of the text |
| OnDevice.TokensEndInWord | tts-ext/src/lib/ttsClient.ts:466-479 | every token is non-empty and ends in a non-space character |
| PreloadCache.KeysOfPathsDiffer | tts-ext/src/lib/ttsClient.ts:131-283 | server keys and on-device keys never collide, and an on-device key identifies its request |
| PreloadCache.Durations | tts-ext/src/lib/ttsClient.ts:292 | the durations of the cached buffers, in order |
| PreloadCache.Begin | tts-ext/src/lib/ttsClient.ts:131-135 | a known key starts nothing and changes nothing; a fresh key is marked in flight and gets an empty buffer list, with the other entries untouched |
| PreloadCache.AddBuffer | tts-ext/src/lib/ttsClient.ts:176 | a buffer is appended to its key's list; a missing list makes `push` throw, so nothing changes |
| PreloadCache.ServerClosed | tts-ext/src/lib/ttsClient.ts:179-184 | the server preload's close marks its key preloaded and no longer in flight, leaving the other keys alone |
| PreloadCache.ClientBeginAsWritten | tts-ext/src/lib/ttsClient.ts:248-270 | as written, the early return for a known key also runs `finally`, which removes the key's in-flight mark |
| PreloadCache.ClientFinished | tts-ext/src/lib/ttsClient.ts:255-270 | the on-device preload's end always clears the in-flight mark; on success it stores the buffer and marks the key preloaded |
| PreloadCache.ClientPreloadOutcome | tts-ext/src/lib/ttsClient.ts:238-271 | a successful preload of a fresh key stores exactly that buffer; a failed one leaves the key unknown with an empty list |
| PreloadCache.OverlappingPreloadsStartOnce | tts-ext/src/lib/ttsClient.ts:248-254 | with the corrected opening, any number of overlapping calls for one key start one synthesis, or none if the key is known |
| PreloadCache.KnownKeyStartsNothing | tts-ext/src/lib/ttsClient.ts:248-251 | calls for a known key change nothing |
| PreloadCache.ThreeOverlappingPreloadsStartTwice | tts-ext/src/lib/ttsClient.ts:248-270 | as written, three overlapping calls for a fresh key start two syntheses |
| PreloadCache.LastBar | tts-ext/src/lib/ttsClient.ts:131 | finds the last `\|` in a key string, or -1 |
| PreloadCache.SplitAtLastBar | tts-ext/src/lib/ttsClient.ts:131 | cutting at the last `\|` recovers both parts when the tail has none |
| PreloadCache.ServerKey | tts-ext/src/lib/ttsClient.ts:131 | definition: the server path's key of text, voice and speed |
| PreloadCache.ClientKey | tts-ext/src/lib/ttsClient.ts:245 | definition: the on-device path's key, the same fields marked client-side |
| PreloadCache.KeyText | tts-ext/src/lib/ttsClient.ts:131-245 | definition: the key string `text\|voice\|speed`, with `\|clientside` for on-device keys; `KeyTextInjective` shows the datatype loses nothing |
| PreloadCache.KeyTextInjective | tts-ext/src/lib/ttsClient.ts:131-245 | the key string `text\|voice\|speed[\|clientside]` determines the text, voice, speed text and path when the voice has no `\|` |
| PreloadCache.NumberTextIsNotTail | tts-ext/src/lib/ttsClient.ts:245 | a speed's text is never `clientside`, so the suffix cannot be confused with a speed |
| PreloadPlayback.PreloadText | tts-ext/src/lib/ttsClient.ts:126-148 | a known key does nothing; otherwise the key is begun, the voice and speed become current and a preload socket starts |
| PreloadPlayback.PreloadReceived | tts-ext/src/lib/ttsClient.ts:148-177 | like the segment path, except that a creatable chunk is appended to the key's buffers instead of being played |
| PreloadPlayback.PreloadClosed | tts-ext/src/lib/ttsClient.ts:179-184 | close marks the key preloaded and resolves unless the promise has already settled |
| PreloadPlayback.FailedServerPreloadIsNeverRetried | tts-ext/src/lib/ttsClient.ts:164-184 | an error frame still leaves the key preloaded, so every later preload of the request is skipped |
| PreloadPlayback.PreloadClientSideBeginAsWritten | tts-ext/src/lib/ttsClient.ts:238-270 | as written, when the load of `ensureModelLoaded` failed nothing happens; when it succeeded, the as-written opening runs |
| PreloadPlayback.PreloadClientSideBegin | tts-ext/src/lib/ttsClient.ts:238-254 | corrected: a synthesis starts iff the load succeeded and the key is unknown; a skip changes nothing |
| PreloadPlayback.PreloadClientSideFinished | tts-ext/src/lib/ttsClient.ts:255-270 | the asynchronous end stores a generated buffer and always clears the in-flight mark |
| PreloadPlayback.AtSpeed | tts-ext/src/lib/ttsClient.ts:317 | each buffer plays for its duration divided by the speed |
| PreloadPlayback.PlayPreloaded | tts-ext/src/lib/ttsClient.ts:277-318 | no buffers means no effect; otherwise `onFirstChunk` gets the unscaled total and every buffer is scheduled, scaled by the speed, in order |
| PreloadPlayback.PlayPreloadedBackToBack | tts-ext/src/lib/ttsClient.ts:302-318 | the buffers play back to back from the clock, and the cursor ends at the clock plus total / speed |
| PreloadPlayback.BackToBackFromClock | tts-ext/src/lib/ttsClient.ts:306-318 | chunks scheduled at one clock reading, from a cursor at that reading, abut |
| PreloadPlayback.PlaySingleBuffer | tts-ext/src/lib/ttsClient.ts:290-318 | a key holding one buffer plays that buffer alone, from the clock, for its duration divided by the speed, and reports its duration as the total |
| PreloadPlayback.PreloadThenPlay | tts-ext/src/lib/ttsClient.ts:238-318 | an on-device preload of a fresh request followed by playback plays exactly that buffer, from the clock, at the speed |
| LegacyTts.Initial | tts_extension/js/tts.js:6-10 | the legacy client starts drained with no sockets |
| LegacyTts.ProcessSegment | tts_extension/js/tts.js:16-24 | a fresh socket is registered, and the promise is pending |
| LegacyTts.Opened | tts_extension/js/tts.js:25-36 | an unset cursor becomes the clock, and the text and voice are sent |
| LegacyTts.Received | tts_extension/js/tts.js:37-88 | error and end frames close; any other message counts as the first chunk, and fires the callback only for the first segment with a callback; it is decoded at 24000 Hz and scheduled |
| LegacyTts.Errored | tts_extension/js/tts.js:90-92 | `onerror` rejects unless the promise has already settled |
| LegacyTts.Closed | tts_extension/js/tts.js:94-97 | `onclose` drops exactly this socket and resolves |
| LegacyTts.StopSpeech | tts_extension/js/tts.js:101-116 | stops every source, closes each open socket once, drains and forgets the cursor |
| LegacyTts.StopSpeechIdempotent | tts_extension/js/tts.js:101-116 | a second stop does nothing more |
| LegacyTts.Reset | tts_extension/js/tts.js:118-121 | forgets the cursor and the second-segment flag and leaves the rest alone |
| LegacyTts.OnlyFirstSegmentCallsBack | tts_extension/js/tts.js:52-121 | within one run only the first segment's first chunk calls back; after `reset` the next run's does again |
| LegacyTts.TextFrameCountsAsFirstChunk | tts_extension/js/tts.js:39-64 | a JSON frame that is neither error nor end is taken for the first chunk and fires the callback, with nothing scheduled |
| LegacySplit.Slice | tts_extension/js/utils.js:10-14 | JavaScript `slice`: in-range slicing, a negative start counting from the end, and clamping |
| LegacySplit.LegacyTestIsCutAtTest | tts_extension/js/utils.js:10-15 | on proper words, the first version's unguarded overlap test succeeds exactly when the newer version's length guard holds and its test succeeds |
| LegacySplit.LegacyCut | tts_extension/js/utils.js:10-15 | definition: the fixed cut after `initialWords` words with the unguarded `slice(-overlapWords)` test; `LegacyCutIsCutAt` relates it to the newer cut |
| LegacySplit.LegacySplitText | tts_extension/js/utils.js:5-19 | definition: a short text is one segment, a longer one is cut by `LegacyCut` and joined |
| LegacySplit.LegacyCutIsCutAt | tts_extension/js/utils.js:10-15 | with an overlap no longer than the first segment, the first version cuts after `initialWords` words and removes the same block as the newer version's guarded test |
| LegacySplit.LegacyIsSplitWithoutSearch | tts_extension/js/utils.js:5-19 | the first version is the newer split with a search window of 0 |
| LegacySplit.LegacyKeepsWords | tts_extension/js/utils.js:5-19 | the first version keeps every word in order and drops at most the one block repeating the first segment's last `overlapWords` words |
| TextSplit.TrimEnd | tts-ext/src/lib/utilsText.ts:2-4 | strips exactly the trailing whitespace |
| TextSplit.Trim | tts-ext/src/lib/utilsText.ts:2-4 | `trim()` yields the text between the leading and trailing whitespace runs, and the result is trimmed |
| TextSplit.TrimTrimmed | tts-ext/src/lib/utilsText.ts:2-4 | trimming trimmed text changes nothing |
| TextSplit.SplitWs | tts-ext/src/lib/utilsText.ts:2-4 | `split(/\s+/)` always yields at least one piece, no piece contains whitespace, and the pieces joined with single spaces are the text with each maximal whitespace run collapsed to one space |
| TextSplit.GetWords | tts-ext/src/lib/utilsText.ts:2-4 | blank text yields `[""]`; otherwise the result is non-empty words without whitespace; for every text the words joined with single spaces are the trimmed text with each whitespace run collapsed to one space |
| TextSplit.SplitTrimmedIsWords | tts-ext/src/lib/utilsText.ts:2-4 | splitting non-empty trimmed text yields proper words |
| TextSplit.SplitStep | tts-ext/src/lib/utilsText.ts:2-4 | in trimmed text, the first word is non-empty and free of whitespace, and what follows the whitespace after it is again trimmed and not blank |
| TextSplit.Join | tts-ext/src/lib/utilsText.ts:250-253 | definition: `join(' ')`, the words with single spaces between them; `JoinShape`, `JoinThenSplit`, `JoinInjective` and `WordsRoundTrip` state its contract |
| TextSplit.JoinShape | tts-ext/src/lib/utilsText.ts:250-253 | `join(' ')` of words is trimmed, empty only for no words, and starts with the first word |
| TextSplit.JoinThenSplit | tts-ext/src/lib/utilsText.ts:250-253 | splitting joined words gives the words back |
| TextSplit.Collapse | tts-ext/src/lib/utilsText.ts:2-4 | definition, independent of the split: each maximal whitespace run becomes one space, character by character |
| TextSplit.CollapseSplit | tts-ext/src/lib/utilsText.ts:2-4 | collapsing a text gives its first piece, one space, and the collapsed rest after the whitespace run |
| TextSplit.GetWordsDetermined | tts-ext/src/lib/utilsText.ts:2-4 | on every non-blank text, proper words join to the collapsed trimmed text iff they are the words `getWords` returns |
| TextSplit.WordsRoundTrip | tts-ext/src/lib/utilsText.ts:2-4 | `getWords` undoes `join(' ')` on proper words |
| TextSplit.JoinInjective | tts-ext/src/lib/utilsText.ts:234-237 | different word lists join to different strings, so the joined-text comparison is a word-by-word comparison |
| TextSplit.SingleInitialIsCapDots | tts-ext/src/lib/utilsText.ts:169-196 | every single initial `A.` already matches the capital-dot pattern, so the branch at line 196 is unreachable |
| TextSplit.ProtectedByWordAlone | tts-ext/src/lib/utilsText.ts:166-208 | whether a dotted word is protected depends only on the word: capital dots, lower-case dots, or a title |
| TextSplit.AbbreviationExamples | tts-ext/src/lib/utilsText.ts:168-193 | U.S.A., U.K., e.g. and i.e. are protected; Ph.D. and an ordinary sentence end are not |
| TextSplit.FindSplit | tts-ext/src/lib/utilsText.ts:159-221 | the backward search returns one past the first preferred word it meets in the window, or the target when there is none |
| TextSplit.SplitPoint | tts-ext/src/lib/utilsText.ts:155-221 | the split point is at most the target and positive; before the target it follows a preferred word within the window, and no later word in the window is preferred; at the target, either the word before it is preferred or no word of the window is |
| TextSplit.Protected | tts-ext/src/lib/utilsText.ts:166-208 | definition: a dot-ended word is protected by the capital-dot, lower-case-dot and title rules, or by the single-initial rule with its neighbour tests; `ProtectedByWordAlone` states what it amounts to |
| TextSplit.Preferred | tts-ext/src/lib/utilsText.ts:166-220 | definition: the first segment may end after an unprotected sentence end or after a comma; `FindSplit` and `SplitPoint` state the search over it |
| TextSplit.CutAt | tts-ext/src/lib/utilsText.ts:223-240 | definition: the two word lists at a split point and the guarded overlap test; `CutAtKeepsWords` and `CutAtDropsOnlyRepeats` state its contract |
| TextSplit.SplitTextForHybrid | tts-ext/src/lib/utilsText.ts:143-253 | definition: a short text is one segment, a longer one is cut at the split point and both halves are joined; `ShortTextIsOneSegment`, `CutKeepsWords` and `SegmentsReadBack` state its contract |
| TextSplit.ShortTextIsOneSegment | tts-ext/src/lib/utilsText.ts:151-153 | a text of at most `target` words is one unchanged segment |
| TextSplit.CutWords | tts-ext/src/lib/utilsText.ts:155-240 | the first segment is a prefix of the words, at most `target` long and non-empty when `target` is positive; the second is every word after it, less the `overlap` words that follow the split point exactly when the cut is marked as deduplicated |
| TextSplit.CutKeepsWords | tts-ext/src/lib/utilsText.ts:223-240 | no word is lost or reordered: the words are the first segment, at most one repeated block, and the second segment |
| TextSplit.CutAtKeepsWords | tts-ext/src/lib/utilsText.ts:223-240 | the same, at any split point |
| TextSplit.CutAtDropsOnlyRepeats | tts-ext/src/lib/utilsText.ts:228-240 | at any split point, the first segment has exactly the words before it, and the block is dropped iff it repeats the `overlap` words before the split point, with both sides long enough |
| TextSplit.CutDropsOnlyRepeats | tts-ext/src/lib/utilsText.ts:228-240 | the leading block is dropped iff it repeats, word for word, the `overlap` words before the split point and both sides are long enough |
| TextSplit.RepeatTest | tts-ext/src/lib/utilsText.ts:233-237 | comparing joined blocks is comparing the blocks |
| TextSplit.CutAtReadBack | tts-ext/src/lib/utilsText.ts:228-253 | both word lists of a cut at a positive split point read back from their joined text unchanged, and the second joins to `''` only when it is empty |
| TextSplit.SegmentsReadBack | tts-ext/src/lib/utilsText.ts:143-253 | the segments read back as exactly the cut's word lists, and the second is empty iff nothing is left |
| PageText.DocumentTitle | tts-ext/src/lib/utilsText.ts:55-60 | `document.title` is used, trimmed, exactly when its trimmed length is between 4 and 199 |
| PageText.SelectTitle | tts-ext/src/lib/utilsText.ts:43-60 | the title is the first acceptable heading, trimmed, else the document title; it is empty or trimmed and of acceptable length |
| PageText.SelectContent | tts-ext/src/lib/utilsText.ts:63-78 | the content is the first container text longer than 100 after trimming, else the body text |
| PageText.Lower | tts-ext/src/lib/utilsText.ts:83 | `toLowerCase` maps each character and keeps the length |
| PageText.LowerAppend | tts-ext/src/lib/utilsText.ts:83 | lowercasing distributes over concatenation |
| PageText.Combine | tts-ext/src/lib/utilsText.ts:81-90 | the result ends with the content and starts with the title up to case; it is the content alone iff the title is empty or the content already starts with it (ignoring case), the title alone when the content is empty, and otherwise the title, `". "` and the content |
| PageText.CombineIdempotent | tts-ext/src/lib/utilsText.ts:81-90 | combining again with the same title changes nothing |
| PageText.ExtractPageText | tts-ext/src/lib/utilsText.ts:6-91 | definition: the chosen title combined with the chosen content; `PageTextShape` states its contract |
| PageText.PageTextShape | tts-ext/src/lib/utilsText.ts:6-91 | the page text ends with the chosen content, starts with the chosen title up to case, and is empty only when both are |
| RequestQueue.Initial | tts-ext/src/components/ui/OverlayManager.tsx:22-27 | the manager starts with nothing current, queued or pending |
| RequestQueue.Receive | tts-ext/src/components/ui/OverlayManager.tsx:49-91 | a non-`readText` or empty message is ignored; with nothing current the request starts with a new key; with the queue on it is appended; otherwise speech stops and the start is deferred |
| RequestQueue.RunDeferred | tts-ext/src/components/ui/OverlayManager.tsx:81-85 | the deferred start makes the oldest pending request current with a new key |
| RequestQueue.HandleClose | tts-ext/src/components/ui/OverlayManager.tsx:129-148 | closing always stops speech; the queue's head becomes current with a new key, or nothing is current |
| RequestQueue.RemoveQueueItem | tts-ext/src/components/ui/OverlayManager.tsx:154-156 | removes exactly the queued request at the index and keeps the others in order |
| RequestQueue.PreloadIndex | tts-ext/src/components/ui/OverlayManager.tsx:106-108 | the preload looks at the second request when several are queued, else the first |
| RequestQueue.PreloadNext | tts-ext/src/components/ui/OverlayManager.tsx:99-127 | nothing is done for an empty queue or a key already loaded; a key preloaded in the cache is recorded; otherwise a preload of that request starts |
| RequestQueue.PreloadCompleted | tts-ext/src/components/ui/OverlayManager.tsx:116-118 | a completed preload records its key |
| RequestQueue.KeyGrowsWithEachStart | tts-ext/src/components/ui/OverlayManager.tsx:63-148 | the key grows by one exactly when a request starts |
| RequestQueue.QueuedRequestsPlayInOrder | tts-ext/src/components/ui/OverlayManager.tsx:69-148 | requests queued behind the current one are read in arrival order, one per close |
| RequestQueue.EnqueueAllQueues | tts-ext/src/components/ui/OverlayManager.tsx:69-71 | with the queue on and a current request, each arrival is appended |
| RequestQueue.CloseTimesAdvances | tts-ext/src/components/ui/OverlayManager.tsx:129-148 | after `n` closes the `n`th queued request is current and the rest remain queued |
| RequestQueue.PreloadSkipsTheNextRequest | tts-ext/src/components/ui/OverlayManager.tsx:106-119 | with two or more queued, the request preloaded is not the one read next |
| RequestQueue.InterruptRaceKeepsEarlier | tts-ext/src/components/ui/OverlayManager.tsx:63-85 | as written, two interruptions within one tick leave the earlier request current |
| RequestQueue.ReceiveLatest | tts-ext/src/components/ui/OverlayManager.tsx:49-91 | corrected: the same admissions, but an interruption replaces any pending start |
| RequestQueue.LatestRequestWins | tts-ext/src/components/ui/OverlayManager.tsx:72-85 | with the corrected listener, the last request received is the one read, whatever arrives or is pending before it |
| OverlaySession.Estimate | tts-ext/src/components/ui/Overlay.tsx:25 | the estimate is the length at 15 characters a second, and zero only for empty text |
| OverlaySession.Percent | tts-ext/src/components/ui/Overlay.tsx:47-49 | the bar never exceeds 100; with a positive total it is proportional and reaches 100 iff the elapsed time reaches the total; zero over zero is not a number |
| OverlaySession.PercentMonotone | tts-ext/src/components/ui/Overlay.tsx:47-49 | with a fixed total the bar never moves back |
| OverlaySession.Mount | tts-ext/src/components/ui/Overlay.tsx:33-42 | mounting shows the spinner, plays, and estimates the total for the whole text |
| OverlaySession.FirstChunk | tts-ext/src/components/ui/Overlay.tsx:43-51 | the first chunk hides the spinner and starts the bar at the clock |
| OverlaySession.Tick | tts-ext/src/components/ui/Overlay.tsx:46-50 | each tick shows the percentage of the total elapsed since the bar started |
| OverlaySession.FirstSegmentDone | tts-ext/src/components/ui/Overlay.tsx:56-60 | the total becomes the measured first segment plus the estimate for the second |
| OverlaySession.AllSegmentsDone | tts-ext/src/components/ui/Overlay.tsx:61-63 | the total becomes the cursor's distance from the bar's start |
| OverlaySession.BarFullExactlyAtEnd | tts-ext/src/components/ui/Overlay.tsx:47-63 | after both segments the bar is full exactly when the clock reaches the end of the audio |
| OverlaySession.Cleanup | tts-ext/src/components/ui/Overlay.tsx:64-69 | the `finally` block short of `onClose`: stop ticking and playing, hide the spinner, show 100; the close count, total and bar start are kept |
| OverlaySession.Finish | tts-ext/src/components/ui/Overlay.tsx:64-71 | whether the run succeeded or threw: the same terminal state as `Cleanup`, and `onClose` called once more |
| OverlaySession.Started | tts-ext/src/components/ui/Overlay.tsx:33-51 | after mounting and the first segment's first chunk, if one arrives: the bar ticks iff a chunk arrived and starts at its clock; the total is the whole text's estimate |
| OverlaySession.Run | tts-ext/src/components/ui/Overlay.tsx:53-72 | definition: a run without Stop that completes or throws during the first or the second segment; `RunAlwaysCloses` states its contract |
| OverlaySession.RunAlwaysCloses | tts-ext/src/components/ui/Overlay.tsx:53-72 | every run without Stop, whether it completes, throws, or gets no first chunk, ends in the same terminal state with `onClose` called once; a failure in the first segment keeps the estimate, and a completed run's total is the measured audio length from the bar's start |
| OverlaySession.Segmented | tts-ext/src/components/ui/Overlay.tsx:38 | definition: `splitTextForHybrid(text, 15, 3)` with the default search window 10; `SegmentedShape` states its contract |
| OverlaySession.SegmentedShape | tts-ext/src/components/ui/Overlay.tsx:38 | with target 15, overlap 3 and a search window of 10, a text of at most 15 words is spoken whole as the first segment, and a longer one starts with a non-empty first segment made of at most 15 of its leading words |
| OverlaySession.BothSegments | tts-ext/src/components/ui/Overlay.tsx:56-59 | the first segment is always sent, and the second one too exactly when it is not empty |
| OverlaySession.StoppedRunAsWritten | tts-ext/src/components/ui/Overlay.tsx:53-93 | definition, as written: Stop does not cancel the run; while the first socket connects it fails the segment, on an open socket it resolves it and the run goes on, and either way the run reaches its `finally` |
| OverlaySession.StopClosesTwiceAsWritten | tts-ext/src/components/ui/Overlay.tsx:53-93 | as written, a stopped run calls `onClose` twice; a stop on the open first socket of a two-segment text still sends the second, a stop while it connects sends nothing more, and a stop in a one-segment text's final wait keeps the total measured from the cursor |
| OverlaySession.StoppedRun | tts-ext/src/components/ui/Overlay.tsx:53-93 | definition, corrected: Stop cancels the run, which neither sends more segments nor calls `onClose` again |
| OverlaySession.StoppedRunClosesOnce | tts-ext/src/components/ui/Overlay.tsx:53-93 | corrected: a stopped run ends in the terminal state with `onClose` called exactly once, and a stop during the first segment, connecting or open, sends nothing more |
| OverlaySession.Toggle | tts-ext/src/components/ui/Overlay.tsx:80-88 | toggling flips pause, suspending when playing and resuming when paused |
| OverlaySession.ToggleTwice | tts-ext/src/components/ui/Overlay.tsx:80-88 | toggling twice restores the state and resumes what it suspended |
| OverlaySession.Stop | tts-ext/src/components/ui/Overlay.tsx:90-93 | stop stops the speech and closes the overlay |
| OverlaySession.Unmount | tts-ext/src/components/ui/Overlay.tsx:74-77 | cleanup stops the interval and the speech without closing |
| ModelLoader.Initial | tts-ext/src/lib/modelLoader.ts:21-26 | the loader starts with no model, no promise and no progress |
| ModelLoader.NotifyAll | tts-ext/src/lib/modelLoader.ts:151-172 | every registered callback, in order, hears the value |
| ModelLoader.AddProgressCallback | tts-ext/src/lib/modelLoader.ts:32-46 | the callback is appended and told the progress at once iff a load is part-way |
| ModelLoader.RemoveProgressCallback | tts-ext/src/lib/modelLoader.ts:51-56 | only the first registration goes and the other registrations keep their order; an unknown callback changes nothing |
| ModelLoader.AddThenRemove | tts-ext/src/lib/modelLoader.ts:32-56 | adding then removing a new callback restores the registry |
| ModelLoader.IsModelLoaded | tts-ext/src/lib/modelLoader.ts:85-87 | true iff a model is stored |
| ModelLoader.EnsureModelLoaded | tts-ext/src/lib/modelLoader.ts:93-117 | returns the loaded model, or the in-flight promise, or starts exactly one new load |
| ModelLoader.Configure | tts-ext/src/lib/modelLoader.ts:144-159 | the load gets a progress hook iff callbacks are registered |
| ModelLoader.ProgressTimer | tts-ext/src/lib/modelLoader.ts:148-156 | the deferred body: the progress becomes the value, a changed value reaches every callback and an unchanged one reaches none, and 100 records the announcement |
| ModelLoader.OnProgress | tts-ext/src/lib/modelLoader.ts:144-159 | only a hooked, active load hears progress, and then it runs the deferred body; a changed value reaches every callback; 100 records the announcement |
| ModelLoader.LoadSucceeded | tts-ext/src/lib/modelLoader.ts:164-175 | the model is stored, and 100 is announced unless it already was |
| ModelLoader.LoadFailed | tts-ext/src/lib/modelLoader.ts:176-180 | a failure forgets the promise so the next call retries |
| ModelLoader.ResetModel | tts-ext/src/lib/modelLoader.ts:191-198 | the model, promise, progress and flags reset; the callbacks stay registered |
| ModelLoader.ResetIsInitial | tts-ext/src/lib/modelLoader.ts:191-198 | a reset loader is the initial one apart from the registry and counters |
| ModelLoader.AtMostOneLoadInFlight | tts-ext/src/lib/modelLoader.ts:93-117 | however many callers ask before completion, at most one load starts and all share its promise |
| ModelLoader.NothingStartsWhileLoading | tts-ext/src/lib/modelLoader.ts:95-102 | while a model or promise exists, further calls change nothing |
| ModelLoader.LoadedModelIsReturned | tts-ext/src/lib/modelLoader.ts:95-175 | after success the model is returned without a new load |
| ModelLoader.RetryAfterFailure | tts-ext/src/lib/modelLoader.ts:115-180 | after a failure the next call starts a new load with a fresh promise |
| ModelLoader.CompletionAnnouncedOnce | tts-ext/src/lib/modelLoader.ts:150-175 | the success path adds no second announcement of 100 after a progress event of 100 or an earlier success |
| ModelLoader.ProgressCanAnnounceCompletionTwice | tts-ext/src/lib/modelLoader.ts:145-156 | progress events 100, then a lower value, then 100 announce 100 twice, because the hook only checks whether the value changed |
| ModelLoader.LateProgressAfterSuccess | tts-ext/src/lib/modelLoader.ts:145-173 | a deferred progress body that runs after the success announced 100 still reports its lower value and moves the progress back, with the model kept |

## Left out

- The WebSocket, Web Audio and on-device speech APIs are not modelled. Their results are parameters: message contents, the clock, buffer durations, and generation success or failure.
- The 16-bit PCM to float conversion of chunks is not modelled. Only the frame count matters for timing.
- Timers and concurrency (`setTimeout`, `setInterval`, promise ordering) are not modelled. Each callback is an atomic step in an order the caller chooses. The deferred body of the model loader's progress hook is its own step (`ModelLoader.ProgressTimer`), so it can run after the success path.
- Preloaded on-device audio is generated at the request's speed and then played with `playbackRate` set to the same speed, so the speed is applied twice. The model keeps both steps as written and states nothing about the resulting tempo.
- `handleStop` racing a run is modelled at three points: while the first socket connects, once it is open, and after the first segment settles. After the first segment the model covers a stop on the second segment's open socket, or in the final wait of a one-segment text. A stop while the second socket connects, or in the final wait of a two-segment text, is not modelled.
- The DOM traversal of `extractPageText` and `extractTextFromElement` is left out. The texts the selectors find are inputs to `PageText`.
- The toast callbacks and `getCurrentProgress` of `modelLoader.ts` are left out. They only relay values to the popup.
- `setCurrentVoice` and `setCurrentSpeed` are left out as separate operations. They are plain assignments, folded into the preload and playback paths that set them.
- The on-device text splitter that cuts a stream into chunks is left out. Chunks are inputs to `OnDevice.StreamAll`.
- LegacySplit.LegacyCutIsCutAt: overlaps longer than the first segment are not covered. For those `slice(-n)` clamps, and the first version has no counterpart in the newer split.
- PageText.Lower: ASCII letters only, because JavaScript's full Unicode case mapping is not modelled.
- OverlaySession.Percent: JavaScript's `NaN` is modelled as `None`, and floating-point rounding is not modelled.
- PreloadCache.KeyTextInjective: JavaScript's number-to-string conversion is not modelled. The speed's text is a parameter that contains only number characters.
- Lengths are counted in characters, not UTF-16 code units.

## Findings

| source | as written | input that shows it | evidently intended | confidence | as-written member | corrected member |
|---|---|---|---|---|---|---|
| tts-ext/src/lib/ttsClient.ts:248-270 | `preloadTextClientSide` returns early for a key already in flight, inside the `try`, so its `finally` deletes the other call's in-flight mark | three overlapping preloads of one fresh request: the second skips and clears the mark, and the third starts a second synthesis | a skipped call leaves the in-flight mark alone, so overlapping calls start one synthesis | not executed | PreloadCache.ThreeOverlappingPreloadsStartTwice | PreloadCache.OverlappingPreloadsStartOnce |
| tts-ext/src/components/ui/OverlayManager.tsx:72-85 | an interrupting request clears `current` and defers its own start with `setTimeout`, so a second interruption in the same tick starts at once and is then replaced by the first | while a request plays with the queue off, requests `a` then `b` arrive in one tick: `b` starts, then the timer makes `a` current | the last request received is the one read | not executed | RequestQueue.InterruptRaceKeepsEarlier | RequestQueue.LatestRequestWins |
| tts-ext/src/components/ui/Overlay.tsx:53-93 | `handleStop` calls `stopSpeech` and `onClose` without cancelling the run; once the first socket is open, closing it resolves the awaited segment, so the run synthesises the second segment, and on every path its `finally` calls `onClose` again | Stop pressed after the first socket opened, during the first segment of a text of more than 15 words: the second segment is still sent, and `handleClose` of the manager advances the queue twice | a stop ends the run, with `onClose` called once | not executed | OverlaySession.StopClosesTwiceAsWritten | OverlaySession.StoppedRunClosesOnce |

=== FILE: basics.dfy ===
/** Small shared vocabulary: optional values, non-negative reals, sums of durations, and the
    three list-removal idioms the extension uses (`filter(x => x !== v)`, `filter((_, i) => i !== k)`
    and `indexOf` + `splice`). */
module Basics {

  /** JavaScript's `T | null`. */
  datatype Option<+T> = None | Some(value: T)

  /** Clock readings and buffer durations: never negative. */
  type NonNeg = r: real | r >= 0.0

  /** Playback rates and speeds: strictly positive. */
  type Positive = r: real | r > 0.0 witness 1.0

  /** Sum of a list of durations, accumulated from the front as `reduce((t, b) => t + b, 0)` does. */
  function Sum(xs: seq<real>): real
  {
    if |xs| == 0 then 0.0 else Sum(xs[..|xs| - 1]) + xs[|xs| - 1]
  }

  lemma SumStep(xs: seq<real>, k: nat)
    requires k < |xs|
    ensures Sum(xs[..k + 1]) == Sum(xs[..k]) + xs[k]
  {
    assert xs[..k + 1][..k] == xs[..k];
  }

  lemma {:induction false} SumNonNeg(xs: seq<real>)
    requires forall i :: 0 <= i < |xs| ==> xs[i] >= 0.0
    ensures Sum(xs) >= 0.0
  {
    if |xs| > 0 {
      SumNonNeg(xs[..|xs| - 1]);
    }
  }

  /** Sum of the quotients equals the quotient of the sum. */
  lemma {:induction false} SumScaled(xs: seq<real>, ys: seq<real>, s: real)
    requires s > 0.0
    requires |xs| == |ys|
    requires forall i :: 0 <= i < |xs| ==> ys[i] == xs[i] / s
    ensures Sum(ys) == Sum(xs) / s
  {
    if |xs| > 0 {
      var n := |xs| - 1;
      SumScaled(xs[..n], ys[..n], s);
      assert Sum(ys) == Sum(xs[..n]) / s + xs[n] / s;
    }
  }

  /** A non-empty list has a member; stated as an implication so that callers never branch on it. */
  lemma HeadIsMember<T>(s: seq<T>)
    ensures |s| > 0 ==> s[0] in s
  {
  }

  /** `s.filter(y => y !== x)`: every occurrence of `x` dropped, the rest kept in order. */
  function Without<T(==,!new)>(s: seq<T>, x: T): (r: seq<T>)
    ensures forall y :: y in r <==> y in s && y != x
    ensures |r| <= |s|
    ensures x !in s ==> r == s
  {
    if |s| == 0 then []
    else (if s[0] == x then [] else [s[0]]) + Without(s[1..], x)
  }

  /** Filtering distributes over concatenation, so the order of the kept elements is unchanged. */
  lemma {:induction false} WithoutAppend<T(!new)>(a: seq<T>, b: seq<T>, x: T)
    ensures Without(a + b, x) == Without(a, x) + Without(b, x)
  {
    if |a| > 0 {
      var head := if a[0] == x then [] else [a[0]];
      assert (a + b)[0] == a[0] && (a + b)[1..] == a[1..] + b;
      assert Without(a + b, x) == head + Without(a[1..] + b, x);
      assert Without(a, x) == head + Without(a[1..], x);
      WithoutAppend(a[1..], b, x);
      ConcatAssoc(head, Without(a[1..], x), Without(b, x));
    } else {
      assert a + b == b;
    }
  }

  lemma ConcatAssoc<T>(a: seq<T>, b: seq<T>, c: seq<T>)
    ensures a + (b + c) == (a + b) + c
  {
  }

  /** Appending a fresh element and then filtering it out gives back the original list. */
  lemma AppendThenWithout<T(!new)>(s: seq<T>, x: T)
    requires x !in s
    ensures Without(s + [x], x) == s
  {
    WithoutAppend(s, [x], x);
    assert Without([x], x) == [];
  }

  /** `s.filter((_, j) => j !== i)`, written as that filter over positions `from..`. */
  function FilterIndex<T>(s: seq<T>, i: int, from: int): seq<T>
    decreases |s|
  {
    if |s| == 0 then []
    else (if from == i then [] else [s[0]]) + FilterIndex(s[1..], i, from + 1)
  }

  /** `s.filter((_, j) => j !== i)`: removes position `i` when it exists, and is the identity otherwise. */
  function RemoveAt<T>(s: seq<T>, i: int): (r: seq<T>)
    ensures 0 <= i < |s| ==> r == s[..i] + s[i + 1..]
    ensures !(0 <= i < |s|) ==> r == s
  {
    FilterIndexSpec(s, i, 0);
    FilterIndex(s, i, 0)
  }

  lemma {:induction false} FilterIndexSpec<T>(s: seq<T>, i: int, from: int)
    ensures from <= i < from + |s| ==> FilterIndex(s, i, from) == s[..i - from] + s[i - from + 1..]
    ensures !(from <= i < from + |s|) ==> FilterIndex(s, i, from) == s
    decreases |s|
  {
    if |s| > 0 {
      var rest := FilterIndex(s[1..], i, from + 1);
      FilterIndexSpec(s[1..], i, from + 1);
      if from == i {
        assert FilterIndex(s, i, from) == rest;
        assert s[..0] + s[1..] == s[1..];
      } else if from < i < from + |s| {
        assert FilterIndex(s, i, from) == [s[0]] + rest;
        assert s[..i - from] == [s[0]] + s[1..][..i - from - 1];
        assert s[i - from + 1..] == s[1..][i - from..];
      } else {
        assert FilterIndex(s, i, from) == [s[0]] + rest;
        assert s == [s[0]] + s[1..];
      }
    }
  }

  /** `s.indexOf(x)`: the first position holding `x`, or -1. */
  function IndexOf<T(==)>(s: seq<T>, x: T): (k: int)
    ensures -1 <= k < |s|
    ensures k == -1 <==> x !in s
    ensures k >= 0 ==> s[k] == x && x !in s[..k]
  {
    if |s| == 0 then -1
    else if s[0] == x then 0
    else
      var k := IndexOf(s[1..], x);
      if k == -1 then -1
      else
        assert s[..k + 1] == [s[0]] + s[1..][..k];
        k + 1
  }

  /** `const i = s.indexOf(x); if (i > -1) s.splice(i, 1)`: only the first occurrence goes. */
  function RemoveFirst<T(==)>(s: seq<T>, x: T): (r: seq<T>)
    ensures x !in s ==> r == s
    ensures x in s ==> |r| == |s| - 1 && multiset(r) == multiset(s) - multiset{x}
    ensures forall k :: FirstAt(s, x, k) ==> r == s[..k] + s[k + 1..]
  {
    var k := IndexOf(s, x);
    if k > -1 then
      assert s == s[..k] + [s[k]] + s[k + 1..];
      s[..k] + s[k + 1..]
    else s
  }

  /** `x` occurs at `k` and nowhere before it. */
  predicate FirstAt<T(==)>(s: seq<T>, x: T, k: int)
  {
    0 <= k < |s| && s[k] == x && x !in s[..k]
  }

  /** Adding a fresh element at the end and removing it again restores the list. */
  lemma AppendThenRemoveFirst<T>(s: seq<T>, x: T)
    requires x !in s
    ensures RemoveFirst(s + [x], x) == s
  {
    assert (s + [x])[..|s|] == s;
  }

  /** JavaScript's `\s`: the ASCII whitespace characters, the no-break and other Unicode space
      separators, the line and paragraph separators and the byte-order mark. */
  predicate IsSpace(ch: char)
  {
    || ch == ' ' || ch == '\t' || ch == '\n' || ch == '\r' || ch == '\U{B}' || ch == '\U{C}'
    || ch == '\U{A0}' || ch == '\U{1680}' || ('\U{2000}' <= ch <= '\U{200A}')
    || ch == '\U{2028}' || ch == '\U{2029}' || ch == '\U{202F}' || ch == '\U{205F}'
    || ch == '\U{3000}' || ch == '\U{FEFF}'
  }

  /** The number of leading whitespace characters. */
  function SpaceRun(s: string): (n: nat)
    ensures n <= |s|
    ensures forall i :: 0 <= i < n ==> IsSpace(s[i])
    ensures n < |s| ==> !IsSpace(s[n])
  {
    if |s| == 0 || !IsSpace(s[0]) then 0 else 1 + SpaceRun(s[1..])
  }

  /** The number of leading non-whitespace characters. */
  function WordRun(s: string): (n: nat)
    ensures n <= |s|
    ensures forall i :: 0 <= i < n ==> !IsSpace(s[i])
    ensures n < |s| ==> IsSpace(s[n])
  {
    if |s| == 0 || IsSpace(s[0]) then 0 else 1 + WordRun(s[1..])
  }

  predicate AllSpace(s: string)
  {
    forall i :: 0 <= i < |s| ==> IsSpace(s[i])
  }
}

=== FILE: legacy_split.dfy ===
/** The first version of the hybrid split (`utils.js`): a fixed cut after `initialWords` words and
    the same de-duplication of a repeated block, written with JavaScript's `slice`, including a
    negative start (`slice(-overlapWords)`), and without the length guards of the newer version. */
module LegacySplit {
  import opened Basics
  import opened TextSplit

  /** `s.slice(start, end)`: negative positions count from the end, everything is clamped to the
      list, and a range that ends before it starts is empty. */
  function Slice<T>(s: seq<T>, start: int, end: int): (r: seq<T>)
    ensures 0 <= start <= end <= |s| ==> r == s[start..end]
    ensures 0 < -start <= |s| && end == |s| ==> r == s[|s| + start..]
    ensures start == 0 && end >= |s| ==> r == s
    ensures |r| <= |s|
  {
    var from := if start < 0 then Max(|s| + start, 0) else if start > |s| then |s| else start;
    var to := if end < 0 then Max(|s| + end, 0) else if end > |s| then |s| else end;
    if to <= from then [] else s[from..to]
  }

  /** The cut of the first version: the first `initialWords` words, then the rest, less its leading
      `overlapWords` words when they join to the same text as `first.slice(-overlapWords)`. */
  function LegacyCut(words: seq<string>, initialWords: nat, overlapWords: nat): (c: Cut)
  {
    var first := Slice(words, 0, initialWords);
    var second := Slice(words, initialWords, |words|);
    var overlap := Slice(first, -(overlapWords as int), |first|);
    if Join(Slice(second, 0, overlapWords)) == Join(overlap)
    then Cut(first, Slice(second, overlapWords, |second|), true)
    else Cut(first, second, false)
  }

  /** `splitTextForHybrid(fullText, initialWords, overlapWords)` of the first version. */
  function LegacySplitText(fullText: string, initialWords: nat, overlapWords: nat): (r: Segments)
  {
    var words := GetWords(fullText);
    if |words| <= initialWords then Segments(fullText, "")
    else
      var c := LegacyCut(words, initialWords, overlapWords);
      Segments(Join(c.first), Join(c.second))
  }

  /** With an overlap no longer than the first segment, the first version cuts exactly at
      `initialWords` and applies the newer version's overlap test: the missing length guards change
      nothing, because lists of proper words of different lengths never join to the same string.
      An overlap of 0 makes `slice(-0)` the whole first segment, which matches the empty block it
      is compared with only when both are empty, and then nothing is dropped either. */
  lemma LegacyCutIsCutAt(words: seq<string>, initialWords: nat, overlapWords: nat)
    requires overlapWords <= initialWords < |words|
    requires overlapWords > 0 ==> WordList(words)
    ensures var c := LegacyCut(words, initialWords, overlapWords);
            var c' := CutAt(words, initialWords, overlapWords);
            c.first == c'.first && c.second == c'.second
  {
    assert Slice(words, 0, initialWords) == words[..initialWords];
    assert Slice(words, initialWords, |words|) == words[initialWords..];
    if overlapWords > 0 {
      LegacyTestIsCutAtTest(words[..initialWords], words[initialWords..], overlapWords);
    } else {
      assert Slice(words[initialWords..], 0, |words| - initialWords) == words[initialWords..];
    }
  }

  /** The first version's overlap test on proper words agrees with the newer one, guards included. */
  lemma LegacyTestIsCutAtTest(first: seq<string>, second: seq<string>, overlapWords: nat)
    requires 0 < overlapWords <= |first| && WordList(first) && WordList(second)
    ensures Join(Slice(second, 0, overlapWords)) == Join(Slice(first, -(overlapWords as int), |first|))
            <==> |second| >= overlapWords && Join(second[..overlapWords]) == Join(first[|first| - overlapWords..])
    ensures |second| >= overlapWords ==> Slice(second, overlapWords, |second|) == second[overlapWords..]
  {
    var block := Slice(second, 0, overlapWords);
    var tail := first[|first| - overlapWords..];
    assert Slice(first, -(overlapWords as int), |first|) == tail;
    WordListSlice(second, 0, |block|);
    assert second[0..|block|] == block;
    WordListSlice(first, |first| - overlapWords, |first|);
    assert first[|first| - overlapWords..|first|] == tail;
    JoinInjective(block, tail);
    if |second| >= overlapWords {
      assert block == second[..overlapWords];
    } else {
      assert |block| != |tail|;
    }
  }

  /** Hence the first version is the newer split with the search window switched off. */
  lemma LegacyIsSplitWithoutSearch(fullText: string, initialWords: nat, overlapWords: nat)
    requires overlapWords <= initialWords
    ensures LegacySplitText(fullText, initialWords, overlapWords) == SplitTextForHybrid(fullText, initialWords, overlapWords, 0)
  {
    var words := GetWords(fullText);
    if |words| > initialWords {
      assert overlapWords > 0 ==> |words| > 1;
      LegacyCutIsCutAt(words, initialWords, overlapWords);
      assert SplitPoint(words, initialWords, 0) == initialWords;
    }
  }

  /** And it keeps every word in order, dropping at most one block that repeats the last
      `overlapWords` words of the first segment. */
  lemma LegacyKeepsWords(fullText: string, initialWords: nat, overlapWords: nat)
    requires overlapWords <= initialWords < |GetWords(fullText)|
    requires Trim(fullText) != ""
    ensures var words := GetWords(fullText);
            var c := CutAt(words, initialWords, overlapWords);
            && LegacySplitText(fullText, initialWords, overlapWords) == Segments(Join(c.first), Join(c.second))
            && |c.first| == initialWords
            && (!c.deduplicated ==> words == c.first + c.second)
            && (c.deduplicated ==> words == c.first + c.first[initialWords - overlapWords..] + c.second)
  {
    LegacyCutIsCutAt(GetWords(fullText), initialWords, overlapWords);
    CutAtKeepsWords(GetWords(fullText), initialWords, overlapWords);
  }
}

=== FILE: legacy_tts.dfy ===
/** The first version of the synthesis client (`tts.js`): the same timeline, but every chunk is
    decoded at a fixed 24 kHz, no speed is sent, and `onFirstChunkCallback` fires only for the first
    segment since the last reset. Its message handler tries `JSON.parse` on every message and
    treats whatever is not an error or end frame as audio. */
module LegacyTts {
  import opened Basics
  import opened Timeline
  import opened TtsClient

  /** The rate every chunk is decoded at. */
  const SampleRate: real := 24000.0

  /** `nextTime`, `secondSegmentStarted`, `activeSources` (inside `play`), `activeSockets` and the
      current voice; `closing` as in the newer client. */
  datatype Legacy = Legacy(play: Playback, secondSegmentStarted: bool, sockets: seq<SocketId>,
                           closing: set<SocketId>, nextSocket: SocketId, voice: string)

  function Initial(): (c: Legacy)
    ensures Drained(c.play) && c.sockets == [] && !c.secondSegmentStarted
  {
    Legacy(Timeline.Initial(), false, [], {}, 0, "af_sarah")
  }

  /** A message as the legacy handler sees it. Binary data never parses as JSON. Text that parses
      carries its JSON; `asLength` is the length `new Int16Array(text)` gives the text, which is 0
      unless the text is a number. */
  datatype LegacyMessage = Audio(frames: nat) | TextFrame(json: Option<Json>, asLength: nat)

  /** The frame count the audio path decodes the message as. */
  function FramesOf(msg: LegacyMessage): nat
  {
    match msg
    case Audio(frames) => frames
    case TextFrame(_, n) => n
  }

  /** Whether the message stops at the error or end test. */
  predicate IsControl(msg: LegacyMessage)
  {
    msg.TextFrame? && msg.json.Some? && (msg.json.value.error || msg.json.value.end)
  }

  /** The closure of one `processSegment` call; `hasCallback` says whether a callback was passed. */
  datatype LegacySegment = LegacySegment(text: string, socket: SocketId, firstChunkReceived: bool,
                                         hasCallback: bool, promise: Settled)

  datatype LegacyPayload = LegacyPayload(text: string, voice: string)

  function ProcessSegment(c: Legacy, text: string, hasCallback: bool): (r: (Legacy, LegacySegment))
    ensures (forall x :: x in c.sockets ==> x < c.nextSocket) ==> r.1.socket !in c.sockets
    ensures r.0.sockets == c.sockets + [r.1.socket]
    ensures r.1.promise == Pending && !r.1.firstChunkReceived && r.1.hasCallback == hasCallback
    ensures r.0.play == c.play && r.0.secondSegmentStarted == c.secondSegmentStarted
  {
    (c.(sockets := c.sockets + [c.nextSocket], nextSocket := c.nextSocket + 1),
     LegacySegment(text, c.nextSocket, false, hasCallback, Pending))
  }

  /** `ws.onopen`: start the cursor at the clock if it is unset and send the text and voice. */
  function Opened(c: Legacy, s: LegacySegment, clock: NonNeg): (r: (Legacy, LegacySegment, LegacyPayload))
    ensures r.0.play.nextTime.Some?
    ensures c.play.nextTime.Some? ==> r.0.play == c.play
    ensures c.play.nextTime.None? ==> r.0.play.nextTime == Some(clock as real) && r.0.play.active == c.play.active
    ensures !r.1.firstChunkReceived && r.2 == LegacyPayload(s.text, c.voice)
  {
    (c.(play := InitCursor(c.play, clock)), s.(firstChunkReceived := false), LegacyPayload(s.text, c.voice))
  }

  /** `ws.onmessage`. Error and end frames close the socket (an error also rejects). Any other
      message goes down the audio path: the segment's first such message marks the first chunk and
      calls the callback if one was passed and no segment has started since the last reset; then
      the message is decoded as `FramesOf(msg)` samples at 24 kHz and scheduled, unless creating
      the buffer throws because there are no samples. Returns whether the callback was called and
      the scheduled source. */
  function Received(c: Legacy, s: LegacySegment, msg: LegacyMessage, clock: NonNeg): (r: (Legacy, LegacySegment, bool, Option<Scheduled>))
    ensures s.socket in c.closing ==> r == (c, s, false, None)
    ensures r.2 <==> s.socket !in c.closing && !IsControl(msg) && !s.firstChunkReceived && s.hasCallback && !c.secondSegmentStarted
    ensures r.2 ==> r.0.secondSegmentStarted
    ensures r.0.secondSegmentStarted <==> c.secondSegmentStarted || r.2
    ensures IsControl(msg) && s.socket !in c.closing ==> s.socket in r.0.closing && r.3.None? && r.0.play == c.play
    ensures r.1.promise == (if s.socket !in c.closing && IsControl(msg) && msg.json.value.error then Settle(s.promise, Rejected) else s.promise)
    ensures r.1.firstChunkReceived <==> s.firstChunkReceived || (s.socket !in c.closing && !IsControl(msg))
    ensures r.3.Some? <==> s.socket !in c.closing && !IsControl(msg) && FramesOf(msg) > 0
    ensures r.3.Some? ==>
              && r.3.value.length == (FramesOf(msg) as real) / SampleRate
              && r.3.value.start >= clock
              && r.0.play.nextTime == Some(r.3.value.start + r.3.value.length)
              && r.0.play.active == c.play.active + [r.3.value.source]
    ensures r.3.None? ==> r.0.play == c.play
    ensures r.0.sockets == c.sockets && r.0.voice == c.voice
  {
    if s.socket in c.closing then (c, s, false, None)
    else if IsControl(msg) then
      if msg.json.value.error then (c.(closing := c.closing + {s.socket}), s.(promise := Settle(s.promise, Rejected)), false, None)
      else (c.(closing := c.closing + {s.socket}), s, false, None)
    else
      var fire := !s.firstChunkReceived && s.hasCallback && !c.secondSegmentStarted;
      var s' := s.(firstChunkReceived := true);
      var c' := if fire then c.(secondSegmentStarted := true) else c;
      var frames := FramesOf(msg);
      if BufferCreatable(frames, SampleRate) then
        var (play, sched) := ScheduleChunk(c'.play, clock, BufferDuration(frames, SampleRate));
        (c'.(play := play), s', fire, Some(sched))
      else (c', s', fire, None)
  }

  /** `ws.onerror`. */
  function Errored(s: LegacySegment): (r: LegacySegment)
    ensures r.promise == Settle(s.promise, Rejected) && r.socket == s.socket
  {
    s.(promise := Settle(s.promise, Rejected))
  }

  /** `ws.onclose`: drop the socket and resolve, unless already settled. */
  function Closed(c: Legacy, s: LegacySegment): (r: (Legacy, LegacySegment))
    ensures forall x :: x in r.0.sockets <==> x in c.sockets && x != s.socket
    ensures r.1.promise == Settle(s.promise, Resolved)
    ensures r.0.play == c.play
  {
    (c.(sockets := Without(c.sockets, s.socket)), s.(promise := Settle(s.promise, Resolved)))
  }

  /** `stopSpeech()`: stop and forget every source, close the sockets not already closing and forget
      them all, forget the cursor and the second-segment flag. Returns the stopped sources and the
      closed sockets. */
  function StopSpeech(c: Legacy): (r: (Legacy, seq<SourceId>, seq<SocketId>))
    ensures Drained(r.0.play) && r.0.play.nextTime.None? && !r.0.secondSegmentStarted && r.0.sockets == []
    ensures r.1 == c.play.active
    ensures forall x :: x in r.2 <==> x in c.sockets && x !in c.closing
    ensures forall x :: x in c.sockets ==> x in r.0.closing
    ensures r.0.voice == c.voice && r.0.play.nextId == c.play.nextId
  {
    var (play, stopped) := StopAll(c.play);
    (Legacy(play, false, [], c.closing + (set x | x in c.sockets), c.nextSocket, c.voice),
     stopped, StillOpen(c.sockets, c.closing))
  }

  lemma StopSpeechIdempotent(c: Legacy)
    ensures var s := StopSpeech(c).0;
            StopSpeech(s) == (s, [], [])
  {
    var s := StopSpeech(c).0;
    assert s.closing + (set x | x in s.sockets) == s.closing;
  }

  /** `reset()`. */
  function Reset(c: Legacy): (r: Legacy)
    ensures r.play.nextTime.None? && !r.secondSegmentStarted
    ensures r.play.active == c.play.active && r.sockets == c.sockets && r.voice == c.voice
  {
    c.(play := Timeline.Reset(c.play), secondSegmentStarted := false)
  }

  /** In the hybrid flow two segments are spoken after one reset: only the first segment's first
      chunk calls back, even though the second segment also passes a callback; after the next reset
      a segment calls back again. */
  lemma OnlyFirstSegmentCallsBack(c: Legacy, a: LegacySegment, b: LegacySegment, m1: LegacyMessage, m2: LegacyMessage,
                                  clock1: NonNeg, clock2: NonNeg)
    requires !c.secondSegmentStarted
    requires a.socket !in c.closing && b.socket !in c.closing
    requires a.hasCallback && b.hasCallback && !a.firstChunkReceived && !b.firstChunkReceived
    requires !IsControl(m1) && !IsControl(m2)
    ensures var (c1, _, fired1, _) := Received(c, a, m1, clock1);
            var (c2, _, fired2, _) := Received(c1, b, m2, clock2);
            && fired1 && !fired2
            && Received(Reset(c2), b, m2, clock2).2
  {
  }

  /** A JSON text frame that is neither an error nor an end marker is taken for the first audio chunk:
      it fires the callback although it carries no audio, and schedules nothing. */
  lemma TextFrameCountsAsFirstChunk(c: Legacy, s: LegacySegment, rate: real, clock: NonNeg)
    requires s.socket !in c.closing && !c.secondSegmentStarted && s.hasCallback && !s.firstChunkReceived
    ensures var (c', s', fired, scheduled) := Received(c, s, TextFrame(Some(Json(false, false, rate)), 0), clock);
            fired && s'.firstChunkReceived && scheduled.None? && c'.play == c.play
  {
  }
}

=== FILE: model_loader.dfy ===
/** The on-device model loader of `modelLoader.ts`: a memoised, one-at-a-time load of the speech
    model that can be retried after a failure, with a registry of progress callbacks. The loading
    library is an uninterpreted outcome: a load either yields a model or fails, and reports
    progress events in between. Timers are folded into the step that sets them. */
module ModelLoader {
  import opened Basics

  /** Opaque identities of models, load promises and registered callbacks. */
  type ModelId = nat
  type LoadId = nat
  type CallbackId = nat

  /** `modelLoadingPromise`, `loadedModel`, `loadingProgress`, `isActivelyLoading`,
      `hasNotifiedCompletion` and `progressCallbacks`; `hooked` says whether the running load was
      given a progress hook (it is, when callbacks were registered as the load was configured),
      and `nextLoad` issues promise identities. */
  datatype Loader = Loader(promise: Option<LoadId>, model: Option<ModelId>, progress: real,
                           activelyLoading: bool, notified: bool, callbacks: seq<CallbackId>,
                           hooked: bool, nextLoad: LoadId)

  function Initial(): (l: Loader)
    ensures l.promise.None? && l.model.None? && l.progress == 0.0 && l.callbacks == []
  {
    Loader(None, None, 0.0, false, false, [], false, 0)
  }

  /** A callback invoked with a progress value. */
  datatype Notification = Notification(callback: CallbackId, progress: real)

  /** Every registered callback, in registration order, called with `p`. */
  function NotifyAll(callbacks: seq<CallbackId>, p: real): (ns: seq<Notification>)
    ensures |ns| == |callbacks|
    ensures forall i :: 0 <= i < |ns| ==> ns[i] == Notification(callbacks[i], p)
  {
    seq(|callbacks|, i requires 0 <= i < |callbacks| => Notification(callbacks[i], p))
  }

  /** `addProgressCallback(cb)`: the callback is appended, and told the current progress right away
      (on the next tick) only while a load is part-way, strictly between 0 and 100. */
  function AddProgressCallback(l: Loader, cb: CallbackId): (r: (Loader, Option<Notification>))
    ensures r.0 == l.(callbacks := l.callbacks + [cb])
    ensures r.1.Some? <==> 0.0 < l.progress < 100.0
    ensures r.1.Some? ==> r.1.value == Notification(cb, l.progress)
  {
    (l.(callbacks := l.callbacks + [cb]),
     if 0.0 < l.progress < 100.0 then Some(Notification(cb, l.progress)) else None)
  }

  /** `removeProgressCallback(cb)`: only the first registration of `cb` goes; an unknown callback
      changes nothing. */
  function RemoveProgressCallback(l: Loader, cb: CallbackId): (r: Loader)
    ensures cb !in l.callbacks ==> r == l
    ensures cb in l.callbacks ==> multiset(r.callbacks) == multiset(l.callbacks) - multiset{cb}
    ensures forall k :: FirstAt(l.callbacks, cb, k) ==> r.callbacks == l.callbacks[..k] + l.callbacks[k + 1..]
    ensures r == l.(callbacks := r.callbacks)
  {
    l.(callbacks := RemoveFirst(l.callbacks, cb))
  }

  /** Adding a new callback and removing it again leaves the registry as it was. */
  lemma AddThenRemove(l: Loader, cb: CallbackId)
    requires cb !in l.callbacks
    ensures RemoveProgressCallback(AddProgressCallback(l, cb).0, cb) == l
  {
    AppendThenRemoveFirst(l.callbacks, cb);
  }

  /** `isModelLoaded()` */
  function IsModelLoaded(l: Loader): (b: bool)
    ensures b <==> l.model.Some?
  {
    l.model.Some?
  }

  /** What `ensureModelLoaded()` hands back. */
  datatype Ensured = ModelReady(model: ModelId) | Awaiting(load: LoadId)

  /** `ensureModelLoaded()`: a loaded model is returned as it is; a load in flight is returned as
      the same promise; otherwise a new load starts and is marked as actively loading. Returns
      whether a load was started. */
  function EnsureModelLoaded(l: Loader): (r: (Loader, Ensured, bool))
    ensures l.model.Some? ==> r == (l, ModelReady(l.model.value), false)
    ensures l.model.None? && l.promise.Some? ==> r == (l, Awaiting(l.promise.value), false)
    ensures r.2 <==> l.model.None? && l.promise.None?
    ensures r.2 ==> r.1 == Awaiting(l.nextLoad) && r.0.promise == Some(l.nextLoad) && r.0.activelyLoading
                    && r.0.nextLoad > l.nextLoad && r.0.callbacks == l.callbacks
  {
    if l.model.Some? then (l, ModelReady(l.model.value), false)
    else if l.promise.Some? then (l, Awaiting(l.promise.value), false)
    else (l.(promise := Some(l.nextLoad), activelyLoading := true, nextLoad := l.nextLoad + 1), Awaiting(l.nextLoad), true)
  }

  /** The load's options are prepared: it gets a progress hook only when callbacks are registered. */
  function Configure(l: Loader): (r: Loader)
    ensures r.hooked <==> |l.callbacks| > 0
    ensures r == l.(hooked := r.hooked)
  {
    l.(hooked := |l.callbacks| > 0)
  }

  /** Whether the `progress_callback` acts on a `progress` event: only through the hook and while
      actively loading. When it does, it defers `ProgressTimer` with `setTimeout`. */
  predicate ProgressHeard(l: Loader)
  {
    l.hooked && l.activelyLoading
  }

  /** The deferred body of a heard `progress` event, run whenever its timer fires: a value different
      from the stored one is stored and sent to every callback, and a value of 100 records that
      completion was announced. It does not look at whether the load is still running. */
  function ProgressTimer(l: Loader, p: real): (r: (Loader, seq<Notification>))
    ensures r.0.progress == p && (r.0.notified <==> l.notified || p == 100.0)
    ensures p != l.progress ==> r.1 == NotifyAll(l.callbacks, p)
    ensures p == l.progress ==> r.1 == []
    ensures r.0 == l.(progress := p, notified := r.0.notified)
  {
    var ns := if p != l.progress then NotifyAll(l.callbacks, p) else [];
    (l.(progress := p, notified := l.notified || p == 100.0), ns)
  }

  /** A `progress` event whose timer fires before anything else happens. */
  function OnProgress(l: Loader, p: real): (r: (Loader, seq<Notification>))
    ensures !ProgressHeard(l) ==> r == (l, [])
    ensures ProgressHeard(l) ==> r.0.progress == p && (r.0.notified <==> l.notified || p == 100.0)
    ensures r.1 != [] ==> r.1 == NotifyAll(l.callbacks, p) && p != l.progress
    ensures ProgressHeard(l) && p != l.progress ==> r.1 == NotifyAll(l.callbacks, p)
    ensures r.0.model == l.model && r.0.promise == l.promise && r.0.callbacks == l.callbacks
  {
    if !ProgressHeard(l) then (l, []) else ProgressTimer(l, p)
  }

  /** The load yielded `m`: it is stored, active loading ends, and unless 100 was already reached or
      announced, progress becomes 100 and every callback hears it. */
  function LoadSucceeded(l: Loader, m: ModelId): (r: (Loader, seq<Notification>))
    ensures r.0.model == Some(m) && !r.0.activelyLoading && r.0.promise == l.promise
    ensures r.1 != [] ==> r.1 == NotifyAll(l.callbacks, 100.0)
    ensures (l.progress < 100.0 && !l.notified) ==> r.0.progress == 100.0 && r.1 == NotifyAll(l.callbacks, 100.0)
    ensures !(l.progress < 100.0 && !l.notified) ==> r.1 == [] && r.0.progress == l.progress
    ensures r.0.notified <==> l.notified || l.progress < 100.0
  {
    var l' := l.(model := Some(m), activelyLoading := false);
    if l.progress < 100.0 && !l.notified then (l'.(progress := 100.0, notified := true), NotifyAll(l.callbacks, 100.0))
    else (l', [])
  }

  /** The load failed: active loading ends and the promise is forgotten, so the next call retries. */
  function LoadFailed(l: Loader): (r: Loader)
    ensures r.promise.None? && !r.activelyLoading
    ensures r == l.(promise := None, activelyLoading := false)
  {
    l.(promise := None, activelyLoading := false)
  }

  /** `resetModel()`: the model, the promise, the progress and both flags return to their initial
      values. The registered callbacks stay registered. */
  function ResetModel(l: Loader): (r: Loader)
    ensures r.model.None? && r.promise.None? && r.progress == 0.0 && !r.activelyLoading && !r.notified
    ensures r.callbacks == l.callbacks
  {
    l.(model := None, promise := None, progress := 0.0, activelyLoading := false, notified := false)
  }

  /** Resetting leaves exactly the initial state apart from the callback registry and the counters. */
  lemma ResetIsInitial(l: Loader)
    ensures var r := ResetModel(l);
            r == Initial().(callbacks := l.callbacks, hooked := l.hooked, nextLoad := l.nextLoad)
  {
  }

  /** `n` more calls while nothing has completed. */
  function EnsureTimes(l: Loader, n: nat): (Loader, nat)
    decreases n
  {
    if n == 0 then (l, 0)
    else
      var (l', _, started) := EnsureModelLoaded(l);
      var (l'', count) := EnsureTimes(l', n - 1);
      (l'', count + (if started then 1 else 0))
  }

  /** Memoisation: however many callers ask before the load completes, at most one load starts,
      and every caller gets the same promise. */
  lemma {:induction false} AtMostOneLoadInFlight(l: Loader, n: nat)
    ensures var (r, count) := EnsureTimes(l, n);
            && count <= 1
            && (count == 1 <==> n > 0 && l.model.None? && l.promise.None?)
            && (n > 0 && l.model.None? ==> r.promise == (if l.promise.Some? then l.promise else Some(l.nextLoad)))
    decreases n
  {
    if n > 0 {
      var (l', _, started) := EnsureModelLoaded(l);
      AtMostOneLoadInFlight(l', n - 1);
      if started {
        NothingStartsWhileLoading(l', n - 1);
      }
    }
  }

  lemma {:induction false} NothingStartsWhileLoading(l: Loader, n: nat)
    requires l.promise.Some? || l.model.Some?
    ensures EnsureTimes(l, n) == (l, 0)
    decreases n
  {
    if n > 0 {
      NothingStartsWhileLoading(l, n - 1);
    }
  }

  /** A loaded model is returned as is, with no new load. */
  lemma LoadedModelIsReturned(l: Loader, m: ModelId)
    ensures var l1 := LoadSucceeded(l, m).0;
            EnsureModelLoaded(l1) == (l1, ModelReady(m), false)
  {
  }

  /** After a failure the next call starts a new load, with a fresh promise. */
  lemma RetryAfterFailure(l: Loader)
    requires l.model.None? && (l.promise.Some? ==> l.promise.value < l.nextLoad)
    ensures var (l1, e1, _) := EnsureModelLoaded(l);
            var (l2, e2, started) := EnsureModelLoaded(LoadFailed(l1));
            started && e2 != e1
  {
  }

  /** The success path adds no second announcement: once a progress event reported 100, success
      sends nothing, and a second success would send nothing either. */
  lemma CompletionAnnouncedOnce(l: Loader, m: ModelId, m': ModelId)
    requires l.hooked && l.activelyLoading
    ensures var (l1, _) := OnProgress(l, 100.0);
            LoadSucceeded(l1, m).1 == []
    ensures var (l1, _) := LoadSucceeded(l, m);
            LoadSucceeded(l1, m').1 == []
  {
  }

  /** Progress events are per file, so 100 can be followed by a lower value and then by 100 again:
      the callbacks then hear 100 twice within one load. */
  lemma ProgressCanAnnounceCompletionTwice(l: Loader, lower: real)
    requires ProgressHeard(l) && l.progress != 100.0 && lower != 100.0
    ensures var (l1, ns1) := OnProgress(l, 100.0);
            var (l2, ns2) := OnProgress(l1, lower);
            var (l3, ns3) := OnProgress(l2, 100.0);
            && ns1 == NotifyAll(l.callbacks, 100.0)
            && ns2 == NotifyAll(l.callbacks, lower)
            && ns3 == NotifyAll(l.callbacks, 100.0)
  {
  }

  /** A timer deferred by a progress event can fire after the load has succeeded: the callbacks
      hear completion and then the lower value, which becomes the stored progress of a loaded model. */
  lemma LateProgressAfterSuccess(l: Loader, p: real, m: ModelId)
    requires ProgressHeard(l) && l.progress < 100.0 && !l.notified && p < 100.0
    ensures var (l1, ns1) := LoadSucceeded(l, m);
            var (l2, ns2) := ProgressTimer(l1, p);
            && ns1 == NotifyAll(l.callbacks, 100.0)
            && ns2 == NotifyAll(l.callbacks, p)
            && l2.model == Some(m) && l2.progress == p
  {
  }
}

=== FILE: on_device.dfy ===
/** The on-device synthesis paths of the client (`ttsClient.ts`): `processSegmentClientSide`, which
    generates one buffer for the whole segment, and `processSegmentClientSideStreaming`, which feeds
    the text to the model word by word and schedules each generated chunk as it is decoded. The
    model's generation and decoding are outside the model: their results arrive as parameters. */
module OnDevice {
  import opened Basics
  import opened Timeline
  import opened TtsClient

  // processSegmentClientSide

  /** The part before generation. `await ensureModelLoaded()` returns the loaded model, waits for a
      load in flight, or starts one (`ModelLoader.EnsureModelLoaded`); `loadSucceeded` says whether
      that load ended in `ModelLoader.LoadSucceeded` rather than `ModelLoader.LoadFailed`. A failed
      load throws before anything is touched; otherwise the cursor starts at the clock if it is unset. */
  function ClientSideBegin(c: Client, loadSucceeded: bool, clock: NonNeg): (r: Option<Client>)
    ensures r.None? <==> !loadSucceeded
    ensures r.Some? ==> r.value.play.nextTime.Some? && r.value.play.active == c.play.active
    ensures r.Some? && c.play.nextTime.None? ==> r.value.play.nextTime == Some(clock as real)
    ensures r.Some? && c.play.nextTime.Some? ==> r.value == c
  {
    if loadSucceeded then Some(c.(play := InitCursor(c.play, clock))) else None
  }

  /** The part after generation and decoding: `generated` is the decoded buffer's duration, or None
      when generation or decoding threw (the error is re-thrown and nothing is scheduled). On success
      `onFirstChunk` receives the duration and the buffer is scheduled like a streamed chunk.
      Returns the duration passed to `onFirstChunk` and the scheduled source. The call's promise
      settles only after the final `await waitForPlaybackCompletion()`, which is
      `TtsClient.WaitForPlaybackCompletion` composed after this step. */
  function ClientSideDelivered(c: Client, generated: Option<NonNeg>, clock: NonNeg): (r: (Client, Option<(real, Scheduled)>))
    ensures r.1.None? <==> generated.None?
    ensures generated.None? ==> r.0 == c
    ensures r.1.Some? ==>
              && r.1.value.0 == generated.value
              && r.1.value.1.length == generated.value
              && r.1.value.1.start >= clock
              && r.0.play.active == c.play.active + [r.1.value.1.source]
              && r.0.play.nextTime == Some(r.1.value.1.start + generated.value)
    ensures r.0.sockets == c.sockets && r.0.controller == c.controller && r.0.cache == c.cache
  {
    match generated
    case None => (c, None)
    case Some(d) =>
      var (play, sched) := ScheduleChunk(c.play, clock, d);
      (c.(play := play), Some((d, sched)))
  }

  /** When the cursor was set by `ClientSideBegin` and the clock has not overtaken it, the buffer
      starts exactly where the previous audio ends. */
  lemma ClientSideContinuesTimeline(c: Client, clock0: NonNeg, d: NonNeg, clock1: NonNeg)
    requires c.play.nextTime.Some? && c.play.nextTime.value >= clock1
    ensures var begun := ClientSideBegin(c, true, clock0);
            begun.Some? &&
            var r := ClientSideDelivered(begun.value, Some(d), clock1);
            r.1.Some? && r.1.value.1.start == c.play.nextTime.value
  {
  }

  // processSegmentClientSideStreaming

  /** The closure of one streaming call: its abort controller, whether a chunk was handled yet, the
      accumulated duration and character count, and the text's length. */
  datatype Stream = Stream(controller: ControllerId, firstChunkProcessed: bool, totalDuration: real,
                           processedCharacters: nat, totalCharacters: nat)

  /** A callback the stream makes (each one only when the caller supplied it). */
  datatype Callback =
    | FirstChunk(duration: real)
    | Progress(processedText: string, totalProcessed: nat, estimatedTotal: nat)
    | StreamingComplete(finalDuration: real)

  /** A chunk the model's stream yields: the text it covers and its decoded duration. */
  datatype Chunk = Chunk(text: string, duration: NonNeg)

  predicate Aborted(c: Client, s: Stream)
  {
    s.controller in c.aborted
  }

  /** Whether controller ids were handed out by the counter and the current one is live. */
  predicate ControllersIssued(c: Client)
  {
    && (forall x :: x in c.aborted ==> x < c.nextController)
    && (c.controller.Some? ==> c.controller.value < c.nextController && c.controller.value !in c.aborted)
  }

  /** Start of a streaming call once the model is loaded: abort the previous controller if there is
      one, install a fresh controller, start the cursor at the clock if it is unset. */
  function StartStream(c: Client, text: string, clock: NonNeg): (r: (Client, Stream))
    ensures r.0.controller == Some(r.1.controller)
    ensures c.controller.Some? ==> c.controller.value in r.0.aborted
    ensures r.0.aborted == c.aborted + (if c.controller.Some? then {c.controller.value} else {})
    ensures ControllersIssued(c) ==> ControllersIssued(r.0) && !Aborted(r.0, r.1) && r.1.controller !in c.aborted
    ensures r.1 == Stream(r.1.controller, false, 0.0, 0, |text|)
    ensures r.0.play.nextTime.Some? && r.0.play.active == c.play.active
    ensures c.play.nextTime.None? ==> r.0.play.nextTime == Some(clock as real)
  {
    var aborted := if c.controller.Some? then c.aborted + {c.controller.value} else c.aborted;
    var id := c.nextController;
    (c.(aborted := aborted, controller := Some(id), nextController := id + 1, play := InitCursor(c.play, clock)),
     Stream(id, false, 0.0, 0, |text|))
  }

  /** One chunk of the stream, decoded at clock reading `clock`. If the call was aborted (checked
      before and again after decoding) the processor returns: nothing is scheduled and `stopped` is
      true. Otherwise the first chunk triggers `onFirstChunk` with its own duration, the chunk is
      scheduled, and `onProgress` reports the characters covered so far. */
  function StreamChunk(c: Client, s: Stream, chunk: Chunk, clock: NonNeg): (r: (Client, Stream, seq<Callback>, bool))
    ensures r.3 <==> Aborted(c, s)
    ensures Aborted(c, s) ==> r.0 == c && r.1 == s && r.2 == []
    ensures !Aborted(c, s) ==>
              && r.1.totalDuration == s.totalDuration + chunk.duration
              && r.1.processedCharacters == s.processedCharacters + |chunk.text|
              && r.1.firstChunkProcessed
              && r.2 == (if s.firstChunkProcessed then [] else [FirstChunk(chunk.duration)])
                        + [Progress(chunk.text, r.1.processedCharacters, s.totalCharacters)]
              && r.0.play == ScheduleChunk(c.play, clock, chunk.duration).0
    ensures r.1.controller == s.controller && r.1.totalCharacters == s.totalCharacters
    ensures r.0.aborted == c.aborted && r.0.controller == c.controller && r.0.sockets == c.sockets
  {
    if Aborted(c, s) then (c, s, [], true)
    else
      var first := if s.firstChunkProcessed then [] else [FirstChunk(chunk.duration)];
      var (play, _) := ScheduleChunk(c.play, clock, chunk.duration);
      var processed := s.processedCharacters + |chunk.text|;
      (c.(play := play),
       Stream(s.controller, true, s.totalDuration + chunk.duration, processed, s.totalCharacters),
       first + [Progress(chunk.text, processed, s.totalCharacters)],
       false)
  }

  /** The end of the stream's loop: `onStreamingComplete` with the total, unless aborted. */
  function StreamEnded(c: Client, s: Stream): (r: seq<Callback>)
    ensures r == [] <==> Aborted(c, s)
    ensures !Aborted(c, s) ==> r == [StreamingComplete(s.totalDuration)]
  {
    if Aborted(c, s) then [] else [StreamingComplete(s.totalDuration)]
  }

  /** The `catch` and `finally` of a streaming call. `failed` says whether generation or decoding
      threw. The error reaches the caller only if the call was not aborted; the controller is
      cleared only if it is still this call's. Returns whether the call rejects. */
  function StreamFinished(c: Client, s: Stream, failed: bool): (r: (Client, bool))
    ensures r.1 <==> failed && !Aborted(c, s)
    ensures r.0.controller == (if c.controller == Some(s.controller) then None else c.controller)
    ensures r.0.play == c.play && r.0.aborted == c.aborted
  {
    (if c.controller == Some(s.controller) then c.(controller := None) else c, failed && !Aborted(c, s))
  }

  /** All chunks of a stream, chunk `k` decoded at `clocks[k]`, accumulated from the front. */
  function StreamAll(c: Client, s: Stream, chunks: seq<Chunk>, clocks: seq<NonNeg>): (Client, Stream, seq<Callback>)
    requires |chunks| == |clocks|
    decreases |chunks|
  {
    if |chunks| == 0 then (c, s, [])
    else
      var n := |chunks| - 1;
      var (c', s', cbs) := StreamAll(c, s, chunks[..n], clocks[..n]);
      var (c'', s'', cbs', _) := StreamChunk(c', s', chunks[n], clocks[n]);
      (c'', s'', cbs + cbs')
  }

  function ChunkDurations(chunks: seq<Chunk>): (ds: seq<NonNeg>)
    ensures |ds| == |chunks|
    ensures forall k :: 0 <= k < |chunks| ==> ds[k] == chunks[k].duration
  {
    seq(|chunks|, k requires 0 <= k < |chunks| => chunks[k].duration)
  }

  function ChunkChars(chunks: seq<Chunk>): nat
    decreases |chunks|
  {
    if |chunks| == 0 then 0 else ChunkChars(chunks[..|chunks| - 1]) + |chunks[|chunks| - 1].text|
  }

  /** The callbacks of an uninterrupted stream: `onFirstChunk` once, with the first chunk's
      duration, then one `onProgress` per chunk. */
  function ExpectedCallbacks(chunks: seq<Chunk>, totalCharacters: nat): seq<Callback>
    decreases |chunks|
  {
    if |chunks| == 0 then []
    else
      var n := |chunks| - 1;
      (if n == 0 then [FirstChunk(chunks[0].duration)] else ExpectedCallbacks(chunks[..n], totalCharacters))
        + [Progress(chunks[n].text, ChunkChars(chunks), totalCharacters)]
  }

  /** An uninterrupted stream schedules its chunks exactly as consecutive chunks of the timeline,
      totals their durations and characters, and makes the expected callbacks; its completion
      callback reports the sum of the durations. */
  lemma StreamWithoutAbort(c: Client, s: Stream, chunks: seq<Chunk>, clocks: seq<NonNeg>)
    requires |chunks| == |clocks|
    requires !Aborted(c, s)
    requires s.totalDuration == 0.0 && s.processedCharacters == 0 && !s.firstChunkProcessed
    ensures var (c', s', cbs) := StreamAll(c, s, chunks, clocks);
            && c'.play == ScheduleRun(c.play, clocks, ChunkDurations(chunks)).0
            && s'.totalDuration == Sum(ChunkDurations(chunks))
            && s'.processedCharacters == ChunkChars(chunks)
            && cbs == ExpectedCallbacks(chunks, s.totalCharacters)
            && StreamEnded(c', s') == [StreamingComplete(Sum(ChunkDurations(chunks)))]
  {
    StreamAllPlay(c, s, chunks, clocks);
    StreamAllTotals(c, s, chunks, clocks);
    StreamAllCallbacks(c, s, chunks, clocks);
    StreamAllKeepsController(c, s, chunks, clocks);
  }

  lemma {:induction false} StreamAllKeepsController(c: Client, s: Stream, chunks: seq<Chunk>, clocks: seq<NonNeg>)
    requires |chunks| == |clocks|
    requires !Aborted(c, s)
    ensures var (c', s', _) := StreamAll(c, s, chunks, clocks);
            && s'.controller == s.controller && s'.totalCharacters == s.totalCharacters
            && c'.aborted == c.aborted
            && (s'.firstChunkProcessed <==> s.firstChunkProcessed || |chunks| > 0)
    decreases |chunks|
  {
    if |chunks| > 0 {
      var n := |chunks| - 1;
      StreamAllKeepsController(c, s, chunks[..n], clocks[..n]);
    }
  }

  lemma {:induction false} StreamAllPlay(c: Client, s: Stream, chunks: seq<Chunk>, clocks: seq<NonNeg>)
    requires |chunks| == |clocks|
    requires !Aborted(c, s)
    ensures StreamAll(c, s, chunks, clocks).0.play == ScheduleRun(c.play, clocks, ChunkDurations(chunks)).0
    decreases |chunks|
  {
    if |chunks| > 0 {
      var n := |chunks| - 1;
      StreamAllPlay(c, s, chunks[..n], clocks[..n]);
      StreamAllKeepsController(c, s, chunks[..n], clocks[..n]);
      assert ChunkDurations(chunks)[..n] == ChunkDurations(chunks[..n]);
    }
  }

  lemma {:induction false} StreamAllTotals(c: Client, s: Stream, chunks: seq<Chunk>, clocks: seq<NonNeg>)
    requires |chunks| == |clocks|
    requires !Aborted(c, s)
    ensures StreamAll(c, s, chunks, clocks).1.totalDuration == s.totalDuration + Sum(ChunkDurations(chunks))
    ensures StreamAll(c, s, chunks, clocks).1.processedCharacters == s.processedCharacters + ChunkChars(chunks)
    decreases |chunks|
  {
    if |chunks| > 0 {
      var n := |chunks| - 1;
      StreamAllTotals(c, s, chunks[..n], clocks[..n]);
      StreamAllKeepsController(c, s, chunks[..n], clocks[..n]);
      assert ChunkDurations(chunks)[..n] == ChunkDurations(chunks[..n]);
    }
  }

  lemma {:induction false} StreamAllCallbacks(c: Client, s: Stream, chunks: seq<Chunk>, clocks: seq<NonNeg>)
    requires |chunks| == |clocks|
    requires !Aborted(c, s)
    requires s.processedCharacters == 0 && !s.firstChunkProcessed
    ensures StreamAll(c, s, chunks, clocks).2 == ExpectedCallbacks(chunks, s.totalCharacters)
    decreases |chunks|
  {
    if |chunks| > 0 {
      var n := |chunks| - 1;
      var prev := StreamAll(c, s, chunks[..n], clocks[..n]);
      var step := StreamChunk(prev.0, prev.1, chunks[n], clocks[n]);
      StreamAllUnfold(c, s, chunks, clocks);
      StreamAllCallbacks(c, s, chunks[..n], clocks[..n]);
      StreamAllKeepsController(c, s, chunks[..n], clocks[..n]);
      StreamAllTotals(c, s, chunks[..n], clocks[..n]);
      assert step.1.processedCharacters == ChunkChars(chunks);
      if n > 0 {
        assert chunks[..n][0] == chunks[0];
        assert step.2 == [Progress(chunks[n].text, ChunkChars(chunks), s.totalCharacters)];
      } else {
        assert step.2 == [FirstChunk(chunks[0].duration), Progress(chunks[n].text, ChunkChars(chunks), s.totalCharacters)];
      }
    }
  }

  lemma StreamAllUnfold(c: Client, s: Stream, chunks: seq<Chunk>, clocks: seq<NonNeg>)
    requires |chunks| == |clocks| > 0
    ensures var n := |chunks| - 1;
            var prev := StreamAll(c, s, chunks[..n], clocks[..n]);
            var step := StreamChunk(prev.0, prev.1, chunks[n], clocks[n]);
            StreamAll(c, s, chunks, clocks) == (step.0, step.1, prev.2 + step.2)
  {
  }

  /** `stopSpeech()` during a stream: every later chunk is ignored and no completion is reported. */
  lemma StopSilencesStream(c: Client, s: Stream, chunk: Chunk, clock: NonNeg)
    requires c.controller == Some(s.controller)
    ensures var stopped := StopSpeech(c).0;
            && StreamChunk(stopped, s, chunk, clock) == (stopped, s, [], true)
            && StreamEnded(stopped, s) == []
  {
  }

  /** A new streaming call supersedes a running one: the old call's chunks are ignored from then on,
      and the old call's `finally` does not clear the new call's controller. */
  lemma NewStreamSupersedesOld(c: Client, prev: Stream, text: string, clock: NonNeg, chunk: Chunk, clock2: NonNeg, failed: bool)
    requires ControllersIssued(c)
    requires c.controller == Some(prev.controller)
    ensures var (c', started) := StartStream(c, text, clock);
            && StreamChunk(c', prev, chunk, clock2).3
            && StreamChunk(c', prev, chunk, clock2).2 == []
            && StreamFinished(c', prev, failed).0.controller == Some(started.controller)
            && !StreamFinished(c', prev, failed).1
  {
  }

  // The token feed: `segmentText.match(/\s*\S+/g) || []`.

  /** The matches of `/\s*\S+/g`: each is a whitespace run followed by a maximal word. */
  function Tokens(s: string): (ts: seq<string>)
    decreases |s|
  {
    if SpaceRun(s) == |s| then []
    else [s[..TokenEnd(s)]] + Tokens(s[TokenEnd(s)..])
  }

  /** Where the first match ends: after the leading whitespace and the word that follows it. */
  function TokenEnd(s: string): (e: nat)
    requires SpaceRun(s) < |s|
    ensures SpaceRun(s) < e <= |s|
    ensures e == SpaceRun(s) + WordRun(s[SpaceRun(s)..])
  {
    var sp := SpaceRun(s);
    assert s[sp..][0] == s[sp];
    sp + WordRun(s[sp..])
  }

  function Concat(ts: seq<string>): string
  {
    if |ts| == 0 then "" else ts[0] + Concat(ts[1..])
  }

  lemma ConcatCons(t: string, ts: seq<string>)
    ensures Concat([t] + ts) == t + Concat(ts)
  {
    assert ([t] + ts)[1..] == ts;
  }

  /** Feeding the tokens loses nothing but trailing whitespace: their concatenation is a prefix of
      the text and only whitespace follows it. */
  lemma {:induction false} TokensCoverText(s: string)
    ensures Concat(Tokens(s)) <= s
    ensures AllSpace(s[|Concat(Tokens(s))|..])
    decreases |s|
  {
    if SpaceRun(s) < |s| {
      var e := TokenEnd(s);
      var rest := s[e..];
      TokensCoverText(rest);
      var head := s[..e];
      assert s == head + rest;
      assert Tokens(s) == [head] + Tokens(rest);
      ConcatCons(head, Tokens(rest));
      PrefixAppend(head, Concat(Tokens(rest)), rest);
    } else {
      assert s[0..] == s;
    }
  }

  lemma PrefixAppend(head: string, tail: string, rest: string)
    requires tail <= rest
    ensures head + tail <= head + rest
    ensures (head + rest)[|head + tail|..] == rest[|tail|..]
  {
    assert (head + tail)[..|head|] == head;
  }

  /** Each token is non-empty and ends with a non-whitespace character. */
  lemma {:induction false} TokensEndInWord(s: string)
    ensures forall t :: t in Tokens(s) ==> |t| > 0 && !IsSpace(t[|t| - 1])
    decreases |s|
  {
    var sp := SpaceRun(s);
    if sp < |s| {
      var e := TokenEnd(s);
      TokensEndInWord(s[e..]);
      assert s[..e][e - 1] == s[sp..][e - sp - 1];
    }
  }
}

=== FILE: overlay_session.dfy ===
/** The reading overlay of `Overlay.tsx`: it splits the text into a short first segment and the
    rest, speaks them one after the other through the synthesis client, and shows a progress bar
    whose total is first estimated from the text length and then corrected from the audio
    cursor. The audio clock and the cursor (`nextTime`) are inputs; the calls into the synthesis
    client are reported as effects. */
module OverlaySession {
  import opened Basics
  import opened TextSplit

  /** Characters read per second in the estimate. */
  const CharsPerSecond: real := 15.0

  /** `estimateDuration(text)`: seconds, at 15 characters a second. */
  function Estimate(text: string): (d: NonNeg)
    ensures d * CharsPerSecond == |text| as real
    ensures d == 0.0 <==> text == ""
  {
    |text| as real / CharsPerSecond
  }

  /** The two segments the overlay speaks: a first segment of at most 15 words, searching up to 10
      words back for a sentence end or comma, and the rest with a 3-word repeat removed. */
  function Segmented(text: string): Segments
  {
    SplitTextForHybrid(text, 15, 3, 10)
  }

  /** A text of at most 15 words is spoken whole as the first segment; a longer one starts with a
      non-empty first segment of at most 15 of its leading words. */
  lemma SegmentedShape(text: string)
    ensures var r := Segmented(text);
            && (|GetWords(text)| <= 15 ==> r == Segments(text, ""))
            && (|GetWords(text)| > 15 ==>
                  && r.first != ""
                  && 0 < |GetWords(r.first)| <= 15
                  && GetWords(r.first) == GetWords(text)[..|GetWords(r.first)|])
  {
    if |GetWords(text)| > 15 {
      SegmentsReadBack(text, 15, 3, 10);
      CutKeepsWords(GetWords(text), 15, 3, 10);
    }
  }

  /** `Math.min(100, (elapsed / total) * 100)` in JavaScript numbers. A zero total gives `Infinity`,
      clamped to 100, when time has passed, and `NaN` (here `None`) when it has not; a negative total
      gives a negative value. */
  function Percent(elapsed: NonNeg, total: real): (p: Option<real>)
    ensures p.None? <==> total == 0.0 && elapsed == 0.0
    ensures p.Some? ==> p.value <= 100.0
    ensures total > 0.0 ==> p.Some? && 0.0 <= p.value && (p.value == 100.0 <==> elapsed >= total)
    ensures total > 0.0 && elapsed < total ==> p.value * total == elapsed * 100.0
  {
    if total == 0.0 then (if elapsed > 0.0 then Some(100.0) else None)
    else
      var pct := elapsed / total * 100.0;
      Some(if pct < 100.0 then pct else 100.0)
  }

  /** The bar never moves back while the total stays the same. */
  lemma PercentMonotone(e1: NonNeg, e2: NonNeg, total: real)
    requires total > 0.0 && e1 <= e2
    ensures Percent(e1, total).value <= Percent(e2, total).value
  {
    assert e1 / total <= e2 / total by {
      assert e1 / total * total == e1 && e2 / total * total == e2;
    }
  }

  /** `nextTime!` in arithmetic: a null cursor counts as 0. */
  function CursorValue(nextTime: Option<real>): real
  {
    if nextTime.Some? then nextTime.value else 0.0
  }

  /** The overlay's state: `isPlaying`, `isPaused`, `showSpinner`, `progress` (`None` for `NaN`),
      the running `totalDuration` and `barStart`, whether the progress interval runs, and how often
      `onClose` was called. */
  datatype Session = Session(playing: bool, paused: bool, spinner: bool, progress: Option<real>,
                             total: real, barStart: real, ticking: bool, closeCalls: nat)

  /** The effect of mounting: the voice is set and the client reset, the spinner shows, the total
      is the estimate for the whole text, and the run starts playing. */
  function Mount(text: string): (s: Session)
    ensures s.playing && !s.paused && s.spinner && !s.ticking && s.closeCalls == 0
    ensures s.total == Estimate(text) && s.progress == Some(0.0)
  {
    Session(true, false, true, Some(0.0), Estimate(text), 0.0, false, 0)
  }

  /** `onFirstChunk`: the spinner goes, the bar starts at the current clock and the interval runs. */
  function FirstChunk(s: Session, clock: NonNeg): (r: Session)
    ensures !r.spinner && r.ticking && r.barStart == clock as real
    ensures r.total == s.total && r.playing == s.playing && r.paused == s.paused && r.closeCalls == s.closeCalls
  {
    s.(spinner := false, barStart := clock as real, ticking := true)
  }

  /** One tick of the interval: the percentage of the total elapsed since the bar started. */
  function Tick(s: Session, clock: NonNeg): (r: Session)
    requires clock as real >= s.barStart
    ensures s.ticking ==> r.progress == Percent((clock as real - s.barStart) as NonNeg, s.total)
    ensures !s.ticking ==> r == s
  {
    if s.ticking then s.(progress := Percent((clock as real - s.barStart) as NonNeg, s.total)) else s
  }

  /** After the first segment: the measured length of the first segment, from the bar's start to
      the cursor, plus the estimate for the second segment, if there is one. */
  function FirstSegmentDone(s: Session, nextTime: Option<real>, second: string): (r: Session)
    ensures r.total - (if second != "" then Estimate(second) else 0.0) == CursorValue(nextTime) - s.barStart
    ensures r == s.(total := r.total)
  {
    var firstActual := CursorValue(nextTime) - s.barStart;
    s.(total := firstActual + (if second != "" then Estimate(second) else 0.0))
  }

  /** After the second segment: the total is the cursor's distance from the bar's start. */
  function AllSegmentsDone(s: Session, nextTime: Option<real>): (r: Session)
    ensures s.barStart + r.total == CursorValue(nextTime)
    ensures r == s.(total := r.total)
  {
    s.(total := CursorValue(nextTime) - s.barStart)
  }

  /** Once the total is the cursor's distance from the bar's start, the bar shows 100 exactly when
      the clock has reached the end of the scheduled audio. */
  lemma BarFullExactlyAtEnd(s: Session, nextTime: real, clock: NonNeg)
    requires s.ticking && s.barStart < nextTime && s.barStart <= clock as real
    ensures var r := Tick(AllSegmentsDone(s, Some(nextTime)), clock);
            r.progress == Some(100.0) <==> clock as real >= nextTime
  {
  }

  /** The `finally` block apart from `onClose`: the interval stops, nothing plays or is paused, the
      spinner is hidden and the bar is full. */
  function Cleanup(s: Session): (r: Session)
    ensures !r.playing && !r.paused && !r.spinner && !r.ticking && r.progress == Some(100.0)
    ensures r.closeCalls == s.closeCalls && r.total == s.total && r.barStart == s.barStart
  {
    s.(playing := false, paused := false, spinner := false, ticking := false, progress := Some(100.0))
  }

  /** The whole `finally` block: the cleanup, then `onClose`. */
  function Finish(s: Session): (r: Session)
    ensures !r.playing && !r.paused && !r.spinner && !r.ticking && r.progress == Some(100.0)
    ensures r.closeCalls == s.closeCalls + 1
    ensures r.total == s.total && r.barStart == s.barStart
  {
    Cleanup(s).(closeCalls := s.closeCalls + 1)
  }

  /** How far a run got before the synthesis client threw, or `Completed`. The final
      `waitForPlaybackCompletion()` never rejects, so a run that gets that far completes. */
  datatype Outcome = FailedFirst | FailedSecond | Completed

  /** The first segment as it arrives: `firstClock` is the clock reading at its first binary chunk,
      or None when the segment settles without one, so that `onFirstChunk` never runs and the
      spinner stays until the end. */
  function Started(text: string, firstClock: Option<NonNeg>): (s: Session)
    ensures s.barStart == (if firstClock.Some? then firstClock.value as real else 0.0)
    ensures s.ticking <==> firstClock.Some?
    ensures s.total == Estimate(text) && s.closeCalls == 0
  {
    var s0 := Mount(text);
    if firstClock.Some? then FirstChunk(s0, firstClock.value) else s0
  }

  /** The whole run after mounting, when nobody presses Stop; the cursors after each segment are
      inputs. */
  function Run(text: string, firstClock: Option<NonNeg>, cursor1: Option<real>, cursor2: Option<real>, outcome: Outcome): (s: Session)
  {
    var s1 := Started(text, firstClock);
    if outcome == FailedFirst then Finish(s1)
    else
      var s2 := FirstSegmentDone(s1, cursor1, Segmented(text).second);
      if outcome == FailedSecond then Finish(s2)
      else Finish(AllSegmentsDone(s2, cursor2))
  }

  /** Every run without Stop ends in the same terminal state, and `onClose` is called exactly once;
      a completed run's total is the measured length of all the audio, from the bar's start. */
  lemma RunAlwaysCloses(text: string, firstClock: Option<NonNeg>, cursor1: Option<real>, cursor2: Option<real>, outcome: Outcome)
    ensures var s := Run(text, firstClock, cursor1, cursor2, outcome);
            && !s.playing && !s.paused && !s.spinner && !s.ticking
            && s.progress == Some(100.0) && s.closeCalls == 1
            && (outcome == FailedFirst ==> s.total == Estimate(text))
            && (outcome == Completed ==> s.total == CursorValue(cursor2) - (if firstClock.Some? then firstClock.value as real else 0.0))
  {
  }

  /** Where `handleStop` falls in a run. Stop is enabled from the start of the run, so it can come
      while the first segment's socket is still connecting, once that socket is open, or after the
      first segment has settled: while the second segment streams or, for a one-segment text,
      during the final wait. */
  datatype StopPoint = WhileConnecting | DuringFirst | AfterFirst

  /** The segments a run sends to `processSegment` once the first has settled. */
  function BothSegments(text: string): (r: seq<string>)
    ensures |r| >= 1 && r[0] == Segmented(text).first
    ensures |r| == 2 <==> Segmented(text).second != ""
    ensures |r| <= 2
  {
    var seg := Segmented(text);
    [seg.first] + (if seg.second != "" then [seg.second] else [])
  }

  /** A run in which Stop is pressed, as written (see the findings). `handleStop` calls `stopSpeech`
      and `onClose` but does not cancel the run, and `stopSpeech` closes every open or connecting
      socket and clears the sources and the cursor.
      - While connecting: closing a socket that is not yet open fails it, so `onerror` rejects the
        segment before `onclose` can resolve it; the run goes to `catch` and then `finally`.
      - During the first segment, on an open socket: `onclose` resolves the segment, so the run
        carries on, reads the cleared cursor, synthesises the second segment and reaches `finally`.
      - After the first segment: the second segment's socket is closed and resolves with the cursor
        cleared; with no second segment the run has already read the cursor at line 60 and is in
        its final wait.
      In every case `finally` calls `onClose` once more. Returns the final state and the segments
      sent to `processSegment`. */
  function StoppedRunAsWritten(text: string, firstClock: Option<NonNeg>, cursor1: Option<real>, cursor2: Option<real>, stop: StopPoint): (r: (Session, seq<string>))
  {
    var second := Segmented(text).second;
    if stop == WhileConnecting then
      (Finish(Stop(Started(text, None)).0), [Segmented(text).first])
    else if stop == DuringFirst then
      var s2 := FirstSegmentDone(Stop(Started(text, firstClock)).0, None, second);
      (Finish(AllSegmentsDone(s2, if second != "" then cursor2 else None)), BothSegments(text))
    else
      var s2 := FirstSegmentDone(Started(text, firstClock), cursor1, second);
      (Finish(AllSegmentsDone(Stop(s2).0, if second != "" then None else cursor1)), BothSegments(text))
  }

  /** As written, a stopped run calls `onClose` twice, so the manager advances its queue twice. A
      stop on the open first socket of a two-segment text still sends the second segment; a stop
      while that socket connects sends nothing more; a stop in the final wait of a one-segment text
      keeps the total measured from the cursor. */
  lemma StopClosesTwiceAsWritten(text: string, firstClock: Option<NonNeg>, cursor1: Option<real>, cursor2: Option<real>, stop: StopPoint)
    ensures var (s, sent) := StoppedRunAsWritten(text, firstClock, cursor1, cursor2, stop);
            && s.closeCalls == 2
            && (stop == WhileConnecting ==> sent == [Segmented(text).first] && s.total == Estimate(text))
            && (stop == DuringFirst && Segmented(text).second != "" ==> sent == [Segmented(text).first, Segmented(text).second])
            && (stop == AfterFirst && Segmented(text).second == "" ==>
                  s.total == CursorValue(cursor1) - (if firstClock.Some? then firstClock.value as real else 0.0))
  {
    var s1 := Started(text, firstClock);
    if stop == AfterFirst {
      var s2 := FirstSegmentDone(s1, cursor1, Segmented(text).second);
      assert Stop(s2).0.barStart == s1.barStart;
    }
  }

  /** A run in which Stop is pressed, with the run cancelled by the stop: after every `await` a
      stopped run does nothing more, and its `finally` leaves `onClose` to `handleStop`. */
  function StoppedRun(text: string, firstClock: Option<NonNeg>, cursor1: Option<real>, stop: StopPoint): (r: (Session, seq<string>))
  {
    if stop == WhileConnecting then (Cleanup(Stop(Started(text, None)).0), [Segmented(text).first])
    else if stop == DuringFirst then (Cleanup(Stop(Started(text, firstClock)).0), [Segmented(text).first])
    else
      var s2 := FirstSegmentDone(Started(text, firstClock), cursor1, Segmented(text).second);
      (Cleanup(Stop(s2).0), BothSegments(text))
  }

  /** With the run cancelled, a stopped run ends in the same terminal state as any other run and
      calls `onClose` exactly once, and a stop during the first segment sends nothing more. */
  lemma StoppedRunClosesOnce(text: string, firstClock: Option<NonNeg>, cursor1: Option<real>, stop: StopPoint)
    ensures var (s, sent) := StoppedRun(text, firstClock, cursor1, stop);
            && !s.playing && !s.paused && !s.spinner && !s.ticking
            && s.progress == Some(100.0) && s.closeCalls == 1
            && (stop != AfterFirst ==> sent == [Segmented(text).first])
  {
    if stop == AfterFirst {
      var s2 := FirstSegmentDone(Started(text, firstClock), cursor1, Segmented(text).second);
      assert Stop(s2).0.closeCalls == 1;
    } else {
      var s1 := Started(text, if stop == WhileConnecting then None else firstClock);
      assert Stop(s1).0.closeCalls == 1;
    }
  }

  /** What `handleToggle` asks of the audio context. */
  datatype ContextCall = Suspend | Resume

  /** `handleToggle`: suspend and mark paused when playing, resume and clear the mark when paused. */
  function Toggle(s: Session): (r: (Session, ContextCall))
    ensures r.0.paused != s.paused
    ensures r.1 == Suspend <==> !s.paused
    ensures r.0 == s.(paused := r.0.paused)
  {
    if !s.paused then (s.(paused := true), Suspend) else (s.(paused := false), Resume)
  }

  /** Toggling twice restores the state and resumes exactly what it suspended. */
  lemma ToggleTwice(s: Session)
    ensures Toggle(Toggle(s).0).0 == s
    ensures Toggle(s).1 != Toggle(Toggle(s).0).1
  {
  }

  /** What stopping or unmounting asks of the synthesis client and the manager. */
  datatype Teardown = Teardown(stopSpeech: bool, onClose: bool, clearInterval: bool)

  /** `handleStop`: stop the speech and close the overlay. */
  function Stop(s: Session): (r: (Session, Teardown))
    ensures r.1.stopSpeech && r.1.onClose && r.0.closeCalls == s.closeCalls + 1
  {
    (s.(closeCalls := s.closeCalls + 1), Teardown(true, true, false))
  }

  /** The effect's cleanup on unmount or when the text changes: stop the interval and the speech. */
  function Unmount(s: Session): (r: (Session, Teardown))
    ensures r.1.stopSpeech && r.1.clearInterval && !r.1.onClose
    ensures !r.0.ticking && r.0.closeCalls == s.closeCalls
  {
    (s.(ticking := false), Teardown(true, false, true))
  }
}

=== FILE: page_text.dfy ===
/** The string logic at the end of `extractPageText` (`utilsText.ts`): choosing a title among the
    headings found on the page and the document title, choosing the main content among the texts
    of the content containers and the body, and combining the two without repeating the title.
    What the DOM queries return is given as input: for each title selector in priority order, the
    text of the element found (`None` when nothing is found, the element lies inside an excluded
    region, or it has no text), and for each content selector that finds an element, its extracted text. */
module PageText {
  import opened Basics
  import opened TextSplit

  /** A title candidate is used when its trimmed text is longer than 3 and shorter than 200. */
  predicate AcceptableTitle(t: string)
  {
    3 < |Trim(t)| < 200
  }

  predicate AcceptableHeading(h: Option<string>)
  {
    h.Some? && AcceptableTitle(h.value)
  }

  /** `document.title` as the fallback: its trimmed text when acceptable, `''` otherwise. */
  function DocumentTitle(docTitle: string): (title: string)
    ensures title != "" <==> AcceptableTitle(docTitle)
    ensures title != "" ==> title == Trim(docTitle)
  {
    if AcceptableTitle(docTitle) then Trim(docTitle) else ""
  }

  /** The title: the trimmed text of the first acceptable heading, else the document title. */
  function SelectTitle(headings: seq<Option<string>>, docTitle: string): (title: string)
    ensures title == "" || (3 < |title| < 200 && Trimmed(title))
    ensures forall k :: 0 <= k < |headings| && AcceptableHeading(headings[k])
                        && (forall j :: 0 <= j < k ==> !AcceptableHeading(headings[j]))
                        ==> title == Trim(headings[k].value)
    ensures (forall j :: 0 <= j < |headings| ==> !AcceptableHeading(headings[j])) ==> title == DocumentTitle(docTitle)
    decreases |headings|
  {
    if |headings| == 0 then DocumentTitle(docTitle)
    else if AcceptableHeading(headings[0]) then Trim(headings[0].value)
    else
      var title := SelectTitle(headings[1..], docTitle);
      assert forall k :: 1 <= k < |headings| ==> headings[k] == headings[1..][k - 1];
      title
  }

  /** A content container's text is used when its trimmed length exceeds 100. */
  predicate Substantial(text: string)
  {
    |Trim(text)| > 100
  }

  /** The main content: the first substantial container text, else the body's text. */
  function SelectContent(candidates: seq<string>, body: string): (content: string)
    ensures forall k :: 0 <= k < |candidates| && Substantial(candidates[k])
                        && (forall j :: 0 <= j < k ==> !Substantial(candidates[j]))
                        ==> content == candidates[k]
    ensures (forall j :: 0 <= j < |candidates| ==> !Substantial(candidates[j])) ==> content == body
    decreases |candidates|
  {
    if |candidates| == 0 then body
    else if Substantial(candidates[0]) then candidates[0]
    else
      var content := SelectContent(candidates[1..], body);
      assert forall k :: 1 <= k < |candidates| ==> candidates[k] == candidates[1..][k - 1];
      content
  }

  /** `toLowerCase()` on ASCII letters; other characters are left as they are. */
  function LowerChar(ch: char): char
  {
    if 'A' <= ch <= 'Z' then (ch as int + 32) as char else ch
  }

  function Lower(s: string): (r: string)
    ensures |r| == |s| && forall i :: 0 <= i < |s| ==> r[i] == LowerChar(s[i])
  {
    seq(|s|, i requires 0 <= i < |s| => LowerChar(s[i]))
  }

  lemma LowerAppend(a: string, b: string)
    ensures Lower(a + b) == Lower(a) + Lower(b)
  {
    assert forall i :: 0 <= i < |a| ==> (a + b)[i] == a[i];
    assert forall i :: |a| <= i < |a| + |b| ==> (a + b)[i] == b[i - |a|];
  }

  /** The combination of title and content: the content alone when it already starts with the title
      (ignoring case), the title, `". "` and the content when it does not, and whichever is
      non-empty when one of them is empty. */
  function Combine(title: string, content: string): (r: string)
    ensures title != "" ==> Lower(title) <= Lower(r)
    ensures content != "" ==> |content| <= |r| && r[|r| - |content|..] == content
    ensures content == "" ==> r == title
    ensures r == content <==> title == "" || Lower(title) <= Lower(content)
    ensures title != "" && content != "" && !(Lower(title) <= Lower(content)) ==> r == title + ". " + content
  {
    if title != "" && content != "" then
      if Lower(title) <= Lower(content) then content
      else
        var r := title + ". " + content;
        assert Lower(title) <= Lower(r) by {
          LowerAppend(title, ". " + content);
        }
        r
    else if content != "" then content
    else title
  }

  /** `extractPageText()` over the DOM's answers. */
  function ExtractPageText(headings: seq<Option<string>>, docTitle: string, candidates: seq<string>, body: string): string
  {
    Combine(SelectTitle(headings, docTitle), SelectContent(candidates, body))
  }

  /** Combining again with the same title changes nothing: the title is never said twice in a row. */
  lemma CombineIdempotent(title: string, content: string)
    ensures Combine(title, Combine(title, content)) == Combine(title, content)
  {
  }

  /** The page text always ends with the chosen content and, when a title was chosen, starts with it
      up to case; it is empty only when no title was accepted and the content is empty. */
  lemma PageTextShape(headings: seq<Option<string>>, docTitle: string, candidates: seq<string>, body: string)
    ensures var title := SelectTitle(headings, docTitle);
            var content := SelectContent(candidates, body);
            var r := ExtractPageText(headings, docTitle, candidates, body);
            && (r == "" <==> title == "" && content == "")
            && (title != "" ==> Lower(title) <= Lower(r))
            && r[|r| - |content|..] == content
  {
  }
}

=== FILE: preload_cache.dfy ===
/** The preload cache of the extension's synthesis client: the keys whose preload completed
    (`preloadedSegments`), the keys whose preload is in flight (`preloadingSegments`), and the
    decoded buffers stored per key (`preloadedBuffers`). */
module PreloadCache {
  import opened Basics

  /** A request to read `text` aloud with a voice identifier at a speed multiplier. */
  datatype Request = Request(text: string, voice: string, speed: Positive)

  /** A cache key. The source renders it as the string `text|voice|speed`, with `|clientside`
      appended for buffers produced by the on-device model; `KeyTextInjective` shows that the
      rendering loses nothing, so keys are modelled by their components. */
  datatype Key = Key(text: string, voice: string, speed: real, clientSide: bool)

  /** `${text}|${voice}|${speed}`, the key of the server preload path. */
  function ServerKey(r: Request): Key
  {
    Key(r.text, r.voice, r.speed, false)
  }

  /** `${text}|${voice}|${speed}|clientside`, the key of the on-device preload and playback paths. */
  function ClientKey(r: Request): Key
  {
    Key(r.text, r.voice, r.speed, true)
  }

  /** The two paths never share an entry, so buffers preloaded through the server path are never
      found by the on-device playback lookup. */
  lemma KeysOfPathsDiffer(r: Request, r': Request)
    ensures ServerKey(r) != ClientKey(r')
    ensures ClientKey(r) == ClientKey(r') <==> r == r'
  {
  }

  /** A decoded audio buffer, reduced to its length in seconds. */
  datatype Buffer = Buffer(duration: NonNeg)

  datatype Cache = Cache(preloaded: set<Key>, preloading: set<Key>, buffers: map<Key, seq<Buffer>>)

  function Empty(): Cache
  {
    Cache({}, {}, map[])
  }

  /** Whether a preload call for `key` returns at once without any work. */
  predicate Known(c: Cache, key: Key)
  {
    key in c.preloaded || key in c.preloading
  }

  /** The durations of a list of buffers. */
  function Durations(bs: seq<Buffer>): (ds: seq<NonNeg>)
    ensures |ds| == |bs|
    ensures forall i :: 0 <= i < |bs| ==> ds[i] == bs[i].duration
  {
    seq(|bs|, i requires 0 <= i < |bs| => bs[i].duration)
  }

  /** The shared opening of both preload paths: skip a known key; otherwise mark it as preloading
      and start an empty buffer list. Returns whether synthesis was started. */
  function Begin(c: Cache, key: Key): (r: (Cache, bool))
    ensures r.1 <==> !Known(c, key)
    ensures !r.1 ==> r.0 == c
    ensures r.1 ==> r.0.preloading == c.preloading + {key} && r.0.preloaded == c.preloaded
    ensures r.1 ==> key in r.0.buffers && r.0.buffers[key] == []
    ensures forall k :: k != key ==> (k in r.0.buffers <==> k in c.buffers)
    ensures forall k :: k != key && k in c.buffers ==> r.0.buffers[k] == c.buffers[k]
  {
    if Known(c, key) then (c, false)
    else (Cache(c.preloaded, c.preloading + {key}, c.buffers[key := []]), true)
  }

  /** `preloadedBuffers[key].push(buffer)`. A missing entry makes `push` throw, which stores nothing. */
  function AddBuffer(c: Cache, key: Key, b: Buffer): (r: Cache)
    ensures r.preloaded == c.preloaded && r.preloading == c.preloading
    ensures key in c.buffers ==> r.buffers == c.buffers[key := c.buffers[key] + [b]]
    ensures key !in c.buffers ==> r == c
  {
    if key in c.buffers then c.(buffers := c.buffers[key := c.buffers[key] + [b]]) else c
  }

  /** The server path's `onclose`: the key leaves the in-flight set and is marked preloaded,
      whether the socket closed after the end marker, an error message or a transport error. */
  function ServerClosed(c: Cache, key: Key): (r: Cache)
    ensures key in r.preloaded && key !in r.preloading
    ensures r.buffers == c.buffers
    ensures forall k :: k != key ==> (k in r.preloaded <==> k in c.preloaded) && (k in r.preloading <==> k in c.preloading)
  {
    Cache(c.preloaded + {key}, c.preloading - {key}, c.buffers)
  }

  /** The on-device path's opening as written. The early `return` for a known key sits inside the
      `try` whose `finally` deletes the key from `preloadingSegments`, so a call that skips because
      another call is still preloading the key also clears that call's in-flight mark. */
  function ClientBeginAsWritten(c: Cache, key: Key): (r: (Cache, bool))
    ensures r.1 <==> !Known(c, key)
    ensures !r.1 ==> r.0 == c.(preloading := c.preloading - {key})
    ensures r.1 ==> r.0 == Begin(c, key).0
  {
    if Known(c, key) then (c.(preloading := c.preloading - {key}), false)
    else Begin(c, key)
  }

  /** The end of an on-device preload: on success the decoded buffer is pushed and the key is marked
      preloaded; in every case the `finally` removes the key from the in-flight set. `generated` is
      None when generation or decoding threw. */
  function ClientFinished(c: Cache, key: Key, generated: Option<Buffer>): (r: Cache)
    ensures key !in r.preloading
    ensures forall k :: k != key ==> (k in r.preloading <==> k in c.preloading)
    ensures key in r.preloaded <==> key in c.preloaded || (generated.Some? && key in c.buffers)
    ensures forall k :: k != key ==> (k in r.preloaded <==> k in c.preloaded)
    ensures generated.Some? && key in c.buffers ==> r.buffers == c.buffers[key := c.buffers[key] + [generated.value]]
    ensures generated.None? || key !in c.buffers ==> r.buffers == c.buffers
  {
    var stored := if generated.Some? && key in c.buffers
                  then Cache(c.preloaded + {key}, c.preloading, c.buffers[key := c.buffers[key] + [generated.value]])
                  else c;
    stored.(preloading := stored.preloading - {key})
  }

  /** A successful on-device preload of a fresh key stores exactly one buffer and marks it preloaded;
      a failed one leaves the key unknown, so a later call retries. */
  lemma ClientPreloadOutcome(c: Cache, key: Key, generated: Option<Buffer>)
    requires !Known(c, key)
    ensures var started := Begin(c, key).0;
            var done := ClientFinished(started, key, generated);
            && (generated.Some? ==> key in done.preloaded && done.buffers[key] == [generated.value])
            && (generated.None? ==> !Known(done, key) && done.buffers[key] == [])
  {
  }

  /** `n` further preload calls for `key` with no completion in between, each opening with `Begin`
      (which leaves the in-flight mark alone when it skips).
      Returns the cache and how many of the calls started a synthesis. */
  function BeginRepeatedly(c: Cache, key: Key, n: nat): (Cache, nat)
    decreases n
  {
    if n == 0 then (c, 0)
    else
      var (c', started) := Begin(c, key);
      var (c'', count) := BeginRepeatedly(c', key, n - 1);
      (c'', count + (if started then 1 else 0))
  }

  /** The same, using the opening as written. */
  function BeginRepeatedlyAsWritten(c: Cache, key: Key, n: nat): (Cache, nat)
    decreases n
  {
    if n == 0 then (c, 0)
    else
      var (c', started) := ClientBeginAsWritten(c, key);
      var (c'', count) := BeginRepeatedlyAsWritten(c', key, n - 1);
      (c'', count + (if started then 1 else 0))
  }

  /** De-duplication with the corrected opening: however many calls for one key overlap, exactly one
      synthesis is started when the key was unknown and none when it was already known. */
  lemma {:induction false} OverlappingPreloadsStartOnce(c: Cache, key: Key, n: nat)
    requires n > 0
    ensures BeginRepeatedly(c, key, n).1 == (if Known(c, key) then 0 else 1)
    ensures Known(BeginRepeatedly(c, key, n).0, key)
  {
    var (c', started) := Begin(c, key);
    KnownKeyStartsNothing(c', key, n - 1);
  }

  lemma {:induction false} KnownKeyStartsNothing(c: Cache, key: Key, n: nat)
    requires Known(c, key)
    ensures BeginRepeatedly(c, key, n) == (c, 0)
  {
    if n > 0 {
      KnownKeyStartsNothing(c, key, n - 1);
    }
  }

  /** As written, three overlapping calls for a fresh key start two syntheses: the second call skips
      but releases the first call's in-flight mark, so the third call starts again. */
  lemma ThreeOverlappingPreloadsStartTwice(key: Key)
    ensures BeginRepeatedlyAsWritten(Empty(), key, 3).1 == 2
  {
    var c1 := Begin(Empty(), key).0;
    assert ClientBeginAsWritten(Empty(), key) == (c1, true);
    var c2 := c1.(preloading := c1.preloading - {key});
    assert ClientBeginAsWritten(c1, key) == (c2, false);
    assert !Known(c2, key);
    assert ClientBeginAsWritten(c2, key).1;
    assert BeginRepeatedlyAsWritten(c2, key, 1).1 == 1;
    assert BeginRepeatedlyAsWritten(c1, key, 2).1 == 1;
  }

  // The string rendering of keys.

  /** Characters that occur in JavaScript's text for a finite positive number. */
  predicate IsNumberText(s: string)
  {
    forall i :: 0 <= i < |s| ==> s[i] in "0123456789.e+-"
  }

  /** The key string the source builds, given the text JavaScript produces for the speed. */
  function KeyText(k: Key, speedText: string): string
  {
    k.text + "|" + k.voice + "|" + speedText + (if k.clientSide then "|clientside" else "")
  }

  /** Index of the last '|' in `s`, or -1. */
  function LastBar(s: string): (i: int)
    ensures -1 <= i < |s|
  {
    if |s| == 0 then -1
    else if s[|s| - 1] == '|' then |s| - 1
    else LastBar(s[..|s| - 1])
  }

  lemma {:induction false} LastBarAfter(a: string, b: string)
    requires '|' !in b
    ensures LastBar(a + "|" + b) == |a|
    decreases |b|
  {
    var s := a + "|" + b;
    if |b| > 0 {
      assert s[..|s| - 1] == a + "|" + b[..|b| - 1];
      assert s[|s| - 1] == b[|b| - 1];
      LastBarAfter(a, b[..|b| - 1]);
    }
  }

  /** Cutting at the last '|' recovers both parts. */
  lemma SplitAtLastBar(a: string, b: string, a': string, b': string)
    requires '|' !in b && '|' !in b'
    requires a + "|" + b == a' + "|" + b'
    ensures a == a' && b == b'
  {
    LastBarAfter(a, b);
    LastBarAfter(a', b');
    var s := a + "|" + b;
    assert a == s[..|a|] && b == s[|a| + 1..];
    assert a' == s[..|a'|] && b' == s[|a'| + 1..];
  }

  /** The key string determines the key, provided the voice has no '|' (voice identifiers never do)
      and the speed text is a number's text. */
  lemma KeyTextInjective(k1: Key, st1: string, k2: Key, st2: string)
    requires '|' !in k1.voice && '|' !in k2.voice
    requires IsNumberText(st1) && IsNumberText(st2)
    requires KeyText(k1, st1) == KeyText(k2, st2)
    ensures k1.text == k2.text && k1.voice == k2.voice && st1 == st2 && k1.clientSide == k2.clientSide
  {
    NumberTextIsBarFree(st1);
    NumberTextIsBarFree(st2);
    var tail := "clientside";
    assert '|' !in tail;
    var h1 := k1.text + "|" + k1.voice + "|" + st1;
    var h2 := k2.text + "|" + k2.voice + "|" + st2;
    if k1.clientSide {
      assert KeyText(k1, st1) == h1 + "|" + tail;
    }
    if k2.clientSide {
      assert KeyText(k2, st2) == h2 + "|" + tail;
    }
    // The last '|'-free segment is "clientside" for on-device keys and the speed text otherwise.
    NumberTextIsNotTail(st1);
    NumberTextIsNotTail(st2);
    if k1.clientSide && k2.clientSide {
      SplitAtLastBar(h1, tail, h2, tail);
    } else if !k1.clientSide && !k2.clientSide {
      assert KeyText(k1, st1) == h1 && KeyText(k2, st2) == h2;
    } else if k1.clientSide {
      SplitAtLastBar(k1.text + "|" + k1.voice + "|" + st1, tail, k2.text + "|" + k2.voice, st2);
    } else {
      SplitAtLastBar(k1.text + "|" + k1.voice, st1, k2.text + "|" + k2.voice + "|" + st2, tail);
    }
    SplitAtLastBar(k1.text + "|" + k1.voice, st1, k2.text + "|" + k2.voice, st2);
    SplitAtLastBar(k1.text, k1.voice, k2.text, k2.voice);
  }

  lemma NumberTextIsBarFree(s: string)
    requires IsNumberText(s)
    ensures '|' !in s
  {
  }

  lemma NumberTextIsNotTail(s: string)
    requires IsNumberText(s)
    ensures s != "clientside"
  {
    if |s| > 0 {
      assert s[0] in "0123456789.e+-";
    }
  }
}

=== FILE: preload_playback.dfy ===
/** Preloading and playing preloaded audio (`ttsClient.ts`): the server preload `preloadText`, the
    on-device preload `preloadTextClientSide`, and `playPreloadedText`, which schedules a key's
    buffers back to back at the requested speed. */
module PreloadPlayback {
  import opened Basics
  import opened Timeline
  import opened PreloadCache
  import opened TtsClient

  // preloadText: the server path.

  /** The closure of one server preload: its key, decoding rate, whether it called `ws.close()`,
      and its promise. Its socket is not registered in `activeSockets`. */
  datatype Preload = Preload(key: Key, sampleRate: real, closeRequested: bool, promise: Settled)

  /** `preloadText(text, voice, speed)`: nothing when the key is known; otherwise mark it as
      preloading, start an empty buffer list, open a socket and make the voice and speed current. */
  function PreloadText(c: Client, req: Request, contextRate: real): (r: (Client, Option<Preload>))
    ensures r.1.None? <==> Known(c.cache, ServerKey(req))
    ensures r.1.None? ==> r.0 == c
    ensures r.1.Some? ==>
              && r.1.value == Preload(ServerKey(req), contextRate, false, Pending)
              && r.0.cache == Begin(c.cache, ServerKey(req)).0
              && r.0.voice == req.voice && r.0.speed == req.speed as real
              && r.0.play == c.play && r.0.sockets == c.sockets
  {
    var key := ServerKey(req);
    var (cache, started) := Begin(c.cache, key);
    if !started then (c, None)
    else (c.(cache := cache, voice := req.voice, speed := req.speed), Some(Preload(key, contextRate, false, Pending)))
  }

  /** `ws.onmessage` of a server preload: like the streaming path, but a decoded chunk is appended
      to the key's buffers instead of being scheduled, and there is no first-chunk callback. */
  function PreloadReceived(c: Client, p: Preload, msg: WsMessage): (r: (Client, Preload))
    ensures p.closeRequested ==> r == (c, p)
    ensures r.0.play == c.play && r.0.voice == c.voice && r.0.cache.preloaded == c.cache.preloaded
    ensures r.0.cache.preloading == c.cache.preloading && r.1.key == p.key
    ensures r.1.closeRequested <==> p.closeRequested || (msg.Text? && msg.json.Some? && (msg.json.value.error || msg.json.value.end))
    ensures r.1.promise == (if !p.closeRequested && msg.Text? && msg.json.Some? && msg.json.value.error then Settle(p.promise, Rejected) else p.promise)
    ensures !p.closeRequested && msg.Binary? && BufferCreatable(msg.frames, p.sampleRate) && p.key in c.cache.buffers ==>
              r.0.cache.buffers == c.cache.buffers[p.key := c.cache.buffers[p.key] + [Buffer(BufferDuration(msg.frames, p.sampleRate))]]
    ensures p.closeRequested || !(msg.Binary? && BufferCreatable(msg.frames, p.sampleRate)) ==> r.0.cache == c.cache
  {
    if p.closeRequested then (c, p)
    else match msg
      case Text(None) => (c, p)
      case Text(Some(j)) =>
        if j.error then (c, p.(closeRequested := true, promise := Settle(p.promise, Rejected)))
        else if j.end then (c, p.(closeRequested := true))
        else if j.sampleRate != 0.0 then (c, p.(sampleRate := j.sampleRate))
        else (c, p)
      case Binary(frames) =>
        if BufferCreatable(frames, p.sampleRate) then
          (c.(cache := AddBuffer(c.cache, p.key, Buffer(BufferDuration(frames, p.sampleRate)))), p)
        else (c, p)
  }

  /** `ws.onclose` of a server preload: the key becomes preloaded and the promise resolves unless it
      was already rejected. */
  function PreloadClosed(c: Client, p: Preload): (r: (Client, Preload))
    ensures r.0.cache == ServerClosed(c.cache, p.key)
    ensures r.1.promise == Settle(p.promise, Resolved)
    ensures r.0.play == c.play && r.0.sockets == c.sockets
  {
    (c.(cache := ServerClosed(c.cache, p.key)), p.(promise := Settle(p.promise, Resolved)))
  }

  /** A server preload that failed with an error frame still marks its key preloaded, so every
      later `preloadText` for the same request does nothing: the failure is never retried. */
  lemma FailedServerPreloadIsNeverRetried(c: Client, req: Request, contextRate: real, message: bool, later: real)
    requires !Known(c.cache, ServerKey(req))
    ensures var (c1, p) := PreloadText(c, req, contextRate);
            p.Some? &&
            var (c2, p2) := PreloadReceived(c1, p.value, Text(Some(Json(message, true, 0.0))));
            var (c3, p3) := PreloadClosed(c2, p2);
            && p3.promise == (if message then Rejected else Resolved)
            && ServerKey(req) in c3.cache.preloaded
            && PreloadText(c3, req, later).1.None?
  {
  }

  // preloadTextClientSide: the on-device path.

  /** The part of `preloadTextClientSide` before generation, as written (see the findings): returns
      whether generation starts. `loadSucceeded` is the outcome of `await ensureModelLoaded()`, which
      loads the model on demand; when that load fails the call throws before anything is touched. */
  function PreloadClientSideBeginAsWritten(c: Client, req: Request, loadSucceeded: bool): (r: (Client, bool))
    ensures !loadSucceeded ==> r == (c, false)
    ensures loadSucceeded ==> r.0.cache == ClientBeginAsWritten(c.cache, ClientKey(req)).0 && (r.1 <==> !Known(c.cache, ClientKey(req)))
    ensures r.0.play == c.play && r.0.voice == c.voice && r.0.speed == c.speed
  {
    if !loadSucceeded then (c, false)
    else
      var (cache, started) := ClientBeginAsWritten(c.cache, ClientKey(req));
      (c.(cache := cache), started)
  }

  /** The synchronous part of `preloadTextClientSide` with the skip leaving the in-flight mark of the
      running call in place. */
  function PreloadClientSideBegin(c: Client, req: Request, loadSucceeded: bool): (r: (Client, bool))
    ensures !loadSucceeded ==> r == (c, false)
    ensures r.1 <==> loadSucceeded && !Known(c.cache, ClientKey(req))
    ensures !r.1 ==> r.0 == c
    ensures r.1 ==>
              && ClientKey(req) in r.0.cache.preloading && ClientKey(req) in r.0.cache.buffers
              && r.0.cache.buffers[ClientKey(req)] == []
    ensures r.0.play == c.play && r.0.voice == c.voice && r.0.speed == c.speed
  {
    if !loadSucceeded then (c, false)
    else
      var (cache, started) := Begin(c.cache, ClientKey(req));
      (c.(cache := cache), started)
  }

  /** The asynchronous end of `preloadTextClientSide`: `generated` is the decoded buffer's duration,
      or None when generation or decoding threw. */
  function PreloadClientSideFinished(c: Client, req: Request, generated: Option<NonNeg>): (r: Client)
    ensures r.cache == ClientFinished(c.cache, ClientKey(req), if generated.Some? then Some(Buffer(generated.value)) else None)
    ensures r.play == c.play && r.voice == c.voice
  {
    c.(cache := ClientFinished(c.cache, ClientKey(req), if generated.Some? then Some(Buffer(generated.value)) else None))
  }

  // playPreloadedText

  /** Buffer durations at playback rate `speed`: a buffer of `d` seconds plays for `d / speed`. */
  function AtSpeed(ds: seq<NonNeg>, speed: Positive): (r: seq<NonNeg>)
    ensures |r| == |ds|
    ensures forall k :: 0 <= k < |ds| ==> r[k] == ds[k] / speed
  {
    seq(|ds|, k requires 0 <= k < |ds| => ds[k] / speed)
  }

  /** What a `playPreloadedText` call that found buffers did: the total it passed to `onFirstChunk`
      and the sources it started. */
  datatype Played = Played(total: real, scheduled: seq<Scheduled>)

  /** `playPreloadedText(text, voice, speed)`: look up the on-device key; with no buffers do nothing.
      Otherwise report the total duration, `reset()`, make voice and speed current, put the cursor
      at the clock and start every buffer at the cursor, advancing it by the buffer's duration
      divided by the speed. */
  function PlayPreloaded(c: Client, req: Request, clock: NonNeg): (r: (Client, Option<Played>))
    ensures r.1.None? <==> ClientKey(req) !in c.cache.buffers || |c.cache.buffers[ClientKey(req)]| == 0
    ensures r.1.None? ==> r.0 == c
    ensures r.1.Some? ==>
              var ds := Durations(c.cache.buffers[ClientKey(req)]);
              && r.1.value.total == Sum(ds)
              && |r.1.value.scheduled| == |ds|
              && (forall k :: 0 <= k < |ds| ==> r.1.value.scheduled[k].length == ds[k] / req.speed)
              && r.0.play.active == c.play.active + SourcesOf(r.1.value.scheduled)
              && r.0.voice == req.voice && r.0.speed == req.speed as real && !r.0.secondSegmentStarted
              && r.0.cache == c.cache
  {
    var key := ClientKey(req);
    if key !in c.cache.buffers || |c.cache.buffers[key]| == 0 then (c, None)
    else
      var ds := Durations(c.cache.buffers[key]);
      var c1 := ResetClient(c).(voice := req.voice, speed := req.speed);
      var (play, scheduled) := ScheduleRun(c1.play.(nextTime := Some(clock as real)), seq(|ds|, _ => clock), AtSpeed(ds, req.speed));
      (c1.(play := play), Some(Played(Sum(ds), scheduled)))
  }

  /** The buffers play back to back from the clock: buffer `k` starts after the first `k` buffers'
      scaled durations, and the cursor ends `total / speed` after the clock. */
  lemma PlayPreloadedBackToBack(c: Client, req: Request, clock: NonNeg)
    requires ClientKey(req) in c.cache.buffers && |c.cache.buffers[ClientKey(req)]| > 0
    ensures var (c', played) := PlayPreloaded(c, req, clock);
            var ds := Durations(c.cache.buffers[ClientKey(req)]);
            && played.Some?
            && (forall k :: 0 <= k < |ds| ==> played.value.scheduled[k].start == clock as real + Sum(AtSpeed(ds, req.speed)[..k]))
            && c'.play.nextTime == Some(clock as real + played.value.total / req.speed)
  {
    var ds := Durations(c.cache.buffers[ClientKey(req)]);
    var scaled := AtSpeed(ds, req.speed);
    var p := ResetClient(c).(voice := req.voice, speed := req.speed).play.(nextTime := Some(clock as real));
    BackToBackFromClock(p, clock, scaled);
    SumScaled(ds, scaled, req.speed);
  }

  /** Chunks all scheduled at one clock reading, starting from a cursor at that reading, follow each
      other without gaps. */
  lemma BackToBackFromClock(p: Playback, clock: NonNeg, ds: seq<NonNeg>)
    requires p.nextTime == Some(clock as real)
    ensures var r := ScheduleRun(p, seq(|ds|, _ => clock), ds);
            && (forall k :: 0 <= k < |ds| ==> r.1[k].start == clock as real + Sum(ds[..k]))
            && r.0.nextTime == Some(clock as real + Sum(ds))
  {
    var clocks: seq<NonNeg> := seq(|ds|, _ => clock);
    forall k | 0 <= k < |clocks|
      ensures clocks[k] <= clock as real + Sum(ds[..k])
    {
      SumNonNeg(ds[..k]);
    }
    ScheduleRunGapFree(p, clocks, ds, clock as real);
  }

  /** A successful on-device preload of a fresh request followed by playback of the same request
      plays exactly the one generated buffer, from the clock, for its duration divided by the speed. */
  lemma PreloadThenPlay(c: Client, req: Request, d: NonNeg, clock: NonNeg)
    requires !Known(c.cache, ClientKey(req))
    ensures var (c1, started) := PreloadClientSideBegin(c, req, true);
            var c2 := PreloadClientSideFinished(c1, req, Some(d));
            var (c3, played) := PlayPreloaded(c2, req, clock);
            && started
            && played.Some? && played.value.total == d
            && |played.value.scheduled| == 1
            && played.value.scheduled[0].start == clock as real
            && played.value.scheduled[0].length == d / req.speed
  {
    var (c1, started) := PreloadClientSideBegin(c, req, true);
    var c2 := PreloadClientSideFinished(c1, req, Some(d));
    PreloadStoresOneBuffer(c, req, d);
    PlaySingleBuffer(c2, req, d, clock);
  }

  lemma PreloadStoresOneBuffer(c: Client, req: Request, d: NonNeg)
    requires !Known(c.cache, ClientKey(req))
    ensures var (c1, started) := PreloadClientSideBegin(c, req, true);
            var c2 := PreloadClientSideFinished(c1, req, Some(d));
            && started
            && ClientKey(req) in c2.cache.buffers && c2.cache.buffers[ClientKey(req)] == [Buffer(d)]
  {
  }

  lemma PlaySingleBuffer(c: Client, req: Request, d: NonNeg, clock: NonNeg)
    requires ClientKey(req) in c.cache.buffers && c.cache.buffers[ClientKey(req)] == [Buffer(d)]
    ensures var (c', played) := PlayPreloaded(c, req, clock);
            && played.Some? && played.value.total == d
            && |played.value.scheduled| == 1
            && played.value.scheduled[0].start == clock as real
            && played.value.scheduled[0].length == d / req.speed
  {
    PlayPreloadedBackToBack(c, req, clock);
    assert Durations([Buffer(d)]) == [d];
    assert AtSpeed([d], req.speed)[..0] == [];
  }
}

=== FILE: request_queue.dfy ===
/** The overlay controller of `OverlayManager.tsx`: at most one request is being read (`current`),
    later requests wait in `queue` when queueing is enabled, and each newly started request gets
    a fresh `currentKey`, which remounts the reading overlay. Stopping the speech is an effect the
    operations report; the zero-delay timer of the interrupt path is modelled as a list of pending
    starts that `RunDeferred` takes one at a time, in the order they were set. */
module RequestQueue {
  import opened Basics
  import opened PreloadCache

  datatype Manager = Manager(current: Option<Request>, queue: seq<Request>, queueEnabled: bool,
                             currentKey: nat, loadedKeys: set<Key>, deferred: seq<Request>)

  function Initial(queueEnabled: bool): (m: Manager)
    ensures m.current.None? && m.queue == [] && m.deferred == []
  {
    Manager(None, [], queueEnabled, 0, {}, [])
  }

  /** What a `readText` message does. */
  datatype Admission = Ignored | Started | Enqueued | Interrupted

  /** The message listener. A message that is not `readText` or carries no text is ignored. With
      nothing being read, the request starts at once and the queue is cleared; with queueing
      enabled, it goes to the end of the queue; otherwise the speech is stopped, the queue and the
      current request cleared, and the request's start is deferred to the next tick. Returns the
      new state, what happened, and whether `stopSpeech` was called. */
  function Receive(m: Manager, readText: bool, req: Request): (r: (Manager, Admission, bool))
    ensures r.2 <==> r.1 == Interrupted
    ensures r.1 == Ignored <==> !readText || req.text == ""
    ensures r.1 == Ignored ==> r.0 == m
    ensures r.1 == Started <==> r.1 != Ignored && m.current.None?
    ensures r.1 == Started ==> r.0 == m.(current := Some(req), queue := [], currentKey := m.currentKey + 1)
    ensures r.1 == Enqueued <==> r.1 != Ignored && m.current.Some? && m.queueEnabled
    ensures r.1 == Enqueued ==> r.0 == m.(queue := m.queue + [req])
    ensures r.1 == Interrupted ==> r.0 == m.(current := None, queue := [], deferred := m.deferred + [req])
  {
    if !readText || req.text == "" then (m, Ignored, false)
    else if m.current.None? then (m.(current := Some(req), queue := [], currentKey := m.currentKey + 1), Started, false)
    else if m.queueEnabled then (m.(queue := m.queue + [req]), Enqueued, false)
    else (m.(current := None, queue := [], deferred := m.deferred + [req]), Interrupted, true)
  }

  /** The deferred start of an interrupting request: it becomes current with a new key. */
  function RunDeferred(m: Manager): (r: Manager)
    ensures m.deferred == [] ==> r == m
    ensures m.deferred != [] ==> r == m.(current := Some(m.deferred[0]), currentKey := m.currentKey + 1, deferred := m.deferred[1..])
  {
    if m.deferred == [] then m
    else m.(current := Some(m.deferred[0]), currentKey := m.currentKey + 1, deferred := m.deferred[1..])
  }

  /** `handleClose`: the overlay of the current request closed. Speech is stopped (the returned flag
      is always set); the queue's head becomes current with a new key and the rest stays queued, or,
      with an empty queue, nothing is current any more. */
  function HandleClose(m: Manager): (r: (Manager, bool))
    ensures r.1
    ensures m.queue != [] ==> r.0.current == Some(m.queue[0]) && [m.queue[0]] + r.0.queue == m.queue
                              && r.0.currentKey == m.currentKey + 1
    ensures m.queue == [] ==> r.0.current.None? && r.0.queue == [] && r.0.currentKey == m.currentKey
    ensures r.0.queueEnabled == m.queueEnabled && r.0.loadedKeys == m.loadedKeys && r.0.deferred == m.deferred
  {
    if m.queue != [] then (m.(current := Some(m.queue[0]), queue := m.queue[1..], currentKey := m.currentKey + 1), true)
    else (m.(current := None), true)
  }

  /** `removeQueueItem(index)`: drops exactly the queued request at `index`, keeping the others in
      order; any other index leaves the queue as it is. */
  function RemoveQueueItem(m: Manager, index: int): (r: Manager)
    ensures 0 <= index < |m.queue| ==> |r.queue| == |m.queue| - 1
                                       && r.queue[..index] == m.queue[..index]
                                       && r.queue[index..] == m.queue[index + 1..]
    ensures !(0 <= index < |m.queue|) ==> r == m
    ensures r.current == m.current && r.currentKey == m.currentKey
  {
    m.(queue := RemoveAt(m.queue, index))
  }

  /** What `preloadNext` does. */
  datatype PreloadAction = NoPreload | StartPreload(req: Request) | AlreadyPreloaded(key: Key)

  /** The queue position `preloadNext` looks at: the second request when there are several, the
      only one otherwise. */
  function PreloadIndex(queue: seq<Request>): (i: nat)
    requires queue != []
    ensures i < |queue| && (i == 1 <==> |queue| > 1)
  {
    if |queue| > 1 then 1 else 0
  }

  /** `preloadNext`, called when the current request's text has been processed. For the request at
      `PreloadIndex`, an on-device preload is started when its key is neither preloaded in the cache
      nor in `loadedKeys`; a key the cache already holds joins `loadedKeys` at once. */
  function PreloadNext(m: Manager, cache: Cache): (r: (Manager, PreloadAction))
    ensures m.queue == [] ==> r == (m, NoPreload)
    ensures r.1.StartPreload? ==> m.queue != [] && r.1.req == m.queue[PreloadIndex(m.queue)]
                                  && ClientKey(r.1.req) !in cache.preloaded && ClientKey(r.1.req) !in m.loadedKeys
                                  && r.0 == m
    ensures r.1.AlreadyPreloaded? ==> r.1.key in cache.preloaded && r.1.key !in m.loadedKeys
                                      && r.0 == m.(loadedKeys := m.loadedKeys + {r.1.key})
    ensures r.1.NoPreload? ==> r.0 == m
    ensures m.queue != [] && ClientKey(m.queue[PreloadIndex(m.queue)]) !in m.loadedKeys ==> !r.1.NoPreload?
    ensures m.queue != [] ==> r.0.loadedKeys == m.loadedKeys + {ClientKey(m.queue[PreloadIndex(m.queue)])}
                              || r.0.loadedKeys == m.loadedKeys
  {
    if m.queue == [] then (m, NoPreload)
    else
      var req := m.queue[PreloadIndex(m.queue)];
      var key := ClientKey(req);
      if key !in cache.preloaded && key !in m.loadedKeys then (m, StartPreload(req))
      else if key in cache.preloaded && key !in m.loadedKeys then (m.(loadedKeys := m.loadedKeys + {key}), AlreadyPreloaded(key))
      else (m, NoPreload)
  }

  /** The started preload completed: its key joins `loadedKeys`. */
  function PreloadCompleted(m: Manager, req: Request): (r: Manager)
    ensures r.loadedKeys == m.loadedKeys + {ClientKey(req)}
    ensures r.current == m.current && r.queue == m.queue
  {
    m.(loadedKeys := m.loadedKeys + {ClientKey(req)})
  }

  /** `currentKey` only grows, and it grows exactly when a request starts, through an admission, a
      deferred start or a close; so every started request gets a key no earlier one had. */
  lemma KeyGrowsWithEachStart(m: Manager, readText: bool, req: Request)
    ensures var r := Receive(m, readText, req).0;
            r.currentKey == (if Receive(m, readText, req).1 == Started then m.currentKey + 1 else m.currentKey)
    ensures RunDeferred(m).currentKey == (if m.deferred != [] then m.currentKey + 1 else m.currentKey)
    ensures HandleClose(m).0.currentKey == (if HandleClose(m).0.current.Some? then m.currentKey + 1 else m.currentKey)
  {
  }

  /** With queueing enabled, requests that arrive while one is being read are read afterwards in
      the order they arrived: after they are enqueued, successive closes start them one by one. */
  lemma {:induction false} QueuedRequestsPlayInOrder(m: Manager, reqs: seq<Request>, k: nat)
    requires m.current.Some? && m.queueEnabled && m.queue == []
    requires k < |reqs| && forall i :: 0 <= i < |reqs| ==> reqs[i].text != ""
    ensures var queued := EnqueueAll(m, reqs);
            && queued.current == m.current && queued.queue == reqs
            && CloseTimes(queued, k + 1).current == Some(reqs[k])
            && CloseTimes(queued, k + 1).queue == reqs[k + 1..]
  {
    EnqueueAllQueues(m, reqs);
    assert m.queue + reqs == reqs;
    CloseTimesAdvances(m.(queue := reqs), k + 1);
  }

  /** Receiving each of `reqs` in turn. */
  function EnqueueAll(m: Manager, reqs: seq<Request>): Manager
    decreases |reqs|
  {
    if reqs == [] then m else EnqueueAll(Receive(m, true, reqs[0]).0, reqs[1..])
  }

  /** Closing the overlay `n` times. */
  function CloseTimes(m: Manager, n: nat): Manager
    decreases n
  {
    if n == 0 then m else CloseTimes(HandleClose(m).0, n - 1)
  }

  lemma {:induction false} EnqueueAllQueues(m: Manager, reqs: seq<Request>)
    requires m.current.Some? && m.queueEnabled
    requires forall i :: 0 <= i < |reqs| ==> reqs[i].text != ""
    ensures EnqueueAll(m, reqs) == m.(queue := m.queue + reqs)
    decreases |reqs|
  {
    if reqs != [] {
      var m' := Receive(m, true, reqs[0]).0;
      assert m' == m.(queue := m.queue + [reqs[0]]);
      EnqueueAllQueues(m', reqs[1..]);
      assert m.queue + [reqs[0]] + reqs[1..] == m.queue + reqs;
    }
  }

  lemma {:induction false} CloseTimesAdvances(m: Manager, n: nat)
    requires 0 < n <= |m.queue|
    ensures CloseTimes(m, n).current == Some(m.queue[n - 1]) && CloseTimes(m, n).queue == m.queue[n..]
    decreases n
  {
    var m' := HandleClose(m).0;
    if n > 1 {
      CloseTimesAdvances(m', n - 1);
      assert m'.queue[n - 2] == m.queue[n - 1];
      assert m'.queue[n - 1..] == m.queue[n..];
    }
  }

  /** When the current request finishes processing with two or more requests queued, the preload
      targets the request after the next one, not the one the next close will start. */
  lemma PreloadSkipsTheNextRequest(m: Manager, cache: Cache)
    requires |m.queue| > 1 && m.queue[0] != m.queue[1]
    ensures var (_, action) := PreloadNext(m, cache);
            action.StartPreload? ==> action.req != HandleClose(m).0.current.value
  {
  }

  /** Two interrupting requests within one tick: the first clears `current`, so the second starts at
      once, and the first's deferred start then replaces it. The earlier request ends up current. */
  lemma InterruptRaceKeepsEarlier(a: Request, b: Request, playing: Request)
    requires a.text != "" && b.text != "" && a != b
    ensures var m := Manager(Some(playing), [], false, 1, {}, []);
            var m1 := Receive(m, true, a).0;
            var m2 := Receive(m1, true, b).0;
            && m2.current == Some(b)
            && RunDeferred(m2).current == Some(a)
  {
  }

  /** The listener as evidently intended: an interrupting request replaces any start still pending,
      and a request that starts at once cancels the pending one, so the latest request is the one read. */
  function ReceiveLatest(m: Manager, readText: bool, req: Request): (r: (Manager, Admission, bool))
    ensures r.1 == Receive(m, readText, req).1 && r.2 == Receive(m, readText, req).2
    ensures r.1 == Started ==> r.0.deferred == []
    ensures r.1 == Interrupted ==> r.0.deferred == [req]
    ensures r.1 == Enqueued || r.1 == Ignored ==> r.0.deferred == m.deferred
  {
    var (m', admission, stopped) := Receive(m, readText, req);
    if admission == Started then (m'.(deferred := []), admission, stopped)
    else if admission == Interrupted then (m'.(deferred := [req]), admission, stopped)
    else (m', admission, stopped)
  }

  /** With queueing off and the corrected listener, whatever was pending before, the request read
      after the next tick is the one received last, however many arrive within one tick. */
  lemma LatestRequestWins(m: Manager, req: Request)
    requires req.text != "" && !m.queueEnabled
    ensures RunDeferred(ReceiveLatest(m, true, req).0).current == Some(req)
    ensures var m1 := ReceiveLatest(m, true, req).0;
            forall b: Request :: b.text != "" ==> RunDeferred(ReceiveLatest(m1, true, b).0).current == Some(b)
  {
  }
}

=== FILE: text_split.dfy ===
/** Word handling and the hybrid split of `utilsText.ts`: `getWords` (`trim` then `split(/\s+/)`),
    `join(' ')`, and `splitTextForHybrid`, which cuts a text into a short first segment that can be
    spoken at once and the remainder, preferring to cut after a sentence end or a comma. */
module TextSplit {
  import opened Basics

  predicate SpaceFree(s: string)
  {
    forall i :: 0 <= i < |s| ==> !IsSpace(s[i])
  }

  /** Words as `getWords` yields them for a text that is not blank: non-empty, without whitespace. */
  predicate WordList(ws: seq<string>)
  {
    forall k :: 0 <= k < |ws| ==> |ws[k]| > 0 && SpaceFree(ws[k])
  }

  /** Empty, or neither starting nor ending with whitespace. */
  predicate Trimmed(s: string)
  {
    |s| == 0 || (!IsSpace(s[0]) && !IsSpace(s[|s| - 1]))
  }

  function TrimEnd(s: string): (r: string)
    ensures r <= s
    ensures |r| == 0 || !IsSpace(r[|r| - 1])
    ensures AllSpace(s[|r|..])
    decreases |s|
  {
    if |s| > 0 && IsSpace(s[|s| - 1]) then
      var r := TrimEnd(s[..|s| - 1]);
      assert s[|r|..] == s[..|s| - 1][|r|..] + [s[|s| - 1]];
      r
    else s
  }

  /** `s.trim()`: the text between the leading and the trailing whitespace. */
  function Trim(s: string): (r: string)
    ensures Trimmed(r)
    ensures SpaceRun(s) + |r| <= |s| && r == s[SpaceRun(s)..SpaceRun(s) + |r|]
    ensures AllSpace(s[..SpaceRun(s)]) && AllSpace(s[SpaceRun(s) + |r|..])
  {
    var sp := SpaceRun(s);
    var r := TrimEnd(s[sp..]);
    PrefixOfSuffix(s, sp, r);
    SpaceAfterPrefix(s, sp, r);
    SpaceBefore(s, sp);
    TrimmedStart(s, sp, r);
    r
  }

  lemma SpaceBefore(s: string, sp: nat)
    requires sp == SpaceRun(s)
    ensures AllSpace(s[..sp])
  {
  }

  lemma SpaceAfterPrefix(s: string, sp: nat, r: string)
    requires sp <= |s| && |r| <= |s| - sp && AllSpace(s[sp..][|r|..])
    ensures AllSpace(s[sp + |r|..])
  {
    assert s[sp + |r|..] == s[sp..][|r|..];
  }

  lemma PrefixOfSuffix<T>(s: seq<T>, sp: nat, r: seq<T>)
    requires sp <= |s| && r <= s[sp..]
    ensures sp + |r| <= |s| && r == s[sp..sp + |r|]
  {
    assert s[sp..][..|r|] == s[sp..sp + |r|];
  }

  lemma TrimmedStart(s: string, sp: nat, r: string)
    requires sp == SpaceRun(s) && r <= s[sp..] && (|r| == 0 || !IsSpace(r[|r| - 1]))
    ensures Trimmed(r)
  {
    if |r| > 0 {
      assert r[0] == s[sp];
    }
  }

  /** Trimming trimmed text changes nothing. */
  lemma TrimTrimmed(s: string)
    requires Trimmed(s)
    ensures Trim(s) == s
  {
    if |s| > 0 {
      assert SpaceRun(s) == 0;
      assert !IsSpace(s[|s| - 1]);
      assert AllSpace(s[|Trim(s)|..]);
    }
  }

  /** `s.split(/\s+/)`: the pieces between maximal whitespace runs. Like JavaScript, it yields `[""]`
      for the empty string and an empty piece before leading or after trailing whitespace. */
  function SplitWs(s: string): (r: seq<string>)
    ensures |r| >= 1
    ensures Join(r) == Collapse(s)
    ensures forall k :: 0 <= k < |r| ==> SpaceFree(r[k])
    decreases |s|
  {
    WordRunIsWord(s, WordRun(s));
    if WordRun(s) == |s| then
      CollapseWord(s, "");
      assert s + "" == s;
      assert s[..|s|] == s;
      [s]
    else
      var rest := SplitWs(s[Gap(s)..]);
      CollapseSplit(s);
      var r := [s[..WordRun(s)]] + rest;
      assert r[1..] == rest;
      assert forall k :: 1 <= k < |r| ==> r[k] == rest[k - 1];
      r
  }

  /** Where the piece after the first whitespace run starts. */
  function Gap(s: string): (j: nat)
    requires WordRun(s) < |s|
    ensures WordRun(s) < j <= |s|
    ensures j == WordRun(s) + SpaceRun(s[WordRun(s)..])
  {
    var i := WordRun(s);
    assert s[i..][0] == s[i];
    i + SpaceRun(s[i..])
  }

  /** The text with each maximal run of whitespace replaced by one space, read character by
      character: a whitespace character followed by another is dropped, and one that ends a run
      becomes `' '`. */
  function Collapse(s: string): (r: string)
    decreases |s|
  {
    if |s| == 0 then ""
    else if IsSpace(s[0]) && |s| > 1 && IsSpace(s[1]) then Collapse(s[1..])
    else [if IsSpace(s[0]) then ' ' else s[0]] + Collapse(s[1..])
  }

  /** A word passes through unchanged. */
  lemma {:induction false} CollapseWord(w: string, t: string)
    requires SpaceFree(w)
    ensures Collapse(w + t) == w + Collapse(t)
    decreases |w|
  {
    if |w| == 0 {
      assert w + t == t;
    } else {
      assert (w + t)[1..] == w[1..] + t;
      CollapseWord(w[1..], t);
      assert w == [w[0]] + w[1..];
    }
  }

  /** A whitespace run before a word, or at the end, becomes one space. */
  lemma {:induction false} CollapseGap(g: string, t: string)
    requires |g| > 0 && AllSpace(g)
    requires |t| == 0 || !IsSpace(t[0])
    ensures Collapse(g + t) == " " + Collapse(t)
    decreases |g|
  {
    assert (g + t)[1..] == g[1..] + t;
    if |g| > 1 {
      CollapseGap(g[1..], t);
    } else {
      assert g[1..] + t == t;
    }
  }

  /** The first piece, then one space for the whitespace run after it, then the rest. */
  lemma CollapseSplit(s: string)
    requires WordRun(s) < |s|
    ensures Collapse(s) == s[..WordRun(s)] + " " + Collapse(s[Gap(s)..])
  {
    var i := WordRun(s);
    WordRunIsWord(s, i);
    GapIsSpaceRun(s, i, Gap(s));
    CollapseAt(s, i, Gap(s));
  }

  /** The same, for a cut of `s` into a word, a whitespace run and a rest that starts a word. */
  lemma CollapseAt(s: string, i: nat, j: nat)
    requires i < j <= |s|
    requires SpaceFree(s[..i]) && AllSpace(s[i..j]) && (j == |s| || !IsSpace(s[j]))
    ensures Collapse(s) == s[..i] + " " + Collapse(s[j..])
  {
    SplitThree(s, i, j);
    RestStartsWord(s, j);
    CollapseWord(s[..i], s[i..j] + s[j..]);
    CollapseGap(s[i..j], s[j..]);
    ConcatAssoc(s[..i], " ", Collapse(s[j..]));
  }

  lemma SplitThree<T>(s: seq<T>, i: nat, j: nat)
    requires i <= j <= |s|
    ensures s == s[..i] + (s[i..j] + s[j..])
  {
  }

  lemma RestStartsWord(s: string, j: nat)
    requires j <= |s| && (j == |s| || !IsSpace(s[j]))
    ensures |s[j..]| == 0 || !IsSpace(s[j..][0])
  {
  }

  lemma WordRunIsWord(s: string, i: nat)
    requires i == WordRun(s)
    ensures SpaceFree(s[..i])
  {
  }

  lemma GapIsSpaceRun(s: string, i: nat, j: nat)
    requires i <= |s| && j == i + SpaceRun(s[i..])
    ensures AllSpace(s[i..j]) && (j == |s| || !IsSpace(s[j]))
  {
    var t := s[i..];
    assert forall k :: 0 <= k < j - i ==> s[i..j][k] == t[k];
    if j < |s| {
      assert s[j] == t[j - i];
    }
  }

  /** `getWords(text)`: always at least one entry; `[""]` for blank text, proper words otherwise. */
  function GetWords(text: string): (ws: seq<string>)
    ensures |ws| >= 1
    ensures Trim(text) == "" ==> ws == [""]
    ensures Trim(text) != "" ==> WordList(ws)
    ensures Join(ws) == Collapse(Trim(text))
  {
    var t := Trim(text);
    assert |t| > 0 ==> WordList(SplitWs(t)) by {
      if |t| > 0 {
        SplitTrimmedIsWords(t);
      }
    }
    SplitWs(t)
  }

  lemma {:induction false} SplitTrimmedIsWords(s: string)
    requires |s| > 0 && Trimmed(s)
    ensures WordList(SplitWs(s))
    decreases |s|
  {
    var i := WordRun(s);
    if i < |s| {
      var j := SplitStep(s);
      var w := s[..i];
      SplitTrimmedIsWords(s[j..]);
      WordListCons(w, SplitWs(s[j..]));
    } else {
      assert SplitWs(s) == [s];
      WordListCons(s, []);
    }
  }

  /** One step of the split of trimmed text: the first word is followed by whitespace that ends
      before the text does, and what is left is again trimmed and not blank. */
  lemma SplitStep(s: string) returns (j: nat)
    requires |s| > 0 && Trimmed(s) && WordRun(s) < |s|
    ensures j == Gap(s) && j < |s|
    ensures |s[j..]| > 0 && Trimmed(s[j..])
    ensures WordRun(s) > 0 && SpaceFree(s[..WordRun(s)])
  {
    var i := WordRun(s);
    var t := s[i..];
    var n := SpaceRun(t);
    GapEndsBeforeEnd(t, s[|s| - 1]);
    j := i + n;
    assert s[j..] == t[n..];
    LastOfSuffix(s, j);
  }

  /** A whitespace run cannot reach the end of a text whose last character is not whitespace. */
  lemma GapEndsBeforeEnd(t: string, last: char)
    requires |t| > 0 && t[|t| - 1] == last && !IsSpace(last)
    ensures SpaceRun(t) < |t|
  {
  }

  lemma LastOfSuffix(s: string, j: nat)
    requires j < |s|
    ensures s[j..][|s[j..]| - 1] == s[|s| - 1]
  {
  }

  lemma WordListCons(w: string, ws: seq<string>)
    requires |w| > 0 && SpaceFree(w) && WordList(ws)
    ensures WordList([w] + ws)
  {
    assert forall k :: 1 <= k < |ws| + 1 ==> ([w] + ws)[k] == ws[k - 1];
  }

  /** `ws.join(' ')` */
  function Join(ws: seq<string>): string
    decreases |ws|
  {
    if |ws| == 0 then "" else if |ws| == 1 then ws[0] else ws[0] + " " + Join(ws[1..])
  }

  lemma {:induction false} JoinShape(ws: seq<string>)
    requires WordList(ws)
    ensures |ws| == 0 <==> Join(ws) == ""
    ensures Trimmed(Join(ws))
    ensures |ws| > 0 ==> Join(ws)[..|ws[0]|] == ws[0]
    decreases |ws|
  {
    if |ws| > 1 {
      JoinShape(ws[1..]);
      var j := Join(ws[1..]);
      assert Join(ws)[|Join(ws)| - 1] == j[|j| - 1];
    } else if |ws| == 1 {
      assert ws[0][0] == ws[0][0];
    }
  }

  /** Splitting joined words gives the words back. */
  lemma {:induction false} JoinThenSplit(ws: seq<string>)
    requires WordList(ws) && |ws| > 0
    ensures SplitWs(Join(ws)) == ws
    decreases |ws|
  {
    var w := ws[0];
    if |ws| == 1 {
      WordRunOfWord(w, "");
      assert w + "" == w;
    } else {
      var rest := Join(ws[1..]);
      JoinShape(ws[1..]);
      JoinThenSplit(ws[1..]);
      SplitAfterWord(w, rest);
      assert Join(ws) == w + " " + rest;
    }
  }

  /** Splitting `w + " " + rest` yields `w` and then the pieces of `rest`. */
  lemma SplitAfterWord(w: string, rest: string)
    requires SpaceFree(w)
    requires |rest| > 0 && !IsSpace(rest[0])
    ensures SplitWs(w + " " + rest) == [w] + SplitWs(rest)
  {
    var s := w + " " + rest;
    WordRunOfWord(w, " " + rest);
    assert s == w + (" " + rest);
    assert s[|w|..] == " " + rest;
    assert SpaceRun(" " + rest) == 1 by {
      assert (" " + rest)[1..] == rest;
    }
    assert s[|w| + 1..] == rest;
    assert s[..|w|] == w;
  }

  /** The word run at the front of `w + tail` is exactly `w` when `w` has no whitespace and the tail
      is empty or starts with whitespace. */
  lemma {:induction false} WordRunOfWord(w: string, tail: string)
    requires SpaceFree(w)
    requires |tail| == 0 || IsSpace(tail[0])
    ensures WordRun(w + tail) == |w|
    decreases |w|
  {
    if |w| > 0 {
      assert (w + tail)[1..] == w[1..] + tail;
      WordRunOfWord(w[1..], tail);
    } else {
      assert w + tail == tail;
    }
  }

  /** `getWords` undoes `join(' ')` on proper words. */
  lemma WordsRoundTrip(ws: seq<string>)
    requires WordList(ws) && |ws| > 0
    ensures GetWords(Join(ws)) == ws
  {
    JoinShape(ws);
    TrimTrimmed(Join(ws));
    JoinThenSplit(ws);
  }

  /** `getWords` is determined on every text: the only proper words that join to the text with its
      whitespace runs collapsed are the ones it returns. */
  lemma GetWordsDetermined(text: string, ws: seq<string>)
    requires Trim(text) != "" && WordList(ws)
    ensures Join(ws) == Collapse(Trim(text)) <==> ws == GetWords(text)
  {
    JoinInjective(ws, GetWords(text));
  }

  /** Different lists of proper words join to different strings, so comparing joined strings
      compares the word lists. */
  lemma JoinInjective(a: seq<string>, b: seq<string>)
    requires WordList(a) && WordList(b)
    ensures Join(a) == Join(b) <==> a == b
  {
    JoinShape(a);
    JoinShape(b);
    if |a| > 0 && |b| > 0 {
      JoinThenSplit(a);
      JoinThenSplit(b);
    }
  }

  // The split-point rules.

  predicate IsUpper(c: char)
  {
    'A' <= c <= 'Z'
  }

  predicate IsLower(c: char)
  {
    'a' <= c <= 'z'
  }

  predicate EndsWith(w: string, c: char)
  {
    |w| > 0 && w[|w| - 1] == c
  }

  predicate StartsUpper(w: string)
  {
    |w| > 0 && IsUpper(w[0])
  }

  /** `/^([A-Z]\.)+[A-Z]?\.?$/`: one or more capital-dot pairs, then optionally a capital, then
      optionally a dot (U.S.A., U.K.). */
  predicate CapDots(w: string)
    decreases |w|
  {
    && |w| >= 2 && IsUpper(w[0]) && w[1] == '.'
    && var t := w[2..];
       |t| == 0 || (|t| == 1 && (IsUpper(t[0]) || t[0] == '.')) || CapDots(t)
  }

  /** `/^[a-z]\.[a-z]\.?$/` (e.g., i.e.) */
  predicate LowerDots(w: string)
  {
    && (|w| == 3 || (|w| == 4 && w[3] == '.'))
    && IsLower(w[0]) && w[1] == '.' && IsLower(w[2])
  }

  const Titles: seq<string> := ["Mr.", "Mrs.", "Ms.", "Dr.", "Prof.", "Rev.", "Hon.", "St.", "Gen.", "Sen.", "Rep."]

  /** `/^[A-Z]\.$/` */
  predicate SingleInitial(w: string)
  {
    |w| == 2 && IsUpper(w[0]) && w[1] == '.'
  }

  /** Whether the word at `i`, which ends with a dot, is an abbreviation rather than a sentence end.
      The single-initial rule looks at the neighbouring words, but it is only reached when the
      capital-dot rule has already failed, which never happens for a single initial. */
  predicate Protected(words: seq<string>, i: nat)
    requires i < |words|
  {
    var w := words[i];
    if CapDots(w) then true
    else if LowerDots(w) then true
    else if w in Titles then true
    else if SingleInitial(w) then InitialOfName(words, i)
    else false
  }

  /** The single-initial rule's neighbour test: the next word starts with a capital (A. Lincoln), or
      the previous word ends with a dot and starts with a capital (Ph. D.). */
  predicate InitialOfName(words: seq<string>, i: nat)
  {
    (i + 1 < |words| && StartsUpper(words[i + 1])) || (0 < i <= |words| && EndsWith(words[i - 1], '.') && StartsUpper(words[i - 1]))
  }

  /** The single-initial branch is dead: every single initial already matches the capital-dot rule. */
  lemma SingleInitialIsCapDots(w: string)
    ensures SingleInitial(w) ==> CapDots(w)
  {
  }

  /** So protection depends on the word alone. */
  lemma ProtectedByWordAlone(words: seq<string>, i: nat)
    requires i < |words|
    ensures Protected(words, i) <==> CapDots(words[i]) || LowerDots(words[i]) || words[i] in Titles
  {
    SingleInitialIsCapDots(words[i]);
  }

  lemma AbbreviationExamples()
    ensures CapDots("U.S.A.") && CapDots("U.K.") && CapDots("A.")
    ensures LowerDots("e.g.") && LowerDots("i.e.")
    ensures !CapDots("Ph.D.") && !LowerDots("Ph.D.") && "Ph.D." !in Titles
    ensures !CapDots("end.") && !LowerDots("end.") && "end." !in Titles
  {
    assert CapDots("A.");
    assert CapDots("K.");
    assert CapDots("S.A.");
  }

  /** Whether the first segment may end after the word at `i`: a sentence end that is not an
      abbreviation, or a comma. */
  predicate Preferred(words: seq<string>, i: nat)
    requires i < |words|
  {
    (EndsWith(words[i], '.') && !Protected(words, i)) || EndsWith(words[i], ',')
  }

  /** The backward search `for (i = target - 1; i >= lo; i--)`: the split point is one past the
      first preferred word met, or `target` if there is none. The source's bounds check inside the
      loop never fires, because `i` stays within `lo..target - 1` and the text has more than
      `target` words. */
  function FindSplit(words: seq<string>, i: int, lo: nat, target: nat): (sp: nat)
    requires -1 <= i < |words|
    ensures || (sp == target && forall k :: lo <= k <= i ==> !Preferred(words, k))
            || (lo <= sp - 1 <= i && Preferred(words, sp - 1) && forall k :: sp <= k <= i ==> !Preferred(words, k))
    decreases i + 1
  {
    if i < lo then target
    else if Preferred(words, i) then i + 1
    else FindSplit(words, i - 1, lo, target)
  }

  function Max(a: int, b: int): int
  {
    if a >= b then a else b
  }

  /** Where the first segment ends: after the last preferred word among the `searchWindow` words
      before the target, or at the target. */
  function SplitPoint(words: seq<string>, target: nat, searchWindow: int): (sp: nat)
    requires |words| > target
    ensures sp <= target
    ensures target > 0 ==> sp > 0
    ensures sp < target ==> Preferred(words, sp - 1) && sp - 1 >= target - searchWindow
    ensures forall k :: sp <= k < target && k >= target - searchWindow ==> !Preferred(words, k)
    ensures sp == target ==>
              || (target > 0 && target - 1 >= target - searchWindow && Preferred(words, target - 1))
              || forall k :: 0 <= k < target && k >= target - searchWindow ==> !Preferred(words, k)
  {
    FindSplit(words, target - 1, Max(0, target - searchWindow), target)
  }

  /** The cut of the word list: the first segment's words, the second segment's words, and whether
      the second segment's leading `overlap` words were dropped for repeating the first segment's last. */
  datatype Cut = Cut(first: seq<string>, second: seq<string>, deduplicated: bool)

  function CutWords(words: seq<string>, target: nat, overlap: nat, searchWindow: int): (c: Cut)
    requires |words| > target
    ensures |c.first| <= target && (target > 0 ==> |c.first| > 0)
    ensures c.first == words[..|c.first|]
    ensures c.deduplicated ==> |c.first| + overlap <= |words| && c.second == words[|c.first| + overlap..]
    ensures !c.deduplicated ==> c.second == words[|c.first|..]
  {
    CutAt(words, SplitPoint(words, target, searchWindow), overlap)
  }

  /** The cut at a given split point, with the overlap test of the source. */
  function CutAt(words: seq<string>, sp: nat, overlap: nat): (c: Cut)
    requires sp <= |words|
  {
    var first := words[..sp];
    var second := words[sp..];
    if overlap > 0 && |second| >= overlap && |first| >= overlap
       && Join(second[..overlap]) == Join(first[|first| - overlap..])
    then Cut(first, second[overlap..], true)
    else Cut(first, second, false)
  }

  datatype Segments = Segments(first: string, second: string)

  /** `splitTextForHybrid(fullText, targetWordsInFirstSegment, overlapWords, searchWindow)` */
  function SplitTextForHybrid(fullText: string, target: nat, overlap: nat, searchWindow: int): (r: Segments)
  {
    var words := GetWords(fullText);
    if |words| <= target then Segments(fullText, "")
    else
      var c := CutWords(words, target, overlap, searchWindow);
      Segments(Join(c.first), Join(c.second))
  }

  /** A text of at most `target` words is spoken as one segment, unchanged. */
  lemma ShortTextIsOneSegment(fullText: string, target: nat, overlap: nat, searchWindow: int)
    requires |GetWords(fullText)| <= target
    ensures SplitTextForHybrid(fullText, target, overlap, searchWindow) == Segments(fullText, "")
  {
  }

  /** No word is lost or reordered: the first segment is a prefix of the words of at most `target`
      words, and the second is the rest, less a leading block that repeats the first segment's last
      `overlap` words. */
  lemma CutKeepsWords(words: seq<string>, target: nat, overlap: nat, searchWindow: int)
    requires WordList(words) && |words| > target
    ensures var c := CutWords(words, target, overlap, searchWindow);
            && |c.first| <= target
            && (!c.deduplicated ==> words == c.first + c.second)
            && (c.deduplicated ==> 0 < overlap <= |c.first| && words == c.first + c.first[|c.first| - overlap..] + c.second)
  {
    CutAtKeepsWords(words, SplitPoint(words, target, searchWindow), overlap);
  }

  lemma {:induction false} CutAtKeepsWords(words: seq<string>, sp: nat, overlap: nat)
    requires WordList(words) && sp <= |words|
    ensures var c := CutAt(words, sp, overlap);
            && |c.first| == sp
            && (!c.deduplicated ==> words == c.first + c.second)
            && (c.deduplicated ==> 0 < overlap <= sp && words == c.first + c.first[sp - overlap..] + c.second)
  {
    if 0 < overlap && overlap <= sp && sp + overlap <= |words| {
      RepeatTest(words, sp, overlap);
      assert words[..sp + overlap] == words[..sp] + words[sp..sp + overlap];
      assert words == words[..sp + overlap] + words[sp + overlap..];
      assert words[..sp][sp - overlap..] == words[sp - overlap..sp];
      assert words[sp..][overlap..] == words[sp + overlap..];
    } else {
      assert words == words[..sp] + words[sp..];
    }
  }

  /** The leading block is dropped exactly when it repeats, word for word, the `overlap` words
      before the split point. */
  lemma CutDropsOnlyRepeats(words: seq<string>, target: nat, overlap: nat, searchWindow: int)
    requires WordList(words) && |words| > target
    ensures var c := CutWords(words, target, overlap, searchWindow);
            c.deduplicated <==> RepeatsBefore(words, |c.first|, overlap)
  {
    var sp := SplitPoint(words, target, searchWindow);
    CutAtDropsOnlyRepeats(words, sp, overlap);
    assert CutWords(words, target, overlap, searchWindow) == CutAt(words, sp, overlap);
  }

  /** The `overlap` words after `sp` repeat, word for word, the `overlap` words before it. */
  predicate RepeatsBefore(words: seq<string>, sp: nat, overlap: nat)
  {
    0 < overlap <= sp && sp + overlap <= |words| && words[sp..sp + overlap] == words[sp - overlap..sp]
  }

  lemma CutAtDropsOnlyRepeats(words: seq<string>, sp: nat, overlap: nat)
    requires WordList(words) && sp <= |words|
    ensures var c := CutAt(words, sp, overlap);
            && |c.first| == sp
            && (c.deduplicated <==> RepeatsBefore(words, sp, overlap))
  {
    if 0 < overlap && overlap <= sp && sp + overlap <= |words| {
      RepeatTest(words, sp, overlap);
    }
  }

  /** Comparing the joined blocks, as the source does, is comparing the blocks word by word. */
  lemma RepeatTest(words: seq<string>, sp: nat, overlap: nat)
    requires WordList(words)
    requires 0 < overlap <= sp && sp + overlap <= |words|
    ensures Join(words[sp..][..overlap]) == Join(words[..sp][sp - overlap..])
            <==> words[sp..sp + overlap] == words[sp - overlap..sp]
  {
    assert words[sp..][..overlap] == words[sp..sp + overlap];
    assert words[..sp][sp - overlap..] == words[sp - overlap..sp];
    WordListSlice(words, sp, sp + overlap);
    WordListSlice(words, sp - overlap, sp);
    JoinInjective(words[sp..sp + overlap], words[sp - overlap..sp]);
  }

  lemma WordListSlice(words: seq<string>, a: nat, b: nat)
    requires WordList(words) && a <= b <= |words|
    ensures WordList(words[a..b])
  {
    assert forall k :: 0 <= k < b - a ==> words[a..b][k] == words[a + k];
  }

  /** The two segments read back as exactly the cut's word lists, so what is spoken is the text's
      words with at most the one repeated block left out. */
  lemma SegmentsReadBack(fullText: string, target: nat, overlap: nat, searchWindow: int)
    requires Trim(fullText) != "" && target > 0
    requires |GetWords(fullText)| > target
    ensures var words := GetWords(fullText);
            var c := CutWords(words, target, overlap, searchWindow);
            var r := SplitTextForHybrid(fullText, target, overlap, searchWindow);
            && |c.first| > 0
            && GetWords(r.first) == c.first
            && (|c.second| > 0 ==> GetWords(r.second) == c.second)
            && (|c.second| == 0 <==> r.second == "")
  {
    var words := GetWords(fullText);
    var sp := SplitPoint(words, target, searchWindow);
    var c := CutAt(words, sp, overlap);
    assert CutWords(words, target, overlap, searchWindow) == c;
    assert SplitTextForHybrid(fullText, target, overlap, searchWindow) == Segments(Join(c.first), Join(c.second));
    CutAtReadBack(words, sp, overlap);
  }

  /** Both word lists of a cut are proper words, so joining them and reading them back is lossless. */
  lemma CutAtReadBack(words: seq<string>, sp: nat, overlap: nat)
    requires WordList(words) && 0 < sp <= |words|
    ensures var c := CutAt(words, sp, overlap);
            && |c.first| > 0
            && GetWords(Join(c.first)) == c.first
            && (|c.second| > 0 ==> GetWords(Join(c.second)) == c.second)
            && (|c.second| == 0 <==> Join(c.second) == "")
  {
    var c := CutAt(words, sp, overlap);
    WordListSlice(words, 0, sp);
    assert words[0..sp] == c.first;
    WordListSlice(words, |words| - |c.second|, |words|);
    assert words[|words| - |c.second|..|words|] == c.second;
    WordsRoundTrip(c.first);
    JoinShape(c.second);
    if |c.second| > 0 {
      WordsRoundTrip(c.second);
    }
  }
}

=== FILE: timeline.dfy ===
/** The playback timeline shared by every synthesis path: a cursor `nextTime` at which the next
    chunk starts, the list of buffer sources started and not yet ended, and the identity the next
    created source receives. The audio clock is an explicit parameter; a source is an opaque id. */
module Timeline {
  import opened Basics

  type SourceId = nat

  datatype Playback = Playback(nextTime: Option<real>, active: seq<SourceId>, nextId: SourceId)

  /** One `source.start(at)`: the source, its start time and the seconds of timeline it occupies. */
  datatype Scheduled = Scheduled(source: SourceId, start: real, length: real)

  /** Every active source was created earlier, and none is listed twice. */
  ghost predicate Valid(p: Playback)
  {
    && (forall x :: x in p.active ==> x < p.nextId)
    && (forall i, j :: 0 <= i < j < |p.active| ==> p.active[i] != p.active[j])
  }

  /** The module-level initial values: no cursor, nothing playing. */
  function Initial(): (p: Playback)
    ensures Valid(p) && Drained(p)
  {
    Playback(None, [], 0)
  }

  /** `activeSources.length === 0`: the only completion signal `waitForPlaybackCompletion` polls. */
  predicate Drained(p: Playback)
  {
    |p.active| == 0
  }

  /** `if (nextTime === null) nextTime = audioContext.currentTime` */
  function InitCursor(p: Playback, clock: NonNeg): (r: Playback)
    ensures r.nextTime.Some?
    ensures p.nextTime.Some? ==> r == p
    ensures p.nextTime.None? ==> r.nextTime.value == clock && r.active == p.active && r.nextId == p.nextId
  {
    if p.nextTime.None? then p.(nextTime := Some(clock)) else p
  }

  /** Where the next chunk starts: `if (nextTime! < currentTime) nextTime = currentTime`.
      JavaScript compares a null cursor as 0, so a chunk arriving after a reset starts at the clock. */
  function StartTime(cursor: Option<real>, clock: NonNeg): (t: real)
    ensures t >= clock
    ensures t == clock || (cursor.Some? && t == cursor.value)
    ensures cursor.Some? && cursor.value >= clock ==> t == cursor.value
  {
    var c := if cursor.Some? then cursor.value else 0.0;
    if c < clock then clock else c
  }

  /** Creates a source, starts it at `at`, pushes it onto `activeSources` and moves the cursor to
      its end (`nextTime! += length`; a null cursor would count as 0, but `at` is the cursor here). */
  function StartAt(p: Playback, at: real, length: NonNeg): (Playback, Scheduled)
  {
    (Playback(Some(at + length), p.active + [p.nextId], p.nextId + 1), Scheduled(p.nextId, at, length))
  }

  /** The scheduling step of every streaming path: snap the cursor up to the clock, start the chunk
      there, register the source, advance the cursor by exactly the chunk's duration. */
  function ScheduleChunk(p: Playback, clock: NonNeg, duration: NonNeg): (r: (Playback, Scheduled))
    ensures r.1.start >= clock
    ensures p.nextTime.Some? && p.nextTime.value >= clock ==> r.1.start == p.nextTime.value
    ensures r.1.length == duration
    ensures r.0.nextTime == Some(r.1.start + duration)
    ensures r.0.active == p.active + [r.1.source]
    ensures Valid(p) ==> Valid(r.0) && r.1.source !in p.active
  {
    StartAt(p, StartTime(p.nextTime, clock), duration)
  }

  /** `source.onended = () => { activeSources = activeSources.filter(s => s !== source) }` */
  function EndSource(p: Playback, s: SourceId): (r: Playback)
    ensures forall x :: x in r.active <==> x in p.active && x != s
    ensures r.nextTime == p.nextTime && r.nextId == p.nextId
    ensures Valid(p) ==> Valid(r)
  {
    var r := p.(active := Without(p.active, s));
    assert Valid(p) ==> Valid(r) by {
      if Valid(p) {
        WithoutKeepsDistinct(p.active, s);
      }
    }
    r
  }

  lemma {:induction false} WithoutKeepsDistinct(xs: seq<SourceId>, s: SourceId)
    requires forall i, j :: 0 <= i < j < |xs| ==> xs[i] != xs[j]
    ensures forall i, j :: 0 <= i < j < |Without(xs, s)| ==> Without(xs, s)[i] != Without(xs, s)[j]
  {
    if |xs| > 0 {
      WithoutKeepsDistinct(xs[1..], s);
      assert xs[0] !in xs[1..];
    }
  }

  /** Starting a chunk and later seeing it end leaves exactly the sources that were active before. */
  lemma ScheduleThenEnd(p: Playback, clock: NonNeg, duration: NonNeg)
    requires Valid(p)
    ensures EndSource(ScheduleChunk(p, clock, duration).0, ScheduleChunk(p, clock, duration).1.source).active
            == p.active
  {
    AppendThenWithout(p.active, p.nextId);
  }

  /** `reset()`: forget the cursor; the sources keep playing. */
  function Reset(p: Playback): (r: Playback)
    ensures r.nextTime.None?
    ensures r.active == p.active && r.nextId == p.nextId
  {
    p.(nextTime := None)
  }

  /** The source half of `stopSpeech`: stop every active source, empty the list, reset the cursor.
      Returns the sources on which `stop()` was called. */
  function StopAll(p: Playback): (r: (Playback, seq<SourceId>))
    ensures Drained(r.0) && r.0.nextTime.None?
    ensures r.1 == p.active
    ensures r.0.nextId == p.nextId
    ensures Valid(r.0)
  {
    (Playback(None, [], p.nextId), p.active)
  }

  /** Letting every source in `ends` finish, in that order. */
  function EndAll(p: Playback, ends: seq<SourceId>): (r: Playback)
    ensures forall x :: x in r.active <==> x in p.active && x !in ends
    decreases |ends|
  {
    if |ends| == 0 then p else EndAll(EndSource(p, ends[0]), ends[1..])
  }

  /** Playback is complete exactly when every scheduled source has ended, in whatever order. */
  lemma EndingAllDrains(p: Playback, ends: seq<SourceId>)
    requires forall x :: x in p.active ==> x in ends
    ensures Drained(EndAll(p, ends))
  {
    HeadIsMember(EndAll(p, ends).active);
  }

  /** Schedules the chunks with the given durations one after another, chunk `k` at clock reading
      `clocks[k]`. Consecutive chunks never overlap, whatever the clock does. */
  function ScheduleRun(p: Playback, clocks: seq<NonNeg>, durations: seq<NonNeg>): (r: (Playback, seq<Scheduled>))
    requires |clocks| == |durations|
    ensures |r.1| == |durations|
    ensures forall k :: 0 <= k < |r.1| ==> r.1[k].start >= clocks[k] && r.1[k].length == durations[k]
    ensures |r.1| > 0 ==> r.0.nextTime == Some(r.1[|r.1| - 1].start + r.1[|r.1| - 1].length)
    ensures |r.1| == 0 ==> r.0 == p
    ensures r.0.active == p.active + SourcesOf(r.1)
    ensures Valid(p) ==> Valid(r.0)
    decreases |durations|
  {
    if |durations| == 0 then (p, [])
    else
      var n := |durations| - 1;
      var (q, done) := ScheduleRun(p, clocks[..n], durations[..n]);
      var (q', s) := ScheduleChunk(q, clocks[n], durations[n]);
      assert SourcesOf(done + [s]) == SourcesOf(done) + [s.source];
      (q', done + [s])
  }

  /** Chunk `b`, scheduled at clock reading `clock`, starts no earlier than chunk `a` ends, and
      exactly there unless the clock has passed that point. */
  predicate Follows(a: Scheduled, b: Scheduled, clock: real)
  {
    && b.start >= a.start + a.length
    && (clock <= a.start + a.length ==> b.start == a.start + a.length)
  }

  /** Consecutive chunks never overlap, and they are back to back whenever the clock has not
      overtaken the end of the previous one. */
  lemma {:induction false} ScheduleRunNoOverlap(p: Playback, clocks: seq<NonNeg>, durations: seq<NonNeg>, k: nat)
    requires |clocks| == |durations|
    requires k + 1 < |durations|
    ensures var s := ScheduleRun(p, clocks, durations).1;
            Follows(s[k], s[k + 1], clocks[k + 1])
    decreases |durations|
  {
    var n := |durations| - 1;
    if k + 1 < n {
      var s := ScheduleRun(p, clocks, durations).1;
      var s' := ScheduleRun(p, clocks[..n], durations[..n]).1;
      ScheduleRunNoOverlap(p, clocks[..n], durations[..n], k);
      ScheduleRunPrefix(p, clocks, durations, n, k);
      ScheduleRunPrefix(p, clocks, durations, n, k + 1);
      assert clocks[..n][k + 1] == clocks[k + 1];
      assert s[k] == s'[k] && s[k + 1] == s'[k + 1];
    } else {
      NoOverlapLast(p, clocks, durations);
    }
  }

  /** The last chunk of a run starts where the one before it ends, or later if the clock has
      overtaken that point. */
  lemma NoOverlapLast(p: Playback, clocks: seq<NonNeg>, durations: seq<NonNeg>)
    requires |clocks| == |durations| >= 2
    ensures var s := ScheduleRun(p, clocks, durations).1;
            var n := |durations| - 1;
            Follows(s[n - 1], s[n], clocks[n])
  {
    var n := |durations| - 1;
    var prev := ScheduleRun(p, clocks[..n], durations[..n]);
    var last := ScheduleChunk(prev.0, clocks[n], durations[n]);
    ScheduleRunUnfold(p, clocks, durations);
    assert ScheduleRun(p, clocks, durations).1[n - 1] == prev.1[n - 1];
  }

  function SourcesOf(xs: seq<Scheduled>): (r: seq<SourceId>)
    ensures |r| == |xs|
    ensures forall k :: 0 <= k < |xs| ==> r[k] == xs[k].source
  {
    seq(|xs|, k requires 0 <= k < |xs| => xs[k].source)
  }

  /** With a set cursor and a clock that never overtakes it, chunk `k` starts at the initial cursor
      plus the durations of chunks `0..k-1`, and the cursor ends at the initial cursor plus all of them. */
  lemma {:induction false} ScheduleRunGapFree(p: Playback, clocks: seq<NonNeg>, durations: seq<NonNeg>, t0: real)
    requires |clocks| == |durations|
    requires p.nextTime == Some(t0)
    requires forall k {:trigger clocks[k]} :: 0 <= k < |clocks| ==> clocks[k] <= t0 + Sum(durations[..k])
    ensures forall k {:trigger ScheduleRun(p, clocks, durations).1[k]} :: 0 <= k < |durations| ==>
              ScheduleRun(p, clocks, durations).1[k].start == t0 + Sum(durations[..k])
    ensures ScheduleRun(p, clocks, durations).0.nextTime == Some(t0 + Sum(durations))
  {
    BehindFromAll(clocks, durations, t0, |durations|);
    forall k | 0 <= k < |durations|
      ensures ScheduleRun(p, clocks, durations).1[k].start == t0 + Sum(durations[..k])
    {
      BehindPrefix(clocks, durations, t0, |durations|, k + 1);
      GapFreeAt(p, clocks, durations, t0, k);
    }
    if |durations| > 0 {
      GapFreeEnd(p, clocks, durations, t0);
    }
  }

  /** The clock readings of the first `k` chunks lie at or before the cursor that a gap-free run
      would have reached for them. */
  predicate Behind(clocks: seq<NonNeg>, durations: seq<NonNeg>, t0: real, k: nat)
    decreases k
  {
    k == 0 || (k <= |clocks| && k <= |durations| && Behind(clocks, durations, t0, k - 1)
               && clocks[k - 1] <= t0 + Sum(durations[..k - 1]))
  }

  lemma {:induction false} BehindFromAll(clocks: seq<NonNeg>, durations: seq<NonNeg>, t0: real, k: nat)
    requires k <= |clocks| == |durations|
    requires forall j {:trigger clocks[j]} :: 0 <= j < |clocks| ==> clocks[j] <= t0 + Sum(durations[..j])
    ensures Behind(clocks, durations, t0, k)
    decreases k
  {
    if k > 0 {
      BehindFromAll(clocks, durations, t0, k - 1);
      assert clocks[k - 1] <= t0 + Sum(durations[..k - 1]);
    }
  }

  lemma {:induction false} BehindPrefix(clocks: seq<NonNeg>, durations: seq<NonNeg>, t0: real, k: nat, j: nat)
    requires Behind(clocks, durations, t0, k) && j <= k
    ensures Behind(clocks, durations, t0, j)
    decreases k
  {
    if j < k {
      BehindPrefix(clocks, durations, t0, k - 1, j);
    }
  }

  /** The cursor after a gap-free run: the initial cursor plus every duration. */
  lemma {:induction false} GapFreeEnd(p: Playback, clocks: seq<NonNeg>, durations: seq<NonNeg>, t0: real)
    requires |clocks| == |durations| > 0
    requires ScheduleRun(p, clocks, durations).1[|durations| - 1].start == t0 + Sum(durations[..|durations| - 1])
    ensures ScheduleRun(p, clocks, durations).0.nextTime == Some(t0 + Sum(durations))
  {
    var n := |durations| - 1;
    SumStep(durations, n);
    assert durations[..n + 1] == durations;
  }

  lemma {:induction false} GapFreeAt(p: Playback, clocks: seq<NonNeg>, durations: seq<NonNeg>, t0: real, k: nat)
    requires |clocks| == |durations|
    requires p.nextTime == Some(t0)
    requires k < |durations| && Behind(clocks, durations, t0, k + 1)
    ensures ScheduleRun(p, clocks, durations).1[k].start == t0 + Sum(durations[..k])
    decreases k
  {
    if k == 0 {
      ScheduleRunFirst(p, clocks, durations);
    } else {
      GapFreeAt(p, clocks, durations, t0, k - 1);
      ScheduleRunNoOverlap(p, clocks, durations, k - 1);
      SumStep(durations, k - 1);
    }
  }

  /** The first chunk of a run starts where a single scheduling step would put it. */
  lemma {:induction false} ScheduleRunFirst(p: Playback, clocks: seq<NonNeg>, durations: seq<NonNeg>)
    requires |clocks| == |durations| > 0
    ensures ScheduleRun(p, clocks, durations).1[0].start == StartTime(p.nextTime, clocks[0])
    decreases |durations|
  {
    var n := |durations| - 1;
    if n > 0 {
      ScheduleRunFirst(p, clocks[..n], durations[..n]);
      ScheduleRunPrefix(p, clocks, durations, n, 0);
    }
  }

  /** Scheduling more chunks never moves the ones already scheduled. */
  lemma ScheduleRunPrefix(p: Playback, clocks: seq<NonNeg>, durations: seq<NonNeg>, n: nat, k: nat)
    requires |clocks| == |durations| == n + 1
    requires k < n
    ensures ScheduleRun(p, clocks, durations).1[k] == ScheduleRun(p, clocks[..n], durations[..n]).1[k]
  {
    ScheduleRunUnfold(p, clocks, durations);
  }

  lemma ScheduleRunUnfold(p: Playback, clocks: seq<NonNeg>, durations: seq<NonNeg>)
    requires |clocks| == |durations| > 0
    ensures var n := |durations| - 1;
            var prev := ScheduleRun(p, clocks[..n], durations[..n]);
            var last := ScheduleChunk(prev.0, clocks[n], durations[n]);
            ScheduleRun(p, clocks, durations) == (last.0, prev.1 + [last.1])
  {
  }
}

=== FILE: tts_client.dfy ===
/** The module-level state of the extension's synthesis client (`ttsClient.ts`) and the operations
    that act on all of it: `reset`, `stopSpeech`, `waitForPlaybackCompletion`, and the server
    streaming path `processSegment`, whose WebSocket callbacks are modelled as separate events. */
module TtsClient {
  import opened Basics
  import opened Timeline
  import opened PreloadCache

  type SocketId = nat
  type ControllerId = nat

  /** `nextTime`, `secondSegmentStarted`, `activeSources` (inside `play`), `activeSockets`, the
      current voice and speed, the preload cache, and `activeStreamingController`. `closing` holds the
      sockets on which `close()` has been called; `aborted` the controllers on which `abort()` has been
      called. Sockets and controllers are opaque ids handed out from the two counters. */
  datatype Client = Client(
    play: Playback,
    secondSegmentStarted: bool,
    sockets: seq<SocketId>,
    closing: set<SocketId>,
    nextSocket: SocketId,
    voice: string,
    speed: real,
    cache: Cache,
    controller: Option<ControllerId>,
    aborted: set<ControllerId>,
    nextController: ControllerId)

  /** The values the module starts with: voice `af_sarah`, speed 1.0, nothing cached or playing. */
  function Initial(): (c: Client)
    ensures Drained(c.play) && c.sockets == [] && c.controller.None?
  {
    Client(Timeline.Initial(), false, [], {}, 0, "af_sarah", 1.0, Empty(), None, {}, 0)
  }

  /** `reset()`: forget the cursor and the second-segment flag; everything already scheduled keeps playing. */
  function ResetClient(c: Client): (r: Client)
    ensures r.play.nextTime.None? && !r.secondSegmentStarted
    ensures r.play.active == c.play.active && r.play.nextId == c.play.nextId
    ensures r.sockets == c.sockets && r.controller == c.controller && r.cache == c.cache
  {
    c.(play := Reset(c.play), secondSegmentStarted := false)
  }

  /** What one `stopSpeech()` call did: the streaming controller it aborted, the sources on which it
      called `stop()`, the sockets on which it called `close()`. */
  datatype Stopped = Stopped(abortedController: Option<ControllerId>, stoppedSources: seq<SourceId>, closedSockets: seq<SocketId>)

  /** The sockets still OPEN or CONNECTING, that is, not yet asked to close, in list order. */
  function StillOpen(sockets: seq<SocketId>, closing: set<SocketId>): (r: seq<SocketId>)
    ensures forall x :: x in r <==> x in sockets && x !in closing
    ensures |r| <= |sockets|
  {
    if |sockets| == 0 then []
    else (if sockets[0] in closing then [] else [sockets[0]]) + StillOpen(sockets[1..], closing)
  }

  /** `stopSpeech()`: abort the streaming controller and forget it, stop and forget every active
      source, close every socket not already closing and forget them all, then `reset()`. */
  function StopSpeech(c: Client): (r: (Client, Stopped))
    ensures Drained(r.0.play) && r.0.play.nextTime.None? && !r.0.secondSegmentStarted
    ensures r.0.sockets == [] && r.0.controller.None?
    ensures r.1.abortedController == c.controller
    ensures c.controller.Some? ==> c.controller.value in r.0.aborted
    ensures r.1.stoppedSources == c.play.active
    ensures forall x :: x in r.1.closedSockets <==> x in c.sockets && x !in c.closing
    ensures forall x :: x in c.sockets ==> x in r.0.closing
    ensures r.0.cache == c.cache && r.0.voice == c.voice && r.0.speed == c.speed
    ensures r.0.play.nextId == c.play.nextId && r.0.nextSocket == c.nextSocket && r.0.nextController == c.nextController
  {
    var aborted := if c.controller.Some? then c.aborted + {c.controller.value} else c.aborted;
    var (play, stopped) := StopAll(c.play);
    var closed := StillOpen(c.sockets, c.closing);
    var closing := c.closing + set x | x in c.sockets;
    (Client(play, false, [], closing, c.nextSocket, c.voice, c.speed, c.cache, None, aborted, c.nextController),
     Stopped(c.controller, stopped, closed))
  }

  /** A second `stopSpeech()` changes nothing and stops, aborts and closes nothing. */
  lemma StopSpeechIdempotent(c: Client)
    ensures var s := StopSpeech(c).0;
            StopSpeech(s) == (s, Stopped(None, [], []))
  {
    var s := StopSpeech(c).0;
    assert s.closing + (set x | x in s.sockets) == s.closing;
    assert StopAll(s.play).0 == s.play;
  }

  /** Sources ended by the `onended` callbacks during successive polling intervals: `ends[i]` is the
      list of sources that end between poll `i` and poll `i + 1`. */
  function EndTicks(p: Playback, ends: seq<seq<SourceId>>): Playback
    decreases |ends|
  {
    if |ends| == 0 then p else EndAll(EndTicks(p, ends[..|ends| - 1]), ends[|ends| - 1])
  }

  /** Every source ended during some interval. */
  function Flatten(ends: seq<seq<SourceId>>): seq<SourceId>
    decreases |ends|
  {
    if |ends| == 0 then [] else Flatten(ends[..|ends| - 1]) + ends[|ends| - 1]
  }

  lemma {:induction false} EndTicksActive(p: Playback, ends: seq<seq<SourceId>>)
    ensures forall x :: x in EndTicks(p, ends).active <==> x in p.active && x !in Flatten(ends)
    decreases |ends|
  {
    if |ends| > 0 {
      EndTicksActive(p, ends[..|ends| - 1]);
    }
  }

  lemma EndTicksStep(p: Playback, ends: seq<seq<SourceId>>, i: nat)
    requires i < |ends|
    ensures EndTicks(p, ends[..i + 1]) == EndAll(EndTicks(p, ends[..i]), ends[i])
  {
    assert ends[..i + 1][..i] == ends[..i];
  }

  /** Once every source that was playing has ended, polling finds the timeline drained. */
  lemma EndTicksDrains(p: Playback, ends: seq<seq<SourceId>>)
    requires forall x :: x in p.active ==> x in Flatten(ends)
    ensures Drained(EndTicks(p, ends))
  {
    EndTicksActive(p, ends);
    HeadIsMember(EndTicks(p, ends).active);
  }

  /** No check before the `n`th interval found the timeline drained. */
  predicate StillPlayingBefore(p: Playback, ends: seq<seq<SourceId>>, n: nat)
    requires n <= |ends|
  {
    forall j :: 0 <= j < n ==> !Drained(EndTicks(p, ends[..j]))
  }

  /** The polling interval of `waitForPlaybackCompletion`, in seconds. */
  const PollInterval: real := 0.1

  /** `waitForPlaybackCompletion()`: check at once, then every 100 ms, and resolve at the first check
      that finds no active source. `ends` says which sources end during each interval. Returns the
      number of intervals waited before resolving (None if still waiting after all of `ends`) and
      the timeline at that moment. */
  method WaitForPlaybackCompletion(p: Playback, ends: seq<seq<SourceId>>) returns (waited: Option<nat>, q: Playback)
    ensures waited.Some? ==> waited.value <= |ends| && q == EndTicks(p, ends[..waited.value]) && Drained(q)
    ensures waited.Some? ==> forall j :: 0 <= j < waited.value ==> !Drained(EndTicks(p, ends[..j]))
    ensures waited.None? ==> q == EndTicks(p, ends) && forall j :: 0 <= j <= |ends| ==> !Drained(EndTicks(p, ends[..j]))
    ensures (forall x :: x in p.active ==> x in Flatten(ends)) ==> waited.Some?
  {
    q := p;
    var i := 0;
    assert ends[..0] == [];
    while i < |ends| && !Drained(q)
      invariant 0 <= i <= |ends|
      invariant q == EndTicks(p, ends[..i])
      invariant StillPlayingBefore(p, ends, i)
    {
      EndTicksStep(p, ends, i);
      q := EndAll(q, ends[i]);
      i := i + 1;
    }
    if Drained(q) {
      waited := Some(i);
    } else {
      assert ends[..i] == ends;
      waited := None;
      SomeSourceOutlasts(p, ends);
    }
  }

  /** So while the timeline is still playing after all of `ends`, some source outlasted them. */
  lemma SomeSourceOutlasts(p: Playback, ends: seq<seq<SourceId>>)
    requires !Drained(EndTicks(p, ends))
    ensures exists x :: x in p.active && x !in Flatten(ends)
  {
    EndTicksActive(p, ends);
    var x := EndTicks(p, ends).active[0];
    assert x in EndTicks(p, ends).active;
  }

  // The server streaming path, `processSegment(segmentText, onFirstChunk)`.

  /** How a segment's promise ended; the first settlement wins. */
  datatype Settled = Pending | Resolved | Rejected

  function Settle(current: Settled, outcome: Settled): (r: Settled)
    ensures current != Pending ==> r == current
    ensures current == Pending ==> r == outcome
  {
    if current == Pending then outcome else current
  }

  /** The closure of one `processSegment` call: its text, its socket, whether its first audio chunk
      arrived, the sample rate it decodes at, and its promise. */
  datatype Segment = Segment(text: string, socket: SocketId, firstChunkReceived: bool, sampleRate: real, promise: Settled)

  /** A JSON text frame reduced to what the client tests: whether `error` and `end` are truthy, and
      `sample_rate` (0 when absent, which JavaScript treats as false). */
  datatype Json = Json(error: bool, end: bool, sampleRate: real)

  /** A WebSocket message: binary 16-bit PCM with `frames` samples, or text that parsed as JSON or did not. */
  datatype WsMessage = Binary(frames: nat) | Text(json: Option<Json>)

  /** The request frame sent when the socket opens. */
  datatype Payload = Payload(text: string, voice: string, speed: real)

  /** What handling one message did: whether `onFirstChunk` was called, the chunk it scheduled, and
      whether it called `ws.close()`. */
  datatype Effect = Effect(firstChunk: bool, scheduled: Option<Scheduled>, closeRequested: bool)

  const NoEffect: Effect := Effect(false, None, false)

  /** Every listed socket was handed out before the counter's current value. */
  predicate SocketsIssued(c: Client)
  {
    forall x :: x in c.sockets ==> x < c.nextSocket
  }

  /** Opens the socket and registers it: `activeSockets.push(ws)`. The decoding rate starts as the
      audio context's rate. */
  function ProcessSegment(c: Client, text: string, contextRate: real): (r: (Client, Segment))
    ensures SocketsIssued(c) ==> r.1.socket !in c.sockets && SocketsIssued(r.0)
    ensures r.0.sockets == c.sockets + [r.1.socket]
    ensures r.1.promise == Pending && !r.1.firstChunkReceived && r.1.sampleRate == contextRate
    ensures r.0.play == c.play && r.0.controller == c.controller && r.0.cache == c.cache
  {
    (c.(sockets := c.sockets + [c.nextSocket], nextSocket := c.nextSocket + 1), Segment(text, c.nextSocket, false, contextRate, Pending))
  }

  /** `ws.onopen`: start the cursor at the clock if it is unset and send text, voice and speed. */
  function Opened(c: Client, s: Segment, clock: NonNeg): (r: (Client, Segment, Payload))
    ensures r.0.play.nextTime.Some?
    ensures c.play.nextTime.Some? ==> r.0.play == c.play
    ensures c.play.nextTime.None? ==> r.0.play.nextTime == Some(clock as real) && r.0.play.active == c.play.active
    ensures !r.1.firstChunkReceived && r.1.socket == s.socket && r.1.promise == s.promise
    ensures r.2 == Payload(s.text, c.voice, c.speed)
  {
    (c.(play := InitCursor(c.play, clock)), s.(firstChunkReceived := false), Payload(s.text, c.voice, c.speed))
  }

  /** Whether `audioContext.createBuffer(1, frames, rate)` succeeds rather than throwing: at least
      one frame, and a rate within the range of 3000 to 768000 Hz that every implementation of the
      Web Audio API must support, as that API specifies for `createBuffer`. */
  predicate BufferCreatable(frames: nat, rate: real)
  {
    frames > 0 && MinSampleRate <= rate <= MaxSampleRate
  }

  const MinSampleRate: real := 3000.0
  const MaxSampleRate: real := 768000.0

  /** The length in seconds of a buffer of `frames` samples at `rate`. */
  function BufferDuration(frames: nat, rate: real): (d: NonNeg)
    requires rate > 0.0
    ensures d * rate == frames as real
  {
    (frames as real) / rate
  }

  /** `ws.onmessage`. A closing socket delivers nothing. Text: unparseable JSON is ignored; `error`
      closes the socket and rejects; `end` closes it; a truthy `sample_rate` replaces the decoding
      rate. Binary: the first chunk of the segment sets both first-chunk flags and calls
      `onFirstChunk`; then the chunk is decoded and scheduled, unless creating its buffer throws. */
  function Received(c: Client, s: Segment, msg: WsMessage, clock: NonNeg): (r: (Client, Segment, Effect))
    ensures s.socket in c.closing ==> r == (c, s, NoEffect)
    ensures r.2.firstChunk <==> s.socket !in c.closing && msg.Binary? && !s.firstChunkReceived
    ensures r.2.closeRequested <==> s.socket !in c.closing && msg.Text? && msg.json.Some? && (msg.json.value.error || msg.json.value.end)
    ensures r.2.closeRequested ==> s.socket in r.0.closing && r.2.scheduled.None?
    ensures r.1.promise == (if r.2.closeRequested && msg.json.value.error then Settle(s.promise, Rejected) else s.promise)
    ensures r.2.scheduled.Some? <==> s.socket !in c.closing && msg.Binary? && BufferCreatable(msg.frames, s.sampleRate)
    ensures r.2.scheduled.Some? ==>
              && r.2.scheduled.value.start >= clock
              && r.2.scheduled.value.length * s.sampleRate == msg.frames as real
              && r.0.play.nextTime == Some(r.2.scheduled.value.start + r.2.scheduled.value.length)
              && r.0.play.active == c.play.active + [r.2.scheduled.value.source]
    ensures r.2.scheduled.None? ==> r.0.play == c.play
    ensures r.1.sampleRate == (if s.socket !in c.closing && msg.Text? && msg.json.Some? && !msg.json.value.error
                                  && !msg.json.value.end && msg.json.value.sampleRate != 0.0
                               then msg.json.value.sampleRate else s.sampleRate)
    ensures s.firstChunkReceived ==> r.1.firstChunkReceived
    ensures r.2.firstChunk ==> r.0.secondSegmentStarted
    ensures r.1.socket == s.socket && r.0.sockets == c.sockets && r.0.controller == c.controller && r.0.cache == c.cache
    ensures Valid(c.play) ==> Valid(r.0.play)
  {
    if s.socket in c.closing then (c, s, NoEffect)
    else match msg
      case Text(None) => (c, s, NoEffect)
      case Text(Some(j)) =>
        if j.error then
          (c.(closing := c.closing + {s.socket}), s.(promise := Settle(s.promise, Rejected)), Effect(false, None, true))
        else if j.end then
          (c.(closing := c.closing + {s.socket}), s, Effect(false, None, true))
        else if j.sampleRate != 0.0 then
          (c, s.(sampleRate := j.sampleRate), NoEffect)
        else (c, s, NoEffect)
      case Binary(frames) =>
        var first := !s.firstChunkReceived;
        var s' := s.(firstChunkReceived := true);
        var c' := if first then c.(secondSegmentStarted := true) else c;
        if BufferCreatable(frames, s.sampleRate) then
          var (play, sched) := ScheduleChunk(c'.play, clock, BufferDuration(frames, s.sampleRate));
          (c'.(play := play), s', Effect(first, Some(sched), false))
        else (c', s', Effect(first, None, false))
  }

  /** `ws.onerror`: reject, unless already settled. */
  function Errored(s: Segment): (r: Segment)
    ensures r.promise == Settle(s.promise, Rejected)
    ensures r.socket == s.socket && r.firstChunkReceived == s.firstChunkReceived
  {
    s.(promise := Settle(s.promise, Rejected))
  }

  /** `ws.onclose`: drop the socket from `activeSockets` and resolve, unless already settled. */
  function Closed(c: Client, s: Segment): (r: (Client, Segment))
    ensures forall x :: x in r.0.sockets <==> x in c.sockets && x != s.socket
    ensures r.1.promise == Settle(s.promise, Resolved)
    ensures r.0.play == c.play && r.0.controller == c.controller
  {
    (c.(sockets := Without(c.sockets, s.socket)), s.(promise := Settle(s.promise, Resolved)))
  }

  /** Handles messages in order, `msgs[k]` at clock reading `clocks[k]`; returns how many times
      `onFirstChunk` was called. */
  function ReceiveAll(c: Client, s: Segment, msgs: seq<WsMessage>, clocks: seq<NonNeg>): (Client, Segment, nat)
    requires |msgs| == |clocks|
    decreases |msgs|
  {
    if |msgs| == 0 then (c, s, 0)
    else
      var (c', s', e) := Received(c, s, msgs[0], clocks[0]);
      var (c'', s'', n) := ReceiveAll(c', s', msgs[1..], clocks[1..]);
      (c'', s'', n + (if e.firstChunk then 1 else 0))
  }

  /** `onFirstChunk` runs at most once per segment, and never again once the first chunk arrived. */
  lemma {:induction false} FirstChunkAtMostOnce(c: Client, s: Segment, msgs: seq<WsMessage>, clocks: seq<NonNeg>)
    requires |msgs| == |clocks|
    ensures ReceiveAll(c, s, msgs, clocks).2 <= 1
    ensures s.firstChunkReceived ==> ReceiveAll(c, s, msgs, clocks).2 == 0
    ensures s.firstChunkReceived ==> ReceiveAll(c, s, msgs, clocks).1.firstChunkReceived
    ensures ReceiveAll(c, s, msgs, clocks).2 == 1 ==> ReceiveAll(c, s, msgs, clocks).1.firstChunkReceived
    decreases |msgs|
  {
    if |msgs| > 0 {
      var (c', s', e) := Received(c, s, msgs[0], clocks[0]);
      FirstChunkAtMostOnce(c', s', msgs[1..], clocks[1..]);
      if e.firstChunk {
        assert s'.firstChunkReceived;
      }
    }
  }

  /** An error frame followed by the close event leaves the promise rejected and the socket gone;
      an end frame followed by the close event resolves it. */
  lemma ErrorOrEndThenClose(c: Client, s: Segment, j: Json, clock: NonNeg)
    requires s.socket !in c.closing && s.promise == Pending
    requires j.error || j.end
    ensures var (c', s', _) := Received(c, s, Text(Some(j)), clock);
            var (c'', s'') := Closed(c', s');
            && s'' .promise == (if j.error then Rejected else Resolved)
            && s.socket !in c''.sockets
            && c''.play == c.play
  {
  }

  /** A `sample_rate` frame sets the rate at which every later chunk of the segment is timed; with a
      rate the audio context cannot create buffers at, every later chunk throws and is dropped. */
  lemma SampleRateAppliesToLaterChunks(c: Client, s: Segment, rate: real, frames: nat, clock1: NonNeg, clock2: NonNeg)
    requires s.socket !in c.closing
    requires rate != 0.0 && frames > 0
    ensures var (c', s', _) := Received(c, s, Text(Some(Json(false, false, rate))), clock1);
            var e := Received(c', s', Binary(frames), clock2).2;
            && (e.scheduled.Some? <==> MinSampleRate <= rate <= MaxSampleRate)
            && (e.scheduled.Some? ==> e.scheduled.value.length == (frames as real) / rate)
  {
  }
}
